=== FILE: README.md ===
# Llibreta docent: storage engine, calendar rules and number text, in Dafny

This project models the sequential core of a teacher's notebook web application. It has four parts.

- **Storage.** The application keeps its whole state in one IndexedDB record, the primary. It optionally mirrors that record into an encrypted file on disk, the mirror. The model covers:
  - the record's version counter;
  - the encrypted container and its ordered decryption checks;
  - password change by rewrapping the data key;
  - the advisory lock file;
  - the backup cadence;
  - the main → `.prev` → backup recovery chain;
  - the coordinator that adopts a newer mirror on load and saves primary-first.
- **Store and calendar.** The reactive store counts a version and logs history only on a real change. The model also covers:
  - the calendar edits of an assignatura: trimestres, festius, excepcions, weekdays and schedule versions;
  - the choice of the active schedule, the decision whether a day is lectiu, and session listing;
  - CE/CA identifiers and the reordering of their positions.
- **Catalan number text.** This covers `parseNumberComma`, `formatNumberComma` and `normalizeDecimals`, at the level of digit strings.
- **View helpers.** These are the pure calendar helpers of the user interface: range overlap, trimestre validation, weekday formatting and calendar normalisation.

Modelling choices:
- Dates are day numbers counted from 1970-01-01. Comparing ISO date strings is the same as comparing these integers. The weekday is `(d + 4) % 7`, with Sunday as 0.
- Web Crypto is a `Crypto.Suite` value passed as a parameter. It holds PBKDF2 (section 5.2 of RFC 8018), SHA-256, AES-KW (RFC 3394) and AES-GCM (NIST SP 800-38D) as functions.
- The predicate `Crypto.RoundTrips` holds the round-trip laws. Lemmas that need those laws take it as a precondition. `Crypto.LawfulSuiteExists` proves that some suite meets these laws together with `Crypto.FingerprintsSeparate`. Its witness serialises JSON with `JsonCode`, a self-delimiting reference byte code that is proved to parse back.
- A JSON number is a `Json.Double`: a finite IEEE 754 double other than `-0`, written in lowest terms as `mantissa * 2^exponent` (odd mantissa, or `(0, 0)` for zero). `Json.DoubleCanonical` proves that no number has two forms. So a serializer that writes a number's value, as `JSON.stringify` does, can meet the parse-after-serialise law of `Crypto.RoundTrips`.
- The storage operations built on the envelope run over its corrected half, where the key-encrypting key is derived extractable (see "Findings"). These are the export and import of the primary, and the mirror's save, load and password change. As written, each of them fails at the raw-key export.
- Each write to the mirror's folder may fail: `FileSystem.WriteIo` says whether the main file, the `.prev` copy and a backup are written. The lock file's writes are given the same way by `FileSystem.LockIo`.
- Clocks, random bytes, password prompts and file contents are parameters.
- Base64 decoding is the strict form of section 4 of RFC 4648. This is narrower than the `atob` the source calls (see "Left out").

Modules:

| module | file |
|---|---|
| `Wrappers` | `wrappers.dfy` |
| `Base64`, `Hex` | `bytes.dfy` |
| `Json` | `json.dfy` |
| `JsonCode` | `jsoncode.dfy` |
| `Crypto` | `crypto.dfy` |
| `Envelope` | `envelope.dfy` |
| `Primary` | `primary.dfy` |
| `FileLock` | `filelock.dfy` |
| `FileSystem` | `filesystem.dfy` |
| `Composite` | `composite.dfy` |
| `Collections`, `Store` | `store.dfy` |
| `Sorting` | `sorting.dfy` |
| `Text` | `text.dfy` |
| `Calendar` | `calendar.dfy` |
| `Schedule` | `schedule.dfy` |
| `Criteria` | `criteria.dfy` |
| `Numbers` | `numbers.dfy` |
| `Views` | `views.dfy` |

## Model

| member | source | states |
|---|---|---|
| Base64.Encode | src/storage.js:131-139 | `btoa` output is 4 characters for every started group of 3 bytes |
| Base64.DecodeEncode | src/storage.js:131-148 | `fromBase64(toBase64(b))` gives back exactly `b` for every byte string |
| Base64.EncodeInjective | src/storage.js:131-139 | two different byte strings never encode to the same Base64 text |
| Base64.IndexOfLetter | src/storage.js:141-148 | each of the 64 alphabet letters decodes back to its own index |
| Hex.ToHex | src/storage.js:156-161 | two lower-case hex digits per byte |
| Hex.FromHexToHex | src/storage.js:156-161 | the hex text of a buffer reads back as the same buffer |
| Crypto.DeriveKek | src/storage.js:287-298 | the key-encrypting key has the PBKDF2 bytes and the `extractable` flag it was derived with |
| Crypto.LawfulSuiteExists | src/storage.js:330-436 | some suite meets all the round-trip laws (unwrap after wrap, decrypt after encrypt, parse after serialise) and separates password fingerprints, so the lemmas that assume these laws are about real suites |
| Crypto.ExportRaw | src/storage.js:301-303 | `exportKey('raw', key)` yields the raw bytes iff the key is extractable; otherwise it fails with InvalidAccessError |
| Json.DoubleCanonical | src/storage.js:347 | two doubles denote the same number exactly when they are the same value of the model, so what `JSON.stringify` writes for a number identifies it |
| Json.ShallowMerge | src/storage.js:183-187 | two plain objects merge key by key, with the patch winning; otherwise the patch replaces the base |
| Json.ShallowMergeIdempotent | src/storage.js:183-187 | merging the same patch twice is the same as merging it once |
| Envelope.PlaintextOf | src/storage.js:343-346 | the encrypted plaintext carries the state under `state` |
| Envelope.Iterations | src/storage.js:395 | a missing or zero iteration count falls back to the default |
| Envelope.Decrypt | src/storage.js:383-436 | non-object → CORRUPTED_FILE; format ≠ 2 → FILE_FORMAT_VERSION_MISMATCH; no header → CORRUPTED_FILE; fingerprint mismatch → CONTRASENYA_INCORRECTA; an unwrap failure → CONTRASENYA_INCORRECTA; an AES-GCM failure or a digest mismatch → INTEGRITY_FAIL; success yields the parsed plaintext and the unwrapped data key (corrected half: the key-encrypting key is derived extractable) |
| Envelope.DecryptAsWritten | src/storage.js:383-397 | as written (non-extractable key-encrypting key): decryption never succeeds; a well-formed header fails at the raw-key export |
| Envelope.OpenPayload | src/storage.js:417-435 | bad Base64 is malformed; an AES-GCM failure gives INTEGRITY_FAIL; plaintext that is not JSON is a parse error; a digest mismatch gives INTEGRITY_FAIL; otherwise the parsed plaintext |
| Envelope.WrongPasswordBeforeUnwrap | src/storage.js:393-405 | a fingerprint mismatch gives CONTRASENYA_INCORRECTA whatever the unwrap function, data key or ciphertext |
| Envelope.Seal | src/storage.js:352-379 | the written header carries format 2, the given meta and iterations, the fixed algorithm names, and the salt and IV in Base64 |
| Envelope.Encrypt | src/storage.js:330-381 | corrected half: with an extractable key-encrypting key it succeeds iff the salt is readable and the data key is obtained; the salt and iteration count are reused from the previous header when present, and the meta is written as given |
| Envelope.EncryptAsWritten | src/storage.js:330-334 | as written: encryption never succeeds; with a readable previous salt it fails at the raw-key export |
| Envelope.SealOpens | src/storage.js:330-436 | a container sealed with a password decrypts with that password to the same plaintext and data key |
| Envelope.SealedDoesNotOpenAsWritten | src/storage.js:287-302 | as written, a container sealed with a password is still refused when decrypted with that same password |
| Envelope.TamperedDigestRejected | src/storage.js:429-434 | a sealed container whose recorded digest is replaced by another gives INTEGRITY_FAIL |
| Envelope.EncryptDecryptRoundTrip | src/storage.js:330-436 | the state encrypted into a container is the state decrypted from it |
| Envelope.EncryptKeepsDek | src/storage.js:337-339 | re-encrypting over a previous header keeps the data key that header wraps |
| Envelope.WrongPasswordLaw | src/storage.js:399-405 | with fingerprints that separate passwords, any other password gets CONTRASENYA_INCORRECTA |
| Envelope.Rewrap | src/storage.js:438-472 | corrected half: a wrong old password is rejected; on success the payload, meta, integrity and ciphertext are unchanged |
| Envelope.RewrapAsWritten | src/storage.js:438-443 | as written: a password change never succeeds; with a derivable old key it fails at the raw-key export |
| Envelope.RewrapPreservesContents | src/storage.js:438-472 | after a password change the new password opens the same plaintext and data key that the old one opened |
| Primary.DeviceIdOf | src/storage.js:163-166 | the device id is the hex text of the random bytes and reads back to them |
| Primary.InitialRecord | src/storage.js:498-512 | a fresh record has version 0, an empty state, encryption on, no file handle and no backup |
| Primary.EnsureCache | src/storage.js:491-519 | a stored record is used as is; otherwise the initial record is created |
| Primary.MergeSettings | src/storage.js:531-541 | every settings field the patch sets (file handle, encryption, backup version and time, device id, last backup, options) is replaced; the others are kept |
| Primary.UpdateSettings | src/storage.js:531-541 | a settings update leaves version, state and timestamp untouched |
| Primary.NextState | src/storage.js:546-547 | a plain-object patch is shallow-merged into a plain-object state; anything else replaces it |
| Primary.Save | src/storage.js:543-562 | `save` sets the version to exactly the old one plus 1 and stamps the time |
| Primary.SaveAllCounts | src/storage.js:543-562 | n saves raise the version by exactly n and never touch the settings |
| Primary.SavePatchIdempotent | src/storage.js:543-562 | saving the same patch again does not change the state further |
| Primary.SetState | src/storage.js:564-579 | state, version and timestamp are set as given; the settings are kept |
| Primary.ExportMeta | src/storage.js:585-590 | the exported meta carries the current version, the previous one and the record's device id |
| Primary.ExportEncrypted | src/storage.js:581-599 | corrected half, built on Envelope.Encrypt: an empty password is refused; otherwise the container carries the export meta with default iterations |
| Primary.ImportEncrypted | src/storage.js:601-626 | corrected half, built on Envelope.Decrypt: missing file or password, unparsable file and decrypt errors are reported; a version not newer gives OLDER_VERSION; a newer one is adopted with its state |
| Primary.ExportImportTransfers | src/storage.js:581-626 | exporting from a newer record and importing into an older one transfers state and version |
| Primary.ReimportIsOlder | src/storage.js:601-626 | re-importing one's own export is refused as OLDER_VERSION |
| FileLock.Claim | src/storage.js:661-666 | the written lock names this device, heartbeat now, expiry now + ttl |
| FileLock.Acquire | src/storage.js:657-683 | refused exactly when an existing lock is live (before expiry + 10 s grace and heartbeat younger than 120 s) or the write fails; otherwise the claim is written |
| FileLock.Renew | src/storage.js:685-694 | renewal writes a fresh heartbeat, and the lock is live for a positive ttl |
| FileLock.Release | src/storage.js:696-707 | a successful truncation empties the lock file; a failed one is caught and leaves the lock as it was |
| FileLock.LockExcludesForTtl | src/storage.js:657-683 | after one device takes the lock, another gets it only once 120 s have passed |
| FileLock.ReleaseFrees | src/storage.js:696-707 | after a successful release anyone can acquire |
| FileLock.FailedReleaseHolds | src/storage.js:696-707 | a release whose truncation fails leaves the holder's claim, so another device still gets the lock only after 120 s |
| FileLock.Window | src/storage.js:939-948 | the retry loop makes exactly the attempts started within 15 s |
| FileLock.FirstSuccess | src/storage.js:939-948 | the first successful attempt; none when all attempts fail |
| FileLock.AcquireWithRetry | src/storage.js:939-948 | without a lock it succeeds at once; with one it succeeds exactly when some attempt in the window acquires |
| FileLock.FirstSuccessStable | src/storage.js:939-948 | a longer window does not change which attempt first succeeds |
| FileSystem.PutLookup | src/storage.js:950-974 | writing a file replaces exactly that name and leaves every other file alone |
| FileSystem.ReadContainer | src/storage.js:999-1011 | a missing file is an error, an empty one is nothing, non-JSON is CORRUPTED_FILE |
| FileSystem.FirstBackup | src/storage.js:1031-1036 | some entry whose name contains `.backup-`, and no entry before it has such a name; none iff no entry does |
| FileSystem.ResilientLoad | src/storage.js:1013-1044 | main file if present; else `.prev` if it parses; else the first backup entry's parse, with no further search |
| FileSystem.WriteContainer | src/storage.js:950-974 | a failed main-file write is an error and changes nothing; otherwise the main file holds the container; with `keepPrev`, `.prev` holds it when that write succeeds, and a failed `.prev` write is swallowed and leaves `.prev` as it was |
| FileSystem.BackupStamp | src/storage.js:987 | the stamp is at most 15 characters; FileSystem.BackupStampOfIso gives its text |
| FileSystem.BackupStampOfIso | src/storage.js:987 | on an ISO timestamp `YYYY-MM-DDTHH:MM:SS…` the stamp is `YYYYMMDDTHHMMSS` |
| FileSystem.MaybeBackup | src/storage.js:976-997 | a backup is written and its version and time recorded iff the folder is reachable, the version moved ≥ 50 or 24 h passed, and the backup write succeeds; otherwise nothing changes, so a failed backup is due again on the next save |
| FileSystem.EnsurePassword | src/storage.js:920-937 | no password when unencrypted; a missing callback or empty answer is an error unless optional |
| FileSystem.LockView | src/storage.js:709-718 | an absent, empty or unparsable lock file reads as no lock |
| FileSystem.LockAcquired | src/storage.js:802-814 | without a parent folder the lock is skipped; otherwise the lock is obtained iff the claim write succeeds and some attempt in the window finds no live lock |
| FileSystem.LockAttempt | src/storage.js:939-948 | the index of the successful retry attempt, always one of the clock readings |
| FileSystem.ClaimOf | src/storage.js:661-666 | the claim the save wrote: this device, heartbeat at the successful attempt, expiry 120 s later |
| FileSystem.Seal | src/storage.js:816-835 | corrected half, built on Envelope.Encrypt: an unencrypted mirror gets no password; a container is written only with a password and the previous header reused |
| FileSystem.WriteLocked | src/storage.js:816-846 | corrected half, built on Envelope.Encrypt: a failed seal and a failed main-file write both give FS_WRITE_FAIL; OK iff the container is sealed and the main write succeeds; on anything but OK neither folder nor record changes; on OK the main file holds the sealed container |
| FileSystem.ReleaseLock | src/storage.js:696-707 | the lock file reads as `release` leaves it: empty when the truncation succeeds, the save's own claim when it fails; the main file is untouched |
| FileSystem.SaveToFile | src/storage.js:802-847 | corrected half, built on Envelope.Encrypt: disconnected → FS_NOT_CONNECTED; lock not acquired → LOCKED; the record's state and version never change; OK means the file holds the sealed state; once the lock was taken, the lock file reads as released or, if the truncation failed, as the save's claim; with the lock held and the container sealed, a failed main-file write gives FS_WRITE_FAIL and leaves the record alone |
| FileSystem.FailedReleaseBlocks | src/storage.js:696-707 | a save whose lock truncation fails keeps every other device out for 120 s after its claim |
| FileSystem.LoadFromFile | src/storage.js:849-874 | corrected half, built on Envelope.Decrypt: a loaded result is the decrypted state and version of the recovered container |
| FileSystem.ChangePassword | src/storage.js:901-918 | corrected half, built on Envelope.Rewrap: with nothing to recover → FS_READ_FAIL; after a successful rewrap it fails with the write error iff the main-file write fails; on success the main file holds the rewrapped container |
| FileSystem.SecretIsPassword | src/storage.js:857-859 | the secret used for decrypting is the password the prompt returned |
| FileSystem.SaveThenLoad | src/storage.js:802-874 | what a successful save writes, a later load with the same password reads back: state, version and timestamp |
| FileSystem.LoadDocument | src/storage.js:849-874 | corrected half, built on Envelope.Decrypt: a recoverable container that decrypts loads as its state, version and timestamp |
| FileSystem.ChangePasswordKeepsData | src/storage.js:901-918 | after a password change the new password loads what the old one loaded; the change fails exactly when the main-file write fails |
| FileSystem.FirstSaveBacksUp | src/storage.js:976-984 | the first save of a new record (no backup timestamp yet) backs up |
| FileSystem.BackupCadence | src/storage.js:976-997 | after a backup the next one is due iff 50 versions or 24 h have passed since it; a failed backup write leaves the settings as they were |
| Composite.Load | src/storage.js:1069-1083 | the mirror's content is adopted into the primary iff its version is strictly greater; otherwise the primary is returned unchanged |
| Composite.Save | src/storage.js:1085-1104 | the returned version is the primary's old version plus 1 whatever the mirror's outcome |
| Composite.SaveSyncsOtherDevice | src/storage.js:1069-1104 | a device that loads after another device's successful save gets that save's state and version |
| Composite.ExportEncrypted | src/storage.js:1106-1109 | corrected half, built on Envelope.Encrypt: export refuses an empty password and carries the primary's version |
| Composite.ImportEncrypted | src/storage.js:1111-1124 | corrected half, built on Envelope.Decrypt: the primary's import errors pass through; on success the state and version are the imported ones and the version grows |
| Composite.Follow | src/storage.js:1114-1122 | writing the mirror after an import leaves the primary's state and version alone |
| Composite.ChangePassword | src/storage.js:1126-1132 | refused with FS_NOT_CONNECTED without a mirror; otherwise the mirror's password change |
| Collections.Empty | src/state.js:695-699 | a new collection is well formed |
| Collections.Add | src/state.js:701-707 | the entity is stored under its id, and the id is appended only if new |
| Collections.Items | src/state.js:946-949 | the entities in `allIds` order |
| Store.RecordChange | src/state.js:734-749 | version and history grow by one exactly when the state differs from the snapshot |
| Store.ApplyMutationAsWritten | src/state.js:751-759 | as written: a mutator that returns normally is recorded as `recordChange` does; one that throws leaves its changes in place with no version bump |
| Store.UnrecordedChange | src/state.js:751-759 | a concrete mutator that changes the data and throws leaves the change unrecorded |
| Store.ApplyMutation | src/state.js:751-759 | the corrected mutation records whatever the mutator left, and its error is still rethrown |
| Store.ApplyMutationAccounts | src/state.js:734-759 | version +1 ⟺ one history entry ⟺ the data changed; no change ⟺ the store is untouched |
| Store.RunBatch | src/state.js:770-783 | a nested `transact` makes the batch fail; an empty batch changes nothing |
| Store.Transact | src/state.js:770-783 | a transaction bumps the version at most once, and exactly when the data changed |
| Store.NoOpBatch | src/state.js:770-783 | a batch of no-op mutations yields the data unchanged |
| Sorting.InsertBy | src/state.js:1039 | inserting into a list sorted by key keeps it sorted and adds one element |
| Sorting.SortBy | src/state.js:1039 | the result is sorted by key and a permutation of the input |
| Sorting.SortByStable | src/state.js:1039 | the sort is stable: two elements with equal keys keep their relative order |
| Sorting.Filter | src/state.js:1046-1054 | `filter`: exactly the elements that pass, no more than there were |
| Sorting.FilterKeepsOrder | src/state.js:1046-1054 | two kept elements are in the same order after filtering as before |
| Sorting.InsertUnique | src/state.js:1012 | inserting into a strictly increasing list keeps it strictly increasing with one more member |
| Sorting.SortedUnique | src/state.js:1012 | `Array.from(new Set(xs)).sort()`: strictly increasing, with the same members |
| Text.Trim | src/i18n.js:151 | the input is white space, then the result, then white space, and the result neither starts nor ends with white space, which fixes it uniquely |
| Text.TrimBetween | src/i18n.js:151 | a white-space prefix cut from the front and a white-space suffix cut from the back leave the input split as prefix, result, suffix |
| Text.TrimEmptyIffAllSpace | src/i18n.js:151-154 | trimming gives the empty string iff the input is all whitespace |
| Text.RemoveSpaces | src/i18n.js:155 | no whitespace remains; it distributes over concatenation (Text.RemoveSpacesAppend), so the kept characters keep their order |
| Text.RemoveSpacesKeeps | src/i18n.js:155 | a character is in the result iff it is in the input and is not whitespace |
| Calendar.EmptyCalendari | src/state.js:950-963 | a new calendar has the given ids, empty lists, no course bounds, no weekdays and no active version |
| Calendar.NoteAt | src/state.js:1063 | the `Map` lookup by date: present iff some entry has that date |
| Calendar.Upsert | src/state.js:1065 | setting one dated entry keeps the list strictly by date and overrides exactly that date |
| Calendar.UpsertAll | src/state.js:1063-1066 | after the merge, each date shows the incoming entry if there is one, else the existing one |
| Calendar.MergeNotes | src/state.js:1056-1071 | the merge-by-date of existing and incoming entries, sorted with unique dates |
| Calendar.RemoveDates | src/state.js:1073-1087 | exactly the entries whose date is listed are dropped, and the kept ones stay in their order |
| Calendar.RemoveDatesNoteAt | src/state.js:1073-1087 | a removed date has no entry and every other date keeps its own |
| Calendar.SetDiesSetmanals | src/state.js:1005-1017 | the weekdays are the given values in 0..6, deduplicated and ascending; nothing else changes |
| Calendar.FilterWeekdays | src/state.js:1009-1011 | keeps exactly the values in 0..6 |
| Calendar.IndexOfTrimestre | src/state.js:1032 | the first trimestre with that id, or none |
| Calendar.AddTrimestre | src/state.js:1019-1044 | missing dates and end before start are rejected; otherwise the trimestre replaces the one with its id or is appended, the list is sorted by start, and trimestres with equal starts keep their order |
| Calendar.ReplaceOrAppend | src/state.js:1032-1038 | `findIndex` then replace or `push`: the new element is present and the list is the old one with at most one entry replaced |
| Calendar.AddTrimestreReplaces | src/state.js:1019-1044 | on a list with unique ids, the result holds exactly the new trimestre and the old ones with other ids, and the ids stay unique |
| Calendar.RemoveTrimestre | src/state.js:1046-1054 | exactly the trimestres with that id are dropped, and the others keep their order |
| Calendar.AddFestius | src/state.js:1056-1071 | festius stay strictly by date; an incoming entry for a date overrides the existing one |
| Calendar.RemoveFestius | src/state.js:1073-1087 | exactly the listed dates are dropped and the kept festius keep their order; an empty list changes nothing |
| Calendar.AddExcepcions | src/state.js:1089-1104 | excepcions stay strictly by date; incoming entries override by date |
| Calendar.RemoveExcepcio | src/state.js:1106-1116 | exactly the excepcions of that date are dropped, and the others keep their order |
| Calendar.IndexOfVersio | src/state.js:1134 | the first version with that id, or none |
| Calendar.AddHorariVersio | src/state.js:1118-1145 | a missing start or no weekday in 0..6 is rejected; otherwise the version replaces or joins, sorted by start with ties in their previous order, with sorted unique days |
| Calendar.ActivateHorariVersio | src/state.js:1147-1158 | succeeds iff a version with that id exists, and then only the active id changes |
| Calendar.AddedVersioActivates | src/state.js:1118-1158 | a version just added can be activated, and activation then changes only the active id |
| Calendar.GetCalendari | src/state.js:946-949 | the first calendar in `allIds` order whose assignatura matches, or none when no calendar has it |
| Calendar.UpdateCalendari | src/state.js:981-987 | the edited calendar is stored under its id and every other calendar is untouched; a missing calendar is created |
| Calendar.Apply | src/state.js:981-987 | corrected half of the `applyMutation` finding (built on Store.ApplyMutation): a calendar edit counts a version exactly when it changes the collection; the code as written is Calendar.ApplyAsWritten |
| Calendar.ApplyAsWritten | src/state.js:946-987 | as written: a failed edit keeps a newly created calendar with no version bump, and the error is reported iff the edit fails; an edit that succeeds bumps the version iff the collection changed |
| Calendar.CreatedCalendarUnrecorded | src/state.js:946-1044 | `addTrimestre` with a missing date on an assignatura without a calendar creates the calendar unrecorded; the corrected store records it |
| Calendar.SetCursRange | src/state.js:989-1003 | end before start is rejected with its message; otherwise the two bounds are set |
| Schedule.CourseRangeBounds | src/state.js:989-1003 | after `setCursRange`, a date before the new start or after the new end is not lectiu, with the matching reason |
| Calendar.RemoveExcepcioCommand | src/state.js:1106-1116 | an invalid date does nothing; otherwise the excepcio is removed |
| Schedule.CompareISODate | src/state.js:173-179 | −1/0/1, with a missing date sorting first and two missing dates equal |
| Schedule.Weekday | src/state.js:167-171 | a weekday in 0..6 |
| Schedule.Candidates | src/state.js:1165 | versions with no start or a start not after the date |
| Schedule.FindVersio | src/state.js:1169 | a version with that id, or none iff no version has it |
| Schedule.FirstLatest | src/state.js:1171-1177 | the first candidate with the greatest start date |
| Schedule.SelectVersio | src/state.js:1165-1177 | the active version when it is in force; otherwise the first of the candidates with the latest start date (FirstLatest); none iff no candidate |
| Schedule.ActivatedVersioSelected | src/state.js:1147-1177 | after activating a version, it is the one chosen on every date where each version of that id is in force |
| Schedule.ScheduleOn | src/state.js:1178-1190 | the selected version's days, else the calendar's own days (no version id), else nothing; the days come out sorted and unique |
| Schedule.GetActiveSchedule | src/state.js:1160-1191 | nothing without a calendar or a valid date |
| Schedule.FirstNote | src/state.js:1208-1215 | the first entry of that date, or none |
| Schedule.FirstNoteIsNoteAt | src/state.js:1208-1215 | on a list strictly by date, the first entry of a date is the merged one |
| Schedule.Reportable | src/state.js:1224-1226 | the version id is reported iff it is non-blank |
| Schedule.EvaluateOn | src/state.js:1201-1235 | the checks in source order, each reason holding only once the earlier checks passed: before `cursInici` → the before-start reason; after `cursFi` → the after-end reason; a festiu → its motiu or `Festiu`; an excepcio → its motiu or `Excepció`; no schedule or no days → `Sense horari actiu`; otherwise lectiu iff the weekday is scheduled, else `No hi ha classe aquest dia`, with the reportable version id |
| Schedule.EvaluateLectiu | src/state.js:1193-1235 | an invalid date → `Data invàlida`; no calendar → `Sense calendari configurat`; otherwise the calendar's verdict |
| Schedule.AddedFestiuIsNotLectiu | src/state.js:1056-1235 | a day just added as festiu is not lectiu, and within the course its reason is the festiu's |
| Schedule.ListSessions | src/state.js:1241-1258 | no sessions for missing bounds or `from > to`; otherwise exactly the lectiu days in range, ascending, with their weekdays |
| Schedule.CollectDays | src/state.js:1250-1256 | the loop collects exactly the days in range that pass the test, in ascending order |
| Schedule.ListSessionsTrimestre | src/state.js:1260-1266 | no sessions without the calendar or trimestre; otherwise exactly the lectiu days of that trimestre |
| Criteria.FormatCE | src/state.js:75-78 | an index < 1 is rejected; otherwise `CE` + text + digits |
| Criteria.FormatCA | src/state.js:80-84 | a CE index < 1 is rejected first, then a CA index < 1; otherwise `CA` + text + `ce.index` |
| Criteria.TrailingDigits | src/state.js:87 | the length of the final digit run |
| Criteria.ParseCEId | src/state.js:86-92 | no trailing digits → `Identificador CE invàlid`; an accepted index is ≥ 1 |
| Criteria.ParseCAId | src/state.js:94-102 | accepted CE and CA indices are both ≥ 1 |
| Criteria.ParseFormatCE | src/state.js:75-92 | parsing a formatted CE id gives back its index when the text does not end in a digit |
| Criteria.ParseFormatCA | src/state.js:80-102 | parsing a formatted CA id gives back `{ceIndex, index}` when the text does not end in a digit |
| Criteria.GroupIds | src/state.js:471-473 | the ids of the group's members in `allIds` order |
| Criteria.Remove | src/state.js:477 | filtering out one id keeps the others |
| Criteria.Renumber | src/state.js:480-482 | positions become 1..n in list order, and everything else is kept |
| Criteria.Ordered | src/state.js:471-479 | the members with the moved one at `min(newPosition, n)`; any two others with different positions keep their by-position order |
| Criteria.SortedBefore | src/state.js:471-474 | in a list sorted by position, a smaller position comes first |
| Criteria.RemoveKeepsBefore | src/state.js:477 | filtering out one id keeps the order of the others |
| Criteria.RenumberFollowsOrder | src/state.js:480-482 | renumbering gives an earlier member a smaller position |
| Criteria.Insert | src/state.js:479 | `splice(k, 0, x)`: x lands at k, the members are the old ones plus x, and taking x out gives back the list, so the others keep their order |
| Criteria.RemoveInserted | src/state.js:477-479 | taking the inserted element out again gives back the list |
| Criteria.RenumberedGroup | src/state.js:480-482 | after renumbering, the group's positions are distinct, in 1..n, and nothing outside the group changes |
| Criteria.Reorder | src/state.js:469-496 | reorderCE and reorderCA (one algorithm, grouped by assignatura or by CE): newPosition < 1 is rejected; an unknown member is rejected; otherwise the group becomes a permutation of 1..n with the moved one at `min(newPosition, n)`, two others with different old positions keep their relative order, and nothing outside the group changes |
| Numbers.NormalizeDecimals | src/i18n.js:93-99 | accepted iff `undefined`, `null` or an integer in 0..3; `undefined` and `null` both give 0 |
| Numbers.Group | src/i18n.js:137 | grouping keeps the digits and adds one separator per three digits |
| Numbers.GroupPositions | src/i18n.js:137 | U+202F sits exactly before each third digit counted from the right, never at the start |
| Numbers.GroupUngroups | src/i18n.js:137-155 | stripping the grouping spaces gives back the digits |
| Numbers.FormatNumberComma | src/i18n.js:93-142 | bad decimals are rejected; a left-out `decimals` means 1, so the text has a comma, while `null` means 0 and gives none; the text starts with `-` iff negative |
| Numbers.Count | src/i18n.js:161-162 | a character's count is positive iff it occurs |
| Numbers.LastIndex | src/i18n.js:163-164 | the last position of a character, or none |
| Numbers.DecimalSeparator | src/i18n.js:161-172 | with both marks the later one is decimal; a single kind is decimal iff it occurs once; no separator otherwise |
| Numbers.Normalize | src/i18n.js:174-186 | the sign, then: with no decimal separator the digits with every separator dropped; with one, the digits before its last occurrence (or `0` when there are none), a `.`, and the digits after it |
| Numbers.ParseText | src/i18n.js:151-160 | blank text is rejected; accepted iff the unsigned remainder is well formed; the result is the sign followed by the input's digits in order, with one `.` and a leading `0` when the text starts with a separator |
| Numbers.ParseNumberComma | src/i18n.js:144-195 | absent input is rejected; a finite number passes through; blank text is rejected; other text parses iff well formed, to the normalised text of `Numbers.ParseText` |
| Numbers.ParseFormatRoundTrip | src/i18n.js:130-195 | parsing formatted digits gives `sign int`, or `sign int.frac` when decimals > 0 |
| Numbers.ParseSplit | src/i18n.js:144-186 | a non-blank text with a well-formed unsigned part parses to its normalised form |
| Views.NormalizeVersio | src/views.js:237-241 | a version's days become sorted and unique with the same members; id and start are kept |
| Views.GetCalendariForAssignatura | src/views.js:203-243 | no id gives none; no calendar gives an all-empty one for that assignatura; otherwise its versions are normalised |
| Views.NormalizeVersionsIdempotent | src/views.js:237-241 | normalising the versions twice changes nothing more |
| Views.Rank | src/views.js:245 | `WEEKDAY_ORDER.indexOf`: Monday..Saturday are 0..5, Sunday is 6, anything else is −1 |
| Views.Label | src/views.js:246-254 | the short name of the table `Dg`..`Ds` for 0..6, the number's text otherwise; never empty, with no comma or space |
| Views.JoinLabels | src/views.js:256-260 | `join(', ')`: each day's label appears; one day prints as its label alone; two or more contain a comma |
| Views.OrderDies | src/views.js:256-260 | each day once, with the same members, ordered by weekday rank |
| Views.FormatDiesSetmanals | src/views.js:256-260 | `Cap dia definit` iff the list is empty; otherwise every day's label appears, the labels of the ordered days joined |
| Views.JoinIsNotNoDays | src/views.js:256-260 | a non-empty list never prints as `Cap dia definit` |
| Views.WeekdaysIn | src/views.js:245 | the weekdays present, in Monday..Sunday order |
| Views.OrderDiesWeekdays | src/views.js:256-260 | for weekday values the order is Monday..Saturday, then Sunday |
| Views.RangesOverlap | src/views.js:262-265 | false if any bound is missing; otherwise `!(aFi < bInici or aInici > bFi)`, which means a shared day for ordered ranges |
| Views.RangesOverlapSymmetric | src/views.js:262-265 | overlap is symmetric |
| Views.DisplayName | src/views.js:277 | `nom` when non-empty, else the id |
| Views.FirstClash | src/views.js:274-279 | the first other trimestre that overlaps, or none |
| Views.ValidateTrimestreRange | src/views.js:267-281 | `''` iff both dates are present, in order, and no other trimestre overlaps; otherwise the first failing check's message |
| Views.OwnRangeIgnored | src/views.js:267-281 | the trimestre being edited is never compared with itself |

## Left out

- I/O, persistence and host APIs are not modelled:
  - IndexedDB transactions are modelled as atomic replacement of the record.
  - The File System Access API's handles, pickers and permissions are not modelled; a folder is a list of named entries.
  - `listBackups` is not modelled.
- Web Crypto internals are abstract functions with round-trip laws only. Random salt, IV and key generation are parameters.
- Timers and events are not modelled:
  - The retry loop's jittered delay is replaced by a given list of attempt times.
  - Lock renewal timers, `storageEvents`/`emit`, listeners and `notify` are not modelled.
- JSON text is not modelled:
  - A file body is already parsed (or marked as unparsable garbage).
  - `JSON.stringify` is the suite's `serialize`. Its `-0`, NaN and infinities are not values of the model: `JSON.stringify` writes `-0` as `0` and the others as `null`, so they would not round trip.
  - `cloneStructured` is the identity on immutable values.
- Dates are not parsed: `toISODate`, `toUTCDateAtStartOfDay`, `toISODateLocal` and string dates are replaced by day numbers. An invalid date is `None`.
- Calendar normalisation inside `getCalendari` is not modelled: the festiu/excepcio normalisers and the fresh version ids. Stored calendars are taken as already normal.
- Floating-point arithmetic is not modelled:
  - `formatNumberComma`'s `toFixed` is replaced by its digit strings.
  - `parseNumberComma`'s final `Number(...)` conversion and finiteness check are replaced by the normalised digit text.
  - Number overflow to infinity is therefore not modelled.
  - `formatNumberComma` first calls `ensureFiniteNumber(value)`, which rejects a non-finite value with `valorInvalid` before the decimals are normalised (src/i18n.js:86-88, 131). The model's value is already a digit string, so it has no such case.
- Grade computation, the UI rendering in `src/views.js` and `src/main.js` navigation are outside this core.
- Four outcomes follow the code's control flow rather than what the status names suggest:
  - An encrypted mirror whose password prompt is dismissed ends in FS_WRITE_FAIL. `_ensurePassword` (src/storage.js:920-937) throws inside the `try` of `saveToFile` (src/storage.js:814-840). PASSWORD_REQUIRED arises only for an unencrypted mirror, where `_ensurePassword` returns `null`.
  - The secret used on load is the prompted password (src/storage.js:857-859). An unencrypted mirror is opened with the text `"null"`, which is what `deriveKeyFromPassword(null)` encodes.
  - A main file that is not JSON makes `_readContainer` throw (src/storage.js:999-1011). `_resilientLoad` catches that and falls back to `.prev` (src/storage.js:1013-1044).
  - The first save after the record is created always backs up. `last_backup_ts` is absent and counts as 0 (src/storage.js:976-984).
- Base64.Decode: strict. `fromBase64` (src/storage.js:141-148) calls `atob`, which also skips ASCII whitespace and accepts text whose `=` padding is missing; the model rejects such text.
- Envelope.Decrypt: a missing base64 header field is modelled with the empty text, which decodes to no bytes. The source's `fromBase64(undefined)` decodes the text `"undefined"`, and `atob` throws on it. This covers:
  - `kdf.salt_kek` (src/storage.js:394), read as an empty salt;
  - `dek_wrapped` (src/storage.js:407), which the model goes on to unwrap and reports as CONTRASENYA_INCORRECTA;
  - `ciphertext` and `payload.iv` (src/storage.js:417-418), which the model goes on to decrypt and reports as INTEGRITY_FAIL.
- Envelope.Decrypt: a header without a `kdf` or `payload` object is read as one whose fields are all missing. The source throws a TypeError at src/storage.js:394 or 418.
- Envelope.Rewrap: a missing `kdf.salt_kek` or `dek_wrapped` is likewise read as the empty text, where the source's `fromBase64` throws at src/storage.js:440 or 450. A missing `dek_wrapped` therefore reaches the unwrap and fails there. A header without a `kdf` object is read as one without its fields, where the source throws a TypeError at src/storage.js:440.
- FileSystem.WriteContainer: a failed write leaves its file as it was. If `.prev` did not exist before, `getFileHandle(..., {create: true})` may leave it behind empty (src/storage.js:967); that empty file is not modelled.
- FileSystem.MaybeBackup: likewise, an empty backup file that `getFileHandle` created before a failed write is not modelled (src/storage.js:989). A failure of the `updateSettings` call after a written backup is not modelled either.
- Store.Entry: a history entry's `before` and `after` hold only the data. In the source they are clones of the whole state, `version` and `historial` included, and `after` is taken before the version is bumped (src/state.js:734-746).
- Store.RecordChange: compares the state with structural equality. The source's `isEqual` (src/state.js:71-73, used at src/state.js:736) compares `JSON.stringify` texts. There, the same members in another key order count as a change, and members whose value is `undefined` are ignored. The model's JSON objects are maps with no key order and no `undefined`.
- Views.GetCalendariForAssignatura: the source's default calendar has no `id` field at all; the model uses the empty id.
- Views.GetCalendariForAssignatura: requires a well-formed collection, because the source would throw on an id in `allIds` with no entry.
- Views.OrderDies: states membership, uniqueness and rank order. The source's stable sort places values outside 0..6 first, in first-occurrence order; that order is not stated.
- FileSystem.LoadFromFile: states what a successful load returns, but not when a load succeeds. FileSystem.LoadDocument and FileSystem.SaveThenLoad state when it does.
- Composite.Save: states only that a connected mirror reports a status. FileSystem.SaveToFile states the statuses.
- Criteria.ParseCEId: states only the error for a missing final digit run and that accepted indices are ≥ 1. The value parsed is stated by Criteria.ParseFormatCE for formatted ids.
- Criteria.ParseCAId: states only that accepted indices are ≥ 1. The values parsed are stated by Criteria.ParseFormatCA for formatted ids.
- Criteria.Reorder: the contract orders only members whose old positions differ. The source's stable sort keeps two members with equal positions in `allIds` order; Sorting.SortByStable proves the sort stable, but that order is not lifted into this contract. A missing position counts as 0 (`position || 0`).

## Findings

| source | as written | input that shows it | evidently intended | confidence | as-written member | corrected member |
|---|---|---|---|---|---|---|
| src/state.js:751-759 | `applyMutation` calls `recordChange` only when the mutator returns. A mutator that has already changed the state and then throws (`updateCalendari` creating a missing calendar before the edit's validation fails) leaves that change in the store with no version bump and no history entry. | `addTrimestre('a1', {tFi: '2024-01-10'})` on a store with no calendar for `a1`: the new calendar stays, the version stays 0 and the history stays empty | every change to the state is counted and logged, as `transact` does with its `finally` | medium, not executed | Store.ApplyMutationAsWritten | Store.ApplyMutation |
| src/storage.js:287-302 | `deriveKeyFromPassword` derives the key-encrypting key with `extractable` set to `false` (line 296). `encryptStateToContainer`, `decryptContainer` and `rewrapContainer` then call `exportRawKey` on it (lines 334, 397, 443 and 456). The `exportKey` method of the W3C Web Cryptography API rejects a non-extractable key with InvalidAccessError, so every encrypt, decrypt and password change rejects. | any call of `encryptStateToContainer` with a password, for instance the first encrypted `saveToFile` | the key-encrypting key is derived extractable, so that its raw bytes can be fingerprinted, and a sealed container opens again with its password | high, not executed | Envelope.SealedDoesNotOpenAsWritten | Envelope.EncryptDecryptRoundTrip |

=== FILE: bytes.dfy ===
/** Byte buffers, and the two textual encodings of them the storage layer
    uses: standard Base64 (`toBase64`/`fromBase64`) and lower-case
    hexadecimal (`bufferToHex`). */
module Bytes {
  newtype byte = x: int | 0 <= x < 256

  type Buffer = seq<byte>
}

/** Base64 with the standard alphabet and `=` padding, section 4 of RFC 4648.
    `Encode` is what `btoa` produces for a byte string; `Decode` is a strict
    decoder that accepts exactly the padded, whitespace-free form. */
module Base64 {
  import opened Wrappers
  import opened Bytes

  /** The character standing for the 6-bit value `i`. */
  function Letter(i: int): (c: char)
    requires 0 <= i < 64
    ensures c != '='
  {
    if i < 26 then ('A' as int + i) as char
    else if i < 52 then ('a' as int + (i - 26)) as char
    else if i < 62 then ('0' as int + (i - 52)) as char
    else if i == 62 then '+'
    else '/'
  }

  /** The 6-bit value of an alphabet character, `None` for any other character. */
  function Index(c: char): (r: Option<int>)
    ensures r.Some? ==> 0 <= r.value < 64 && Letter(r.value) == c
  {
    if 'A' <= c <= 'Z' then Some(c as int - 'A' as int)
    else if 'a' <= c <= 'z' then Some(c as int - 'a' as int + 26)
    else if '0' <= c <= '9' then Some(c as int - '0' as int + 52)
    else if c == '+' then Some(62)
    else if c == '/' then Some(63)
    else None
  }

  lemma {:induction false} IndexOfLetter(i: int)
    requires 0 <= i < 64
    ensures Index(Letter(i)) == Some(i)
  {
  }

  /** Three bytes as four alphabet characters. */
  function EncodeTriple(b0: byte, b1: byte, b2: byte): string {
    [ Letter(b0 as int / 4),
      Letter((b0 as int % 4) * 16 + b1 as int / 16),
      Letter((b1 as int % 16) * 4 + b2 as int / 64),
      Letter(b2 as int % 64) ]
  }

  function Encode(b: Buffer): (s: string)
    ensures |s| == (|b| + 2) / 3 * 4
    decreases |b|
  {
    if |b| == 0 then ""
    else if |b| == 1 then
      [Letter(b[0] as int / 4), Letter((b[0] as int % 4) * 16), '=', '=']
    else if |b| == 2 then
      [ Letter(b[0] as int / 4),
        Letter((b[0] as int % 4) * 16 + b[1] as int / 16),
        Letter((b[1] as int % 16) * 4), '=' ]
    else EncodeTriple(b[0], b[1], b[2]) + Encode(b[3..])
  }

  function Decode(s: string): Option<Buffer>
    decreases |s|
  {
    if |s| == 0 then Some([])
    else if |s| < 4 then None
    else if |s| == 4 && s[2] == '=' && s[3] == '=' then
      var c0 :- Index(s[0]);
      var c1 :- Index(s[1]);
      Some([(c0 * 4 + c1 / 16) as byte])
    else if |s| == 4 && s[3] == '=' then
      var c0 :- Index(s[0]);
      var c1 :- Index(s[1]);
      var c2 :- Index(s[2]);
      Some([(c0 * 4 + c1 / 16) as byte, ((c1 % 16) * 16 + c2 / 4) as byte])
    else
      var c0 :- Index(s[0]);
      var c1 :- Index(s[1]);
      var c2 :- Index(s[2]);
      var c3 :- Index(s[3]);
      var rest :- Decode(s[4..]);
      Some([(c0 * 4 + c1 / 16) as byte, ((c1 % 16) * 16 + c2 / 4) as byte, ((c2 % 4) * 64 + c3) as byte] + rest)
  }

  lemma {:induction false} SplitByte(b: byte, hi: int, lo: int)
    requires hi == b as int / 4 && lo == b as int % 4
    ensures hi * 4 + lo == b as int
  {
  }

  lemma {:induction false} TripleRoundTrip(b0: byte, b1: byte, b2: byte)
    ensures var c0, c1, c2, c3 := b0 as int / 4, (b0 as int % 4) * 16 + b1 as int / 16,
                                  (b1 as int % 16) * 4 + b2 as int / 64, b2 as int % 64;
            && c0 * 4 + c1 / 16 == b0 as int
            && (c1 % 16) * 16 + c2 / 4 == b1 as int
            && (c2 % 4) * 64 + c3 == b2 as int
  {
    var c1 := (b0 as int % 4) * 16 + b1 as int / 16;
    assert c1 / 16 == b0 as int % 4;
    assert c1 % 16 == b1 as int / 16;
    var c2 := (b1 as int % 16) * 4 + b2 as int / 64;
    assert c2 / 4 == b1 as int % 16;
    assert c2 % 4 == b2 as int / 64;
  }

  lemma {:induction false} DecodeOne(b: Buffer)
    requires |b| == 1
    ensures Decode(Encode(b)) == Some(b)
  {
    var s := Encode(b);
    var c0, c1 := b[0] as int / 4, (b[0] as int % 4) * 16;
    assert s == [Letter(c0), Letter(c1), '=', '='];
    IndexOfLetter(c0);
    IndexOfLetter(c1);
    assert c1 / 16 == b[0] as int % 4;
    assert Index(s[0]) == Some(c0) && Index(s[1]) == Some(c1);
    assert Decode(s) == Some([(c0 * 4 + c1 / 16) as byte]);
    assert (c0 * 4 + c1 / 16) as byte == b[0];
    assert [b[0]] == b;
  }

  lemma {:induction false} PairRoundTrip(b0: byte, b1: byte)
    ensures var c0, c1, c2 := b0 as int / 4, (b0 as int % 4) * 16 + b1 as int / 16, (b1 as int % 16) * 4;
            && c0 * 4 + c1 / 16 == b0 as int
            && (c1 % 16) * 16 + c2 / 4 == b1 as int
  {
    var c1 := (b0 as int % 4) * 16 + b1 as int / 16;
    assert c1 / 16 == b0 as int % 4;
    assert c1 % 16 == b1 as int / 16;
    var c2 := (b1 as int % 16) * 4;
    assert c2 / 4 == b1 as int % 16;
  }

  lemma {:induction false} DecodeTwo(b: Buffer)
    requires |b| == 2
    ensures Decode(Encode(b)) == Some(b)
  {
    var c0, c1, c2 := b[0] as int / 4, (b[0] as int % 4) * 16 + b[1] as int / 16, (b[1] as int % 16) * 4;
    var s := [Letter(c0), Letter(c1), Letter(c2), '='];
    assert Encode(b) == s;
    DecodePadded(c0, c1, c2);
    PairRoundTrip(b[0], b[1]);
    assert [b[0], b[1]] == b;
  }

  lemma {:induction false} DecodePadded(c0: int, c1: int, c2: int)
    requires 0 <= c0 < 64 && 0 <= c1 < 64 && 0 <= c2 < 64
    ensures Decode([Letter(c0), Letter(c1), Letter(c2), '='])
         == Some([(c0 * 4 + c1 / 16) as byte, ((c1 % 16) * 16 + c2 / 4) as byte])
  {
    var s := [Letter(c0), Letter(c1), Letter(c2), '='];
    IndexOfLetter(c0);
    IndexOfLetter(c1);
    IndexOfLetter(c2);
    assert s[2] != '=';
  }

  lemma {:induction false} DecodeTriple(b0: byte, b1: byte, b2: byte, rest: string, tail: Buffer)
    requires Decode(rest) == Some(tail)
    ensures Decode(EncodeTriple(b0, b1, b2) + rest) == Some([b0, b1, b2] + tail)
  {
    var t := EncodeTriple(b0, b1, b2);
    var s := t + rest;
    assert s[..4] == t && s[4..] == rest;
    IndexOfLetter(b0 as int / 4);
    IndexOfLetter((b0 as int % 4) * 16 + b1 as int / 16);
    IndexOfLetter((b1 as int % 16) * 4 + b2 as int / 64);
    IndexOfLetter(b2 as int % 64);
    TripleRoundTrip(b0, b1, b2);
    assert s[3] != '=';
  }

  /** `fromBase64(toBase64(b))` gives back `b`: the encoding loses nothing. */
  lemma {:induction false} DecodeEncode(b: Buffer)
    ensures Decode(Encode(b)) == Some(b)
    decreases |b|
  {
    if |b| == 1 {
      DecodeOne(b);
    } else if |b| == 2 {
      DecodeTwo(b);
    } else if |b| >= 3 {
      DecodeEncode(b[3..]);
      DecodeLonger(b);
    }
  }

  lemma {:induction false} EncodeLonger(b: Buffer)
    requires |b| >= 3
    ensures Encode(b) == EncodeTriple(b[0], b[1], b[2]) + Encode(b[3..])
  {
  }

  /** One more group of three in front decodes to three more bytes. */
  lemma {:induction false} DecodeLonger(b: Buffer)
    requires |b| >= 3 && Decode(Encode(b[3..])) == Some(b[3..])
    ensures Decode(Encode(b)) == Some(b)
  {
    EncodeLonger(b);
    DecodeTriple(b[0], b[1], b[2], Encode(b[3..]), b[3..]);
    FrontThree(b);
  }

  lemma {:induction false} FrontThree(b: Buffer)
    requires |b| >= 3
    ensures [b[0], b[1], b[2]] + b[3..] == b
  {
    assert ([b[0], b[1], b[2]] + b[3..])[..3] == b[..3];
  }

  /** Encoding is injective, so comparing encodings compares the buffers. */
  lemma {:induction false} EncodeInjective(a: Buffer, b: Buffer)
    requires Encode(a) == Encode(b)
    ensures a == b
  {
    DecodeEncode(a);
    DecodeEncode(b);
  }
}

/** `bufferToHex`: two lower-case hexadecimal digits per byte. */
module Hex {
  import opened Wrappers
  import opened Bytes

  function Digit(n: int): (c: char)
    requires 0 <= n < 16
    ensures '0' <= c <= '9' || 'a' <= c <= 'f'
  {
    if n < 10 then ('0' as int + n) as char else ('a' as int + n - 10) as char
  }

  function DigitValue(c: char): (r: Option<int>)
    ensures r.Some? ==> 0 <= r.value < 16
  {
    if '0' <= c <= '9' then Some(c as int - '0' as int)
    else if 'a' <= c <= 'f' then Some(c as int - 'a' as int + 10)
    else None
  }

  function ToHex(b: Buffer): (s: string)
    ensures |s| == 2 * |b|
    ensures forall i :: 0 <= i < |s| ==> '0' <= s[i] <= '9' || 'a' <= s[i] <= 'f'
  {
    if |b| == 0 then ""
    else [Digit(b[0] as int / 16), Digit(b[0] as int % 16)] + ToHex(b[1..])
  }

  function FromHex(s: string): Option<Buffer>
    decreases |s|
  {
    if |s| == 0 then Some([])
    else if |s| == 1 then None
    else
      var hi :- DigitValue(s[0]);
      var lo :- DigitValue(s[1]);
      var rest :- FromHex(s[2..]);
      Some([(hi * 16 + lo) as byte] + rest)
  }

  /** Reading the hexadecimal text back yields the original buffer. */
  lemma {:induction false} FromHexToHex(b: Buffer)
    ensures FromHex(ToHex(b)) == Some(b)
    decreases |b|
  {
    if |b| > 0 {
      FromHexToHex(b[1..]);
      FromHexStep(b);
    }
  }

  /** One more byte in front reads back as one more byte. */
  lemma {:induction false} FromHexStep(b: Buffer)
    requires |b| > 0 && FromHex(ToHex(b[1..])) == Some(b[1..])
    ensures FromHex(ToHex(b)) == Some(b)
  {
    var s := ToHex(b);
    var hi, lo := b[0] as int / 16, b[0] as int % 16;
    assert s == [Digit(hi), Digit(lo)] + ToHex(b[1..]);
    assert s[2..] == ToHex(b[1..]);
    assert DigitValue(s[0]) == Some(hi) && DigitValue(s[1]) == Some(lo);
    assert (hi * 16 + lo) as byte == b[0];
    assert [b[0]] + b[1..] == b;
  }
}

=== FILE: calendar.dfy ===
/** The calendar of an assignatura and its edits (src/state.js:947-1158).
    Dates are day numbers (days since 1970-01-01); on ISO dates with
    four-digit years their order is the lexicographic order
    `compareISODate` uses. Entries are already normalised: the coercion of
    loosely typed stored values by `getCalendari` is not modelled. */
module Calendar {
  import opened Wrappers
  import opened Sorting
  import opened Collections
  import Store

  type Day = int

  datatype Trimestre = Trimestre(id: string, tInici: Day, tFi: Day, nom: Option<string>)

  /** A festiu or an excepció: a date and an optional reason (`''` when none). */
  datatype DatedNote = DatedNote(dataISO: Day, motiu: string)

  datatype HorariVersio = HorariVersio(id: string, effectiveFrom: Option<Day>, diesSetmanals: seq<int>)

  datatype Calendari = Calendari(
    id: string,
    assignaturaId: string,
    cursInici: Option<Day>,
    cursFi: Option<Day>,
    diesSetmanals: seq<int>,
    trimestres: seq<Trimestre>,
    festius: seq<DatedNote>,
    excepcions: seq<DatedNote>,
    horariVersions: seq<HorariVersio>,
    horariActivaId: Option<string>)

  /** The calendar `getCalendari(..., {createIfMissing: true})` creates. */
  function EmptyCalendari(id: string, assignaturaId: string): (c: Calendari)
    ensures c.id == id && c.assignaturaId == assignaturaId
    ensures c.cursInici.None? && c.cursFi.None? && c.diesSetmanals == [] && c.horariActivaId.None?
    ensures c.trimestres == [] && c.festius == [] && c.excepcions == [] && c.horariVersions == []
  {
    Calendari(id, assignaturaId, None, None, [], [], [], [], [], None)
  }

  // ----- Dated notes: festius and excepcions -----

  predicate StrictlyByDate(s: seq<DatedNote>) {
    forall i, j :: 0 <= i < j < |s| ==> s[i].dataISO < s[j].dataISO
  }

  /** The reason a list of notes gives for date `d`: the last entry for `d`
      wins, as when the list is loaded into a `Map` keyed by date. */
  function NoteAt(s: seq<DatedNote>, d: Day): (r: Option<string>)
    ensures r.Some? <==> exists i :: 0 <= i < |s| && s[i].dataISO == d
  {
    if |s| == 0 then None
    else
      var rest := NoteAt(s[1..], d);
      assert forall i :: 1 <= i < |s| ==> s[i] == s[1..][i - 1];
      if rest.Some? then rest
      else if s[0].dataISO == d then Some(s[0].motiu)
      else None
  }

  /** One note set into a list sorted by unique dates. */
  function Upsert(s: seq<DatedNote>, n: DatedNote): (r: seq<DatedNote>)
    requires StrictlyByDate(s)
    ensures StrictlyByDate(r)
    ensures forall x :: x in r ==> x == n || x in s
    ensures forall d :: NoteAt(r, d) == if d == n.dataISO then Some(n.motiu) else NoteAt(s, d)
  {
    if |s| == 0 then [n]
    else if n.dataISO < s[0].dataISO then
      ByDateCons(n, s);
      forall d ensures NoteAt([n] + s, d) == if d == n.dataISO then Some(n.motiu) else NoteAt(s, d) {
        NoteAtCons(n, s, d);
      }
      [n] + s
    else if n.dataISO == s[0].dataISO then
      ByDateCons(n, s[1..]);
      forall d ensures NoteAt([n] + s[1..], d) == if d == n.dataISO then Some(n.motiu) else NoteAt(s, d) {
        NoteAtCons(n, s[1..], d);
        NoteAtCons(s[0], s[1..], d);
        assert s == [s[0]] + s[1..];
      }
      [n] + s[1..]
    else
      var rest := Upsert(s[1..], n);
      forall k | 0 <= k < |rest| ensures s[0].dataISO < rest[k].dataISO {
        var x := rest[k];
        assert x in rest;
      }
      ByDateCons(s[0], rest);
      forall x | x in [s[0]] + rest ensures x == n || x in s {
        assert x == s[0] || x in rest;
      }
      forall d ensures NoteAt([s[0]] + rest, d) == if d == n.dataISO then Some(n.motiu) else NoteAt(s, d) {
        NoteAtCons(s[0], rest, d);
        NoteAtCons(s[0], s[1..], d);
        assert s == [s[0]] + s[1..];
      }
      [s[0]] + rest
  }

  /** A note dated before every note of a sorted list keeps it sorted. */
  lemma {:induction false} ByDateCons(h: DatedNote, t: seq<DatedNote>)
    requires StrictlyByDate(t)
    requires forall k :: 0 <= k < |t| ==> h.dataISO < t[k].dataISO
    ensures StrictlyByDate([h] + t)
  {
    var r := [h] + t;
    forall i, j | 0 <= i < j < |r| ensures r[i].dataISO < r[j].dataISO {
      assert r[j] == t[j - 1];
      if i > 0 {
        assert r[i] == t[i - 1];
      }
    }
  }

  /** The note for `d` in a list with a note in front: the rest's, else the
      front's when its date matches. */
  lemma {:induction false} NoteAtCons(h: DatedNote, t: seq<DatedNote>, d: Day)
    ensures NoteAt([h] + t, d) == if NoteAt(t, d).Some? then NoteAt(t, d) else if h.dataISO == d then Some(h.motiu) else None
  {
    assert ([h] + t)[1..] == t;
  }

  /** The notes of `ns` set one after another. */
  function UpsertAll(s: seq<DatedNote>, ns: seq<DatedNote>): (r: seq<DatedNote>)
    requires StrictlyByDate(s)
    ensures StrictlyByDate(r)
    ensures forall d :: NoteAt(r, d) == if NoteAt(ns, d).Some? then NoteAt(ns, d) else NoteAt(s, d)
    decreases |ns|
  {
    if |ns| == 0 then s
    else UpsertAll(Upsert(s, ns[0]), ns[1..])
  }

  /** The merge of `addFestius` and `addExcepcions`: the result is sorted by
      date with one entry per date, an incoming entry replaces the existing
      one of its date, and every other existing date keeps its reason. */
  function MergeNotes(existing: seq<DatedNote>, incoming: seq<DatedNote>): (r: seq<DatedNote>)
    ensures StrictlyByDate(r)
    ensures forall d :: NoteAt(r, d) == if NoteAt(incoming, d).Some? then NoteAt(incoming, d) else NoteAt(existing, d)
  {
    UpsertAll(UpsertAll([], existing), incoming)
  }

  /** The notes whose date is not in `dates`. */
  function RemoveDates(s: seq<DatedNote>, dates: set<Day>): (r: seq<DatedNote>)
    ensures forall x :: x in r <==> x in s && x.dataISO !in dates
    ensures forall a: DatedNote, b: DatedNote :: a.dataISO !in dates && b.dataISO !in dates ==> (Before(r, a, b) <==> Before(s, a, b))
    ensures StrictlyByDate(s) ==> StrictlyByDate(r)
  {
    var keep := (x: DatedNote) => x.dataISO !in dates;
    var r := Filter(s, keep);
    forall a: DatedNote, b: DatedNote | a.dataISO !in dates && b.dataISO !in dates ensures Before(r, a, b) <==> Before(s, a, b) {
      FilterKeepsOrder(s, keep, a, b);
    }
    assert StrictlyByDate(s) ==> StrictlyByDate(r) by {
      if StrictlyByDate(s) {
        forall i, j | 0 <= i < j < |r| ensures r[i].dataISO < r[j].dataISO {
          assert r[i] in r && r[j] in r;
          FilterOrderFrom(s, keep, r[i], r[j]);
          var i', j' :| 0 <= i' < j' < |s| && s[i'] == r[i] && s[j'] == r[j];
        }
      }
    }
    r
  }

  /** Removing dates from a merged list drops exactly those dates. */
  lemma {:induction false} RemoveDatesNoteAt(s: seq<DatedNote>, dates: set<Day>, d: Day)
    requires StrictlyByDate(s)
    ensures NoteAt(RemoveDates(s, dates), d) == if d in dates then None else NoteAt(s, d)
  {
    var r := RemoveDates(s, dates);
    if d !in dates {
      NoteAtSorted(s, d);
      NoteAtSorted(r, d);
      if NoteAt(s, d).Some? {
        var i :| 0 <= i < |s| && s[i].dataISO == d;
        assert s[i] in r;
      }
    }
  }

  /** In a list with unique dates the note for `d` is the entry with that date. */
  lemma {:induction false} NoteAtSorted(s: seq<DatedNote>, d: Day)
    requires StrictlyByDate(s)
    ensures forall x :: x in s && x.dataISO == d ==> NoteAt(s, d) == Some(x.motiu)
  {
    if |s| > 0 {
      NoteAtSorted(s[1..], d);
      assert forall x :: x in s <==> x == s[0] || x in s[1..];
    }
  }

  // ----- Calendar edits: each returns the edited calendar or the message it throws -----

  /** `setDiesSetmanals`: the valid weekdays 0..6, once each, ascending. */
  function SetDiesSetmanals(c: Calendari, dies: seq<int>): (r: Result<Calendari, string>)
    ensures r.Ok? && r.value == c.(diesSetmanals := r.value.diesSetmanals)
    ensures StrictlyIncreasing(r.value.diesSetmanals)
    ensures forall d :: d in r.value.diesSetmanals <==> d in dies && 0 <= d <= 6
  {
    Ok(c.(diesSetmanals := SortedUnique(FilterWeekdays(dies))))
  }

  function FilterWeekdays(dies: seq<int>): (r: seq<int>)
    ensures forall d :: d in r <==> d in dies && 0 <= d <= 6
  {
    if |dies| == 0 then []
    else
      assert forall d :: d in dies <==> d == dies[0] || d in dies[1..];
      (if 0 <= dies[0] <= 6 then [dies[0]] else []) + FilterWeekdays(dies[1..])
  }

  function TrimestreStart(t: Trimestre): Option<int> {
    Some(t.tInici)
  }

  /** The first position holding an entry with the given id. */
  function IndexOfTrimestre(s: seq<Trimestre>, id: string): (r: Option<nat>)
    ensures r.Some? ==> r.value < |s| && s[r.value].id == id && forall i :: 0 <= i < r.value ==> s[i].id != id
    ensures r.None? ==> forall i :: 0 <= i < |s| ==> s[i].id != id
  {
    if |s| == 0 then None
    else if s[0].id == id then Some(0)
    else match IndexOfTrimestre(s[1..], id)
      case None => None
      case Some(k) => Some(k + 1)
  }

  /** `list[index] = x` when `findIndex` found the id, `list.push(x)` otherwise. */
  function ReplaceOrAppend<T>(s: seq<T>, k: Option<nat>, x: T): (r: seq<T>)
    requires k.Some? ==> k.value < |s|
    ensures multiset(r) == if k.Some? then multiset(s[k.value := x]) else multiset(s) + multiset{x}
    ensures x in r
  {
    match k
    case Some(i) => assert s[i := x][i] == x; s[i := x]
    case None => assert (s + [x])[|s|] == x; s + [x]
  }

  const InvalidTrimestreDates: string := "Les dates del trimestre han de ser vàlides"
  const TrimestreEndBeforeStart: string := "La data de fi del trimestre ha de ser posterior o igual a la data d'inici"

  /** `addTrimestre`: both dates required and in order; the trimestre
      replaces the one with the same id or is appended, and the list is
      re-sorted by start date. */
  function AddTrimestre(c: Calendari, id: string, tInici: Option<Day>, tFi: Option<Day>, nom: Option<string>)
    : (r: Result<Calendari, string>)
    ensures tInici.None? || tFi.None? ==> r == Err(InvalidTrimestreDates)
    ensures tInici.Some? && tFi.Some? && tInici.value > tFi.value ==> r == Err(TrimestreEndBeforeStart)
    ensures r.Ok? ==>
              && tInici.Some? && tFi.Some? && tInici.value <= tFi.value
              && var t := Trimestre(id, tInici.value, tFi.value, nom);
              && r.value == c.(trimestres := r.value.trimestres)
              && SortedBy(r.value.trimestres, TrimestreStart)
              && t in r.value.trimestres
              && (IndexOfTrimestre(c.trimestres, id).None? ==>
                    multiset(r.value.trimestres) == multiset(c.trimestres) + multiset{t})
              && (IndexOfTrimestre(c.trimestres, id).Some? ==>
                    multiset(r.value.trimestres)
                      == multiset(c.trimestres[IndexOfTrimestre(c.trimestres, id).value := t]))
              && var upserted := ReplaceOrAppend(c.trimestres, IndexOfTrimestre(c.trimestres, id), t);
                 forall a: Trimestre, b: Trimestre :: a.tInici == b.tInici && Before(upserted, a, b) ==> Before(r.value.trimestres, a, b)
  {
    if tInici.None? || tFi.None? then Err(InvalidTrimestreDates)
    else if tInici.value > tFi.value then Err(TrimestreEndBeforeStart)
    else
      var t := Trimestre(id, tInici.value, tFi.value, nom);
      var upserted := ReplaceOrAppend(c.trimestres, IndexOfTrimestre(c.trimestres, id), t);
      assert t in multiset(upserted);
      var sorted := SortBy(upserted, TrimestreStart);
      assert t in multiset(sorted);
      forall a: Trimestre, b: Trimestre | a.tInici == b.tInici && Before(upserted, a, b) ensures Before(sorted, a, b) {
        SortByStable(upserted, TrimestreStart, a, b);
      }
      Ok(c.(trimestres := sorted))
  }

  /** Trimestre ids are unique in the list. */
  predicate UniqueTrimestreIds(s: seq<Trimestre>) {
    forall i, j :: 0 <= i < j < |s| ==> s[i].id != s[j].id
  }

  /** On a list with unique ids, `addTrimestre` leaves exactly the new
      trimestre and the others, and the ids stay unique. */
  lemma {:induction false} AddTrimestreReplaces(c: Calendari, id: string, tInici: Day, tFi: Day, nom: Option<string>)
    requires UniqueTrimestreIds(c.trimestres) && tInici <= tFi
    ensures AddTrimestre(c, id, Some(tInici), Some(tFi), nom).Ok?
    ensures var r := AddTrimestre(c, id, Some(tInici), Some(tFi), nom).value.trimestres;
            && (forall u :: u in r <==> u == Trimestre(id, tInici, tFi, nom) || (u in c.trimestres && u.id != id))
            && UniqueTrimestreIds(r)
  {
    var t := Trimestre(id, tInici, tFi, nom);
    var upserted := ReplaceOrAppend(c.trimestres, IndexOfTrimestre(c.trimestres, id), t);
    var r := AddTrimestre(c, id, Some(tInici), Some(tFi), nom).value.trimestres;
    UpsertedTrimestres(c.trimestres, t);
    forall u ensures u in r <==> u in upserted {
      assert u in r <==> u in multiset(r);
      assert u in upserted <==> u in multiset(upserted);
    }
    UniqueIdsPermutation(upserted, r);
  }

  /** Replacing the entry with the new one's id, or appending it, keeps the
      ids unique and leaves the new entry and the ones with other ids. */
  lemma {:induction false} UpsertedTrimestres(s: seq<Trimestre>, t: Trimestre)
    requires UniqueTrimestreIds(s)
    ensures var upserted := ReplaceOrAppend(s, IndexOfTrimestre(s, t.id), t);
            && UniqueTrimestreIds(upserted)
            && forall u :: u in upserted <==> u == t || (u in s && u.id != t.id)
  {
    var k := IndexOfTrimestre(s, t.id);
    var upserted := ReplaceOrAppend(s, k, t);
    if k.None? {
      assert upserted == s + [t];
    } else {
      assert upserted == s[k.value := t];
    }
    forall u ensures u in upserted <==> u == t || (u in s && u.id != t.id) {
      if u in s && u.id != t.id {
        var i :| 0 <= i < |s| && s[i] == u;
        assert upserted[i] == u;
      }
      if u in upserted && u != t {
        var i :| 0 <= i < |upserted| && upserted[i] == u;
        assert i < |s| && s[i] == u;
      }
    }
  }

  /** A rearrangement of a list with unique trimestre ids has unique ids. */
  lemma {:induction false} UniqueIdsPermutation(a: seq<Trimestre>, b: seq<Trimestre>)
    requires UniqueTrimestreIds(a) && multiset(a) == multiset(b)
    ensures UniqueTrimestreIds(b)
  {
    assert Distinct(a);
    DistinctPermutation(a, b);
    forall i, j | 0 <= i < j < |b| ensures b[i].id != b[j].id {
      assert b[i] in multiset(a) && b[j] in multiset(a);
      var i' :| 0 <= i' < |a| && a[i'] == b[i];
      var j' :| 0 <= j' < |a| && a[j'] == b[j];
      assert i' != j';
    }
  }

  /** `removeTrimestre`: drops the trimestres with that id; the others keep
      their order. */
  function RemoveTrimestre(c: Calendari, id: string): (r: Result<Calendari, string>)
    ensures r.Ok? && r.value == c.(trimestres := r.value.trimestres)
    ensures forall t :: t in r.value.trimestres <==> t in c.trimestres && t.id != id
    ensures forall a: Trimestre, b: Trimestre :: a.id != id && b.id != id ==> (Before(r.value.trimestres, a, b) <==> Before(c.trimestres, a, b))
  {
    var keep := (t: Trimestre) => t.id != id;
    var kept := Filter(c.trimestres, keep);
    forall a: Trimestre, b: Trimestre | a.id != id && b.id != id ensures Before(kept, a, b) <==> Before(c.trimestres, a, b) {
      FilterKeepsOrder(c.trimestres, keep, a, b);
    }
    Ok(c.(trimestres := kept))
  }

  /** `addFestius`: merged by date, incoming entries overriding. */
  function AddFestius(c: Calendari, incoming: seq<DatedNote>): (r: Result<Calendari, string>)
    ensures r.Ok? && r.value == c.(festius := r.value.festius)
    ensures StrictlyByDate(r.value.festius)
    ensures forall d :: NoteAt(r.value.festius, d)
                          == if NoteAt(incoming, d).Some? then NoteAt(incoming, d) else NoteAt(c.festius, d)
  {
    Ok(c.(festius := MergeNotes(c.festius, incoming)))
  }

  /** `removeFestius`: an empty date set changes nothing; otherwise the
      festius on those dates are dropped and the others keep their order. */
  function RemoveFestius(c: Calendari, dates: set<Day>): (r: Result<Calendari, string>)
    ensures r.Ok? && r.value == c.(festius := r.value.festius)
    ensures dates == {} ==> r.value == c
    ensures forall x :: x in r.value.festius <==> x in c.festius && x.dataISO !in dates
    ensures forall a: DatedNote, b: DatedNote :: a.dataISO !in dates && b.dataISO !in dates ==>
              (Before(r.value.festius, a, b) <==> Before(c.festius, a, b))
  {
    if dates == {} then
      assert forall x :: x in c.festius ==> x.dataISO !in dates;
      Ok(c)
    else Ok(c.(festius := RemoveDates(c.festius, dates)))
  }

  /** `addExcepcions`: merged by date exactly like festius. */
  function AddExcepcions(c: Calendari, incoming: seq<DatedNote>): (r: Result<Calendari, string>)
    ensures r.Ok? && r.value == c.(excepcions := r.value.excepcions)
    ensures StrictlyByDate(r.value.excepcions)
    ensures forall d :: NoteAt(r.value.excepcions, d)
                          == if NoteAt(incoming, d).Some? then NoteAt(incoming, d) else NoteAt(c.excepcions, d)
  {
    Ok(c.(excepcions := MergeNotes(c.excepcions, incoming)))
  }

  /** The edit `removeExcepcio` applies once its date is valid: the
      excepcions on that date are dropped and the others keep their order. */
  function RemoveExcepcio(c: Calendari, date: Day): (r: Result<Calendari, string>)
    ensures r.Ok? && r.value == c.(excepcions := r.value.excepcions)
    ensures forall x :: x in r.value.excepcions <==> x in c.excepcions && x.dataISO != date
    ensures forall a: DatedNote, b: DatedNote :: a.dataISO != date && b.dataISO != date ==>
              (Before(r.value.excepcions, a, b) <==> Before(c.excepcions, a, b))
  {
    Ok(c.(excepcions := RemoveDates(c.excepcions, {date})))
  }

  function VersioStart(v: HorariVersio): Option<int> {
    v.effectiveFrom
  }

  function IndexOfVersio(s: seq<HorariVersio>, id: string): (r: Option<nat>)
    ensures r.Some? ==> r.value < |s| && s[r.value].id == id && forall i :: 0 <= i < r.value ==> s[i].id != id
    ensures r.None? <==> forall i :: 0 <= i < |s| ==> s[i].id != id
  {
    if |s| == 0 then None
    else if s[0].id == id then Some(0)
    else match IndexOfVersio(s[1..], id)
      case None => None
      case Some(k) => Some(k + 1)
  }

  const MissingEffectiveFrom: string := "La versió d'horari necessita una data d'entrada en vigor vàlida"
  const NoTeachingDay: string := "La versió d'horari ha de contenir almenys un dia lectiu"

  /** `addHorariVersio`: needs a start date and at least one valid weekday;
      the version (days once each, ascending) replaces the one with the same
      id or is appended, and the list is re-sorted by start date. */
  function AddHorariVersio(c: Calendari, id: string, effectiveFrom: Option<Day>, dies: seq<int>)
    : (r: Result<Calendari, string>)
    ensures effectiveFrom.None? ==> r == Err(MissingEffectiveFrom)
    ensures effectiveFrom.Some? && (forall d :: d in dies ==> !(0 <= d <= 6)) ==> r == Err(NoTeachingDay)
    ensures r.Ok? ==>
              && effectiveFrom.Some?
              && var v := HorariVersio(id, effectiveFrom, SortedUnique(FilterWeekdays(dies)));
              && r.value == c.(horariVersions := r.value.horariVersions)
              && SortedBy(r.value.horariVersions, VersioStart)
              && v in r.value.horariVersions
              && |v.diesSetmanals| > 0 && StrictlyIncreasing(v.diesSetmanals)
              && (IndexOfVersio(c.horariVersions, id).None? ==>
                    multiset(r.value.horariVersions) == multiset(c.horariVersions) + multiset{v})
              && (IndexOfVersio(c.horariVersions, id).Some? ==>
                    multiset(r.value.horariVersions)
                      == multiset(c.horariVersions[IndexOfVersio(c.horariVersions, id).value := v]))
              && var upserted := ReplaceOrAppend(c.horariVersions, IndexOfVersio(c.horariVersions, id), v);
                 forall a: HorariVersio, b: HorariVersio :: a.effectiveFrom == b.effectiveFrom && Before(upserted, a, b) ==>
                   Before(r.value.horariVersions, a, b)
  {
    if effectiveFrom.None? then Err(MissingEffectiveFrom)
    else
      var valid := FilterWeekdays(dies);
      if |valid| == 0 then Err(NoTeachingDay)
      else
        assert valid[0] in SortedUnique(valid);
        var v := HorariVersio(id, effectiveFrom, SortedUnique(valid));
        var upserted := ReplaceOrAppend(c.horariVersions, IndexOfVersio(c.horariVersions, id), v);
        assert v in multiset(upserted);
        var sorted := SortBy(upserted, VersioStart);
        assert v in multiset(sorted);
        forall a: HorariVersio, b: HorariVersio | a.effectiveFrom == b.effectiveFrom && Before(upserted, a, b)
          ensures Before(sorted, a, b)
        {
          SortByStable(upserted, VersioStart, a, b);
        }
        Ok(c.(horariVersions := sorted))
  }

  /** `activateHorariVersio`: the id must name an existing version. */
  function ActivateHorariVersio(c: Calendari, id: string): (r: Result<Calendari, string>)
    ensures r.Ok? <==> exists i :: 0 <= i < |c.horariVersions| && c.horariVersions[i].id == id
    ensures r.Ok? ==> r.value == c.(horariActivaId := Some(id))
  {
    if IndexOfVersio(c.horariVersions, id).None? then Err("Versió d'horari " + id + " no trobada")
    else Ok(c.(horariActivaId := Some(id)))
  }

  /** A version just added can be activated: `activateHorariVersio` then
      finds it and makes it the active one. */
  lemma {:induction false} AddedVersioActivates(c: Calendari, id: string, effectiveFrom: Option<Day>, dies: seq<int>)
    requires AddHorariVersio(c, id, effectiveFrom, dies).Ok?
    ensures var added := AddHorariVersio(c, id, effectiveFrom, dies).value;
            ActivateHorariVersio(added, id) == Ok(added.(horariActivaId := Some(id)))
  {
    var added := AddHorariVersio(c, id, effectiveFrom, dies).value;
    var v := HorariVersio(id, effectiveFrom, SortedUnique(FilterWeekdays(dies)));
    var i :| 0 <= i < |added.horariVersions| && added.horariVersions[i] == v;
    assert added.horariVersions[i].id == id;
  }

  // ----- The calendaris collection -----

  /** The first calendar of the assignatura, in `allIds` order. */
  function FindCalendari(ids: seq<string>, byId: map<string, Calendari>, assignaturaId: string): (r: Option<Calendari>)
    ensures r.Some? ==> r.value.assignaturaId == assignaturaId && exists id :: id in ids && id in byId && byId[id] == r.value
    ensures r.None? ==> forall id :: id in ids && id in byId ==> byId[id].assignaturaId != assignaturaId
    ensures r.Some? ==> exists k :: 0 <= k < |ids| && ids[k] in byId && byId[ids[k]] == r.value
                                    && forall j :: 0 <= j < k ==> !(ids[j] in byId && byId[ids[j]].assignaturaId == assignaturaId)
  {
    if |ids| == 0 then None
    else if ids[0] in byId && byId[ids[0]].assignaturaId == assignaturaId then Some(byId[ids[0]])
    else
      assert forall id :: id in ids <==> id == ids[0] || id in ids[1..];
      var r := FindCalendari(ids[1..], byId, assignaturaId);
      if r.Some? then
        var k :| 0 <= k < |ids[1..]| && ids[1..][k] in byId && byId[ids[1..][k]] == r.value
                 && forall j :: 0 <= j < k ==> !(ids[1..][j] in byId && byId[ids[1..][j]].assignaturaId == assignaturaId);
        NoEarlierMatch(ids, byId, assignaturaId, k);
        r
      else r
  }

  /** No match before index `k` of the rest, and none at the head: no match
      before index `k + 1`. */
  lemma {:induction false} NoEarlierMatch(ids: seq<string>, byId: map<string, Calendari>, assignaturaId: string, k: nat)
    requires |ids| > 0 && !(ids[0] in byId && byId[ids[0]].assignaturaId == assignaturaId)
    requires k < |ids[1..]|
    requires forall j :: 0 <= j < k ==> !(ids[1..][j] in byId && byId[ids[1..][j]].assignaturaId == assignaturaId)
    ensures ids[k + 1] == ids[1..][k] && ids[k + 1] in ids
    ensures forall j :: 0 <= j < k + 1 ==> !(ids[j] in byId && byId[ids[j]].assignaturaId == assignaturaId)
  {
    assert forall j :: 1 <= j < k + 1 ==> ids[j] == ids[1..][j - 1];
  }

  /** `getCalendari(assignaturaId)` without creating. */
  function GetCalendari(cals: Collection<Calendari>, assignaturaId: string): (r: Option<Calendari>)
    ensures r.Some? ==> r.value.assignaturaId == assignaturaId && r.value in cals.byId.Values
    ensures r.None? ==> forall id :: id in cals.allIds && id in cals.byId ==> cals.byId[id].assignaturaId != assignaturaId
    ensures r.Some? ==> exists k :: 0 <= k < |cals.allIds| && cals.allIds[k] in cals.byId && cals.byId[cals.allIds[k]] == r.value
                          && forall j :: 0 <= j < k ==>
                               !(cals.allIds[j] in cals.byId && cals.byId[cals.allIds[j]].assignaturaId == assignaturaId)
  {
    FindCalendari(cals.allIds, cals.byId, assignaturaId)
  }

  /** Each calendar is stored under its own id. */
  ghost predicate WellKeyed(cals: Collection<Calendari>) {
    Valid(cals) && forall id :: id in cals.byId ==> cals.byId[id].id == id
  }

  /** `updateCalendari(assignaturaId, updater)`: finds or creates the
      calendar (under `newId`), applies the edit and stores the result under
      the calendar's id. The creation stays even when the edit throws. */
  function UpdateCalendari(cals: Collection<Calendari>, assignaturaId: string,
                           edit: Calendari -> Result<Calendari, string>, newId: string)
    : (o: Store.Outcome<Collection<Calendari>>)
    ensures WellKeyed(cals) ==> Valid(o.data)
    ensures o.error.Some? <==> edit(Existing(cals, assignaturaId, newId)).Err?
    ensures o.error.Some? ==> o.error.value == edit(Existing(cals, assignaturaId, newId)).error
    ensures GetCalendari(cals, assignaturaId).Some? && o.error.Some? ==> o.data == cals
    ensures GetCalendari(cals, assignaturaId).None? ==> newId in o.data.byId
    ensures GetCalendari(cals, assignaturaId).None? && o.error.Some? ==>
              o.data.byId[newId] == EmptyCalendari(newId, assignaturaId)
    ensures WellKeyed(cals) ==> Existing(cals, assignaturaId, newId).id in o.data.byId
    ensures WellKeyed(cals) && o.error.None? ==>
              o.data.byId[Existing(cals, assignaturaId, newId).id] == edit(Existing(cals, assignaturaId, newId)).value
    ensures forall id :: id in cals.byId && id != Existing(cals, assignaturaId, newId).id ==>
              id in o.data.byId && o.data.byId[id] == cals.byId[id]
  {
    var c := Existing(cals, assignaturaId, newId);
    var base := if GetCalendari(cals, assignaturaId).Some? then cals else Add(cals, newId, c);
    match edit(c)
    case Err(e) => Store.Outcome(base, Some(e))
    case Ok(c') => Store.Outcome(Collection(base.byId[c.id := c'], base.allIds), None)
  }

  /** The calendar an edit is applied to: the assignatura's own, or a new
      empty one. */
  function Existing(cals: Collection<Calendari>, assignaturaId: string, newId: string): (c: Calendari)
    ensures c.assignaturaId == assignaturaId
    ensures WellKeyed(cals) && GetCalendari(cals, assignaturaId).Some? ==> c.id in cals.byId && cals.byId[c.id] == c
  {
    match GetCalendari(cals, assignaturaId)
    case Some(c) => c
    case None => EmptyCalendari(newId, assignaturaId)
  }

  /** An edit run through the store: `updateCalendari` inside
      `applyMutation`, with the change recorded even when the edit throws. */
  function Apply(s: Store.Store<Collection<Calendari>>, assignaturaId: string,
                 edit: Calendari -> Result<Calendari, string>, newId: string, action: string, now: int)
    : (r: Store.Applied<Collection<Calendari>>)
    ensures r.store.data == UpdateCalendari(s.data, assignaturaId, edit, newId).data
    ensures r.error.Some? <==> edit(Existing(s.data, assignaturaId, newId)).Err?
    ensures r.store.version == s.version + 1 <==> r.store.data != s.data
    ensures r.store.version == s.version <==> r.store.data == s.data
    ensures WellKeyed(s.data) ==> Valid(r.store.data)
  {
    Store.ApplyMutation(s, Some(action), cals => UpdateCalendari(cals, assignaturaId, edit, newId), now)
  }

  /** The same edit through the `applyMutation` of the source as written. */
  function ApplyAsWritten(s: Store.Store<Collection<Calendari>>, assignaturaId: string,
                          edit: Calendari -> Result<Calendari, string>, newId: string, action: string, now: int)
    : (r: Store.Applied<Collection<Calendari>>)
    ensures r.store.data == UpdateCalendari(s.data, assignaturaId, edit, newId).data
    ensures r.error.Some? <==> edit(Existing(s.data, assignaturaId, newId)).Err?
    ensures r.error.Some? ==> r.store.version == s.version && r.store.historial == s.historial
    ensures r.error.None? ==> (r.store.version == s.version + 1 <==> r.store.data != s.data)
    ensures r.error.None? ==> (r.store.version == s.version <==> r.store.data == s.data)
  {
    Store.ApplyMutationAsWritten(s, Some(action), cals => UpdateCalendari(cals, assignaturaId, edit, newId), now)
  }

  /** `addTrimestre` with an invalid date on an assignatura without a
      calendar: the calendar `getCalendari` creates stays in the state while
      the version and the history do not move; the corrected accounting
      bumps the version. */
  lemma {:induction false} CreatedCalendarUnrecorded(now: int)
    ensures var s := Store.Store(Empty<Calendari>(), 0, []);
            var edit := c => AddTrimestre(c, "t1", None, Some(10), None);
            var w := ApplyAsWritten(s, "a1", edit, "cal1", "addTrimestre", now);
            var f := Apply(s, "a1", edit, "cal1", "addTrimestre", now);
            && w.error == Some(InvalidTrimestreDates)
            && "cal1" in w.store.data.byId
            && w.store.version == 0 && w.store.historial == []
            && f.error == Some(InvalidTrimestreDates)
            && f.store.data == w.store.data
            && f.store.version == 1 && |f.store.historial| == 1
  {
    var s := Store.Store(Empty<Calendari>(), 0, []);
    var edit := c => AddTrimestre(c, "t1", None, Some(10), None);
    assert GetCalendari(s.data, "a1").None?;
    var o := UpdateCalendari(s.data, "a1", edit, "cal1");
    assert "cal1" in o.data.byId;
    assert o.data != s.data;
  }

  const CursEndBeforeStart: string := "La data de fi ha de ser posterior o igual a la data d'inici"

  /** `setCursRange`: both bounds optional; when both are set they must be
      in order. */
  function SetCursRange(c: Calendari, inici: Option<Day>, fi: Option<Day>): (r: Result<Calendari, string>)
    ensures r.Err? <==> inici.Some? && fi.Some? && inici.value > fi.value
    ensures r.Err? ==> r.error == CursEndBeforeStart
    ensures r.Ok? ==> r.value == c.(cursInici := inici, cursFi := fi)
  {
    if inici.Some? && fi.Some? && inici.value > fi.value then Err(CursEndBeforeStart)
    else Ok(c.(cursInici := inici, cursFi := fi))
  }

  /** `removeExcepcio`: an unparseable date (`None`) returns before any
      mutation, so not even a calendar is created. */
  function RemoveExcepcioCommand(s: Store.Store<Collection<Calendari>>, assignaturaId: string, date: Option<Day>,
                                 newId: string, now: int)
    : (r: Store.Applied<Collection<Calendari>>)
    ensures date.None? ==> r == Store.Applied(s, None)
    ensures date.Some? ==> r.error.None? && r.store.data == UpdateCalendari(s.data, assignaturaId, c => RemoveExcepcio(c, date.value), newId).data
  {
    if date.None? then Store.Applied(s, None)
    else Apply(s, assignaturaId, c => RemoveExcepcio(c, date.value), newId, "removeExcepcio", now)
  }
}

=== FILE: composite.dfy ===
/** The composite adapter the application talks to (`CompositeAdapter`,
    src/storage.js:1051-1139): the primary record is the source of truth and
    the mirror follows it when connected. */
module Composite {
  import opened Wrappers
  import opened Bytes
  import opened Json
  import opened Codes
  import opened Crypto
  import opened Envelope
  import opened Primary
  import opened FileSystem

  /** Both stores of one device. */
  datatype World = World(record: Record, mirror: Mirror)

  /** What `load()` returns, with the world afterwards. */
  datatype LoadOutcome = LoadOutcome(world: World, state: Json, version: int)

  /** `load()` (src/storage.js:1069-1083): the mirror's content is adopted,
      and written into the primary record, only when its version is strictly
      greater than the record's. */
  function Load(w: World, c: Suite, ask: Prompt, clock: Clock): (out: LoadOutcome)
    ensures out.world.mirror == w.mirror
    ensures out.version >= w.record.version
    ensures out.state == out.world.record.state && out.version == out.world.record.version
    ensures out.world.record.settings == w.record.settings
    ensures var fs := LoadFromFile(w.record, w.mirror, c, ask, clock);
            if fs.Some? && fs.value.version > w.record.version
            then out.version == fs.value.version && out.state == fs.value.state
                 && out.world.record.lastModified == fs.value.lastModified
            else out.world == w
  {
    var fs := LoadFromFile(w.record, w.mirror, c, ask, clock);
    if fs.Some? && fs.value.version > w.record.version then
      var r := SetState(w.record, fs.value.state, fs.value.version, fs.value.lastModified);
      LoadOutcome(World(r, w.mirror), r.state, r.version)
    else LoadOutcome(w, w.record.state, w.record.version)
  }

  /** What `save()` returns, with the world afterwards. */
  datatype SaveResult = SaveResult(world: World, version: int, status: Option<Status>)

  /** `save(patchOrState)` (src/storage.js:1085-1104): the primary record is
      saved first; the mirror then gets the new state when connected. The
      returned version is the primary's whatever the mirror reports. */
  function Save(w: World, c: Suite, patchOrState: Json, ask: Prompt, rand: Fresh, random: Buffer,
                clock: Clock, lock: LockIo, writes: WriteIo): (out: SaveResult)
    ensures out.version == w.record.version + 1
    ensures out.world.record.version == out.version
    ensures out.world.record.state == NextState(w.record.state, patchOrState)
    ensures out.world.record.lastModified == clock.iso
    ensures out.world.mirror.connected == w.mirror.connected
    ensures !Connected(w.record, w.mirror) ==> out.world.mirror == w.mirror && out.status.None?
    ensures Connected(w.record, w.mirror) ==> out.status.Some?
  {
    var r := Primary.Save(w.record, patchOrState, clock.iso);
    if !Connected(r, w.mirror) then SaveResult(World(r, w.mirror), r.version, None)
    else
      var fs := SaveToFile(r, w.mirror, c, r.state, r.version, r.version - 1, r.lastModified,
                           ask, rand, random, clock, lock, writes);
      SaveResult(World(fs.record, Mirror(w.mirror.connected, fs.folder)), r.version, Some(fs.status))
  }

  /** Sync across devices: after a save whose mirror write succeeded, a
      second device pointing at the same file with an older record adopts
      the saved state and version on its next load. */
  lemma {:induction false} SaveSyncsOtherDevice(w: World, c: Suite, patchOrState: Json, password: string, rand: Fresh, random: Buffer,
                             clock: Clock, lock: LockIo, writes: WriteIo, other: Record, later: Clock)
    requires RoundTrips(c)
    requires Save(w, c, patchOrState, Answer(password), rand, random, clock, lock, writes).status == Some(Saved)
    requires other.settings.fsHandle == w.record.settings.fsHandle && other.settings.fsEncrypted
    requires other.version <= w.record.version
    ensures var saved := Save(w, c, patchOrState, Answer(password), rand, random, clock, lock, writes);
            var loaded := Load(World(other, Mirror(true, saved.world.mirror.folder)), c, Answer(password), later);
            loaded.state == saved.world.record.state && loaded.version == saved.version
  {
    var r := Primary.Save(w.record, patchOrState, clock.iso);
    SaveThenLoad(r, w.mirror, c, r.state, r.version, r.version - 1, r.lastModified, password, rand, random,
                 clock, lock, writes, other, later);
  }

  /** `exportEncrypted(password)` (src/storage.js:1106-1109): the primary's export. */
  function ExportEncrypted(w: World, c: Suite, password: string, rand: Fresh, random: Buffer): (e: Result<Container, Code>)
    ensures password == "" <==> e == Err(PasswordRequired)
    ensures e.Ok? ==> e.value.header.Some? && e.value.header.value.meta.versionCounter == w.record.version
  {
    Primary.ExportEncrypted(w.record, c, password, rand, random)
  }

  /** `importEncrypted(file, password)` (src/storage.js:1111-1124): the
      primary adopts the file, then the connected mirror gets the imported
      state; a refused import changes nothing. */
  function ImportEncrypted(w: World, c: Suite, file: Option<FileText>, password: string, ask: Prompt, rand: Fresh,
                           random: Buffer, clock: Clock, lock: LockIo, writes: WriteIo): (out: Result<World, Code>)
    ensures Primary.ImportEncrypted(w.record, c, file, password, clock.iso).Err? ==>
              out == Err(Primary.ImportEncrypted(w.record, c, file, password, clock.iso).error)
    ensures out.Ok? ==>
              && Primary.ImportEncrypted(w.record, c, file, password, clock.iso).Ok?
              && var imported := Primary.ImportEncrypted(w.record, c, file, password, clock.iso).value;
              && out.value.record.state == imported.state
              && out.value.record.version == imported.version
              && (w.record.version >= 0 ==> out.value.record.version > w.record.version)
  {
    match Primary.ImportEncrypted(w.record, c, file, password, clock.iso)
    case Err(e) => Err(e)
    case Ok(r) => Ok(Follow(r, w.mirror, c, ask, rand, random, clock, lock, writes))
  }

  /** After an import, the connected mirror is saved with the new record. */
  function Follow(r: Record, m: Mirror, c: Suite, ask: Prompt, rand: Fresh, random: Buffer, clock: Clock, lock: LockIo,
                  writes: WriteIo)
    : (w: World)
    ensures w.record.state == r.state && w.record.version == r.version
  {
    if !Connected(r, m) then World(r, m)
    else
      var fs := SaveToFile(r, m, c, r.state, r.version, r.version - 1, r.lastModified, ask, rand, random, clock, lock, writes);
      World(fs.record, Mirror(m.connected, fs.folder))
  }

  /** `changePassword(old, new)` (src/storage.js:1126-1132): only with a
      connected mirror; the primary record is not involved. */
  function ChangePassword(w: World, c: Suite, oldPassword: string, newPassword: string, freshSalt: Buffer, writes: WriteIo)
    : (out: Result<World, Code>)
    ensures !Connected(w.record, w.mirror) ==> out == Err(FsNotConnected)
    ensures out.Ok? ==> out.value.record == w.record && out.value.mirror.connected
    ensures Connected(w.record, w.mirror) ==>
              match FileSystem.ChangePassword(w.record, w.mirror, c, oldPassword, newPassword, freshSalt, writes)
              case Ok(f) => out == Ok(World(w.record, Mirror(true, f)))
              case Err(e) => out == Err(e)
  {
    if !Connected(w.record, w.mirror) then Err(FsNotConnected)
    else
      var f :- FileSystem.ChangePassword(w.record, w.mirror, c, oldPassword, newPassword, freshSalt, writes);
      Ok(World(w.record, Mirror(true, f)))
  }
}

=== FILE: criteria.dfy ===
/** Competència específica (CE) and criteri d'avaluació (CA) identifiers
    and the reordering of their positions (src/state.js:75-102 and
    469-495). */
module Criteria {
  import opened Wrappers
  import opened Text
  import opened Sorting
  import opened Collections

  // ----- Identifiers -----

  const CEIndexTooSmall: string := "L'índex del CE ha de ser ≥ 1"
  const CAIndexTooSmall: string := "L'índex del CA ha de ser ≥ 1"

  /** `formatCE({textBetween, index})`: `CE`, the text, the index. */
  function FormatCE(textBetween: string, index: int): (r: Result<string, string>)
    ensures r.Err? <==> index < 1
    ensures r.Err? ==> r.error == CEIndexTooSmall
    ensures r.Ok? ==> && |r.value| > 2 + |textBetween|
                      && r.value[..2] == "CE" && r.value[2..2 + |textBetween|] == textBetween
                      && AllDigits(r.value[2 + |textBetween|..])
  {
    if index < 1 then Err(CEIndexTooSmall)
    else Ok("CE" + textBetween + NatToString(index))
  }

  /** `formatCA({textBetween, ceIndex, index})`: `CA`, the text, then
      `ceIndex.index`; the CE index is checked first. */
  function FormatCA(textBetween: string, ceIndex: int, index: int): (r: Result<string, string>)
    ensures ceIndex < 1 ==> r == Err(CEIndexTooSmall)
    ensures ceIndex >= 1 && index < 1 ==> r == Err(CAIndexTooSmall)
    ensures r.Ok? <==> ceIndex >= 1 && index >= 1
    ensures r.Ok? ==> && |r.value| > 4 + |textBetween|
                      && r.value[..2] == "CA" && r.value[2..2 + |textBetween|] == textBetween
                      && '.' in r.value[2 + |textBetween|..]
  {
    if ceIndex < 1 then Err(CEIndexTooSmall)
    else if index < 1 then Err(CAIndexTooSmall)
    else
      var head := "CA" + textBetween + NatToString(ceIndex);
      var id := head + "." + NatToString(index);
      assert id[2 + |textBetween|..][|head| - 2 - |textBetween|] == '.';
      Ok(id)
  }

  /** The length of the run of digits that ends the text. */
  function TrailingDigits(t: string): (k: nat)
    ensures k <= |t|
    ensures forall i :: |t| - k <= i < |t| ==> IsDigit(t[i])
    ensures k < |t| ==> !IsDigit(t[|t| - k - 1])
  {
    if |t| > 0 && IsDigit(t[|t| - 1]) then TrailingDigits(t[..|t| - 1]) + 1
    else 0
  }

  /** The trailing digit run itself. */
  function TrailingRun(t: string): (d: string)
    ensures AllDigits(d)
    ensures d == t[|t| - TrailingDigits(t)..]
  {
    t[|t| - TrailingDigits(t)..]
  }

  /** `assertCEIdRules(id)`: the digits that end the id, ignoring trailing
      white space (`/([0-9]+)\s*$/`), read as a number that must be at
      least 1. */
  function ParseCEId(id: string): (r: Result<nat, string>)
    ensures r.Ok? ==> r.value >= 1
    ensures TrailingDigits(TrimEnd(id)) == 0 ==> r == Err("Identificador CE invàlid: " + id)
  {
    var t := TrimEnd(id);
    var k := TrailingDigits(t);
    if k == 0 then Err("Identificador CE invàlid: " + id)
    else
      var index := DigitsValue(TrailingRun(t));
      if index < 1 then Err("L'índex de CE ha de ser ≥ 1 (" + id + ")")
      else Ok(index)
  }

  /** `assertCAIdRules(id)`: `digits.digits` at the end of the id, ignoring
      trailing white space (`/([0-9]+)\.([0-9]+)\s*$/`); both numbers must
      be at least 1, the CE index being checked first. */
  function ParseCAId(id: string): (r: Result<(nat, nat), string>)
    ensures r.Ok? ==> r.value.0 >= 1 && r.value.1 >= 1
  {
    ParseCAText(TrimEnd(id), id)
  }

  /** `assertCAIdRules` once the trailing white space is gone. */
  function ParseCAText(t: string, id: string): (r: Result<(nat, nat), string>)
    ensures r.Ok? ==> r.value.0 >= 1 && r.value.1 >= 1
  {
    var k2 := TrailingDigits(t);
    if k2 == 0 || k2 == |t| || t[|t| - k2 - 1] != '.' then Err("Identificador CA invàlid: " + id)
    else
      var u := t[..|t| - k2 - 1];
      if TrailingDigits(u) == 0 then Err("Identificador CA invàlid: " + id)
      else
        var ceIndex := DigitsValue(TrailingRun(u));
        var index := DigitsValue(TrailingRun(t));
        if ceIndex < 1 then Err("L'índex CE del CA ha de ser ≥ 1 (" + id + ")")
        else if index < 1 then Err("L'índex del CA ha de ser ≥ 1 (" + id + ")")
        else Ok((ceIndex, index))
  }

  /** A text that does not end in a digit. */
  predicate NoTrailingDigit(s: string) {
    s == [] || !IsDigit(s[|s| - 1])
  }

  /** Digits appended to a text lengthen its trailing run by their number. */
  lemma {:induction false} TrailingDigitsAppend(p: string, d: string)
    requires AllDigits(d)
    ensures TrailingDigits(p + d) == TrailingDigits(p) + |d|
    decreases |d|
  {
    if |d| == 0 {
      assert p + d == p;
    } else {
      var d' := d[..|d| - 1];
      assert (p + d)[..|p + d| - 1] == p + d';
      assert (p + d)[|p + d| - 1] == d[|d| - 1];
      TrailingDigitsAppend(p, d');
    }
  }

  /** A text ending in a digit has no trailing white space. */
  lemma {:induction false} TrimEndOfDigitEnd(s: string)
    requires |s| > 0 && IsDigit(s[|s| - 1])
    ensures TrimEnd(s) == s
  {
  }

  /** Reading back a formatted CE id gives its index, when the text between
      does not end in a digit (which would merge into the index). */
  lemma {:induction false} ParseFormatCE(textBetween: string, index: int)
    requires index >= 1 && NoTrailingDigit(textBetween)
    ensures FormatCE(textBetween, index).Ok?
    ensures ParseCEId(FormatCE(textBetween, index).value) == Ok(index)
  {
    var p := "CE" + textBetween;
    var n := NatToString(index);
    var s := p + n;
    assert FormatCE(textBetween, index).value == s;
    TrimEndOfDigitEnd(s);
    TrailingRunAppend(p, n);
    DigitsValueOfNatToString(index);
  }

  /** Digits appended to a text that does not end in one form its whole
      trailing run. */
  lemma {:induction false} TrailingRunAppend(p: string, d: string)
    requires AllDigits(d) && NoTrailingDigit(p)
    ensures TrailingDigits(p + d) == |d|
    ensures TrailingRun(p + d) == d
  {
    TrailingDigitsAppend(p, d);
    assert (p + d)[|p + d| - |d|..] == d;
  }

  /** `head.digits` reads as the trailing number of `head` and the digits. */
  lemma {:induction false} ParseCATextSplit(head: string, n: string, id: string)
    requires AllDigits(n) && |n| > 0 && TrailingDigits(head) > 0
    requires DigitsValue(TrailingRun(head)) >= 1 && DigitsValue(n) >= 1
    ensures ParseCAText(head + "." + n, id) == Ok((DigitsValue(TrailingRun(head)), DigitsValue(n)))
  {
    var t := (head + ".") + n;
    TrailingRunAppend(head + ".", n);
    assert |t| == |head| + 1 + |n|;
    assert t[|head|] == '.';
    assert t[..|head|] == head;
    ParseCATextAt(t, id, |n|);
  }

  /** How `ParseCAText` reads a text whose trailing digits follow a point
      that itself follows digits. */
  lemma {:induction false} ParseCATextAt(t: string, id: string, k2: nat)
    requires TrailingDigits(t) == k2 && 0 < k2 < |t| && t[|t| - k2 - 1] == '.'
    requires TrailingDigits(t[..|t| - k2 - 1]) > 0
    requires DigitsValue(TrailingRun(t[..|t| - k2 - 1])) >= 1 && DigitsValue(TrailingRun(t)) >= 1
    ensures ParseCAText(t, id) == Ok((DigitsValue(TrailingRun(t[..|t| - k2 - 1])), DigitsValue(TrailingRun(t))))
  {
  }

  /** Reading back a formatted CA id gives both indices, when the text
      between does not end in a digit. */
  lemma {:induction false} ParseFormatCA(textBetween: string, ceIndex: int, index: int)
    requires ceIndex >= 1 && index >= 1 && NoTrailingDigit(textBetween)
    ensures FormatCA(textBetween, ceIndex, index).Ok?
    ensures ParseCAId(FormatCA(textBetween, ceIndex, index).value) == Ok((ceIndex, index))
  {
    var p := "CA" + textBetween;
    var c := NatToString(ceIndex);
    var n := NatToString(index);
    var s := (p + c) + "." + n;
    assert FormatCA(textBetween, ceIndex, index).value == s;
    TrimEndOfDigitEnd(s);
    TrailingRunAppend(p, c);
    DigitsValueOfNatToString(ceIndex);
    DigitsValueOfNatToString(index);
    ParseCATextSplit(p + c, n, s);
  }

  // ----- Reordering -----

  /** A CE (grouped by its assignatura) or a CA (grouped by its CE); a
      missing position reads as 0 (`position || 0`). */
  datatype Criterion = Criterion(id: string, group: string, position: int, descripcio: string)

  /** The collection invariant plus: every entity is stored under its id. */
  ghost predicate Keyed(c: Collection<Criterion>) {
    Valid(c) && forall id :: id in c.byId ==> c.byId[id].id == id
  }

  /** The ids of a group, in `allIds` order. */
  function GroupIds(ids: seq<string>, byId: map<string, Criterion>, group: string): (r: seq<string>)
    ensures forall x :: x in r <==> x in ids && x in byId && byId[x].group == group
    ensures Distinct(ids) ==> Distinct(r)
  {
    if |ids| == 0 then []
    else
      assert forall x :: x in ids <==> x == ids[0] || x in ids[1..];
      var rest := GroupIds(ids[1..], byId, group);
      if ids[0] in byId && byId[ids[0]].group == group then [ids[0]] + rest else rest
  }

  /** The ids without `x`. */
  function Remove(s: seq<string>, x: string): (r: seq<string>)
    ensures forall y :: y in r <==> y in s && y != x
    ensures Distinct(s) ==> Distinct(r)
    ensures x !in s ==> r == s
    ensures Distinct(s) && x in s ==> |r| == |s| - 1
  {
    if |s| == 0 then []
    else
      assert forall y :: y in s <==> y == s[0] || y in s[1..];
      var rest := Remove(s[1..], x);
      if s[0] == x then rest
      else
        assert Distinct(s) ==> s[0] !in s[1..];
        [s[0]] + rest
  }

  /** Sets the positions `start`, `start + 1`, ... along `ids`. */
  function Renumber(m: map<string, Criterion>, ids: seq<string>, start: int): (r: map<string, Criterion>)
    requires forall x :: x in ids ==> x in m
    requires Distinct(ids)
    ensures r.Keys == m.Keys
    ensures forall i :: 0 <= i < |ids| ==> r[ids[i]] == m[ids[i]].(position := start + i)
    ensures forall x :: x in m && x !in ids ==> r[x] == m[x]
    decreases |ids|
  {
    if |ids| == 0 then m
    else
      assert forall x :: x in ids <==> x == ids[0] || x in ids[1..];
      Renumber(m[ids[0] := m[ids[0]].(position := start)], ids[1..], start + 1)
  }

  function Min(a: int, b: int): int {
    if a <= b then a else b
  }

  /** The group's ids sorted by position with the target moved to index
      `newPosition - 1`, or last. */
  function Ordered(c: Collection<Criterion>, members: seq<string>, target: string, newPosition: int)
    : (ordered: seq<string>)
    requires Distinct(members) && target in members && newPosition >= 1
    ensures Distinct(ordered)
    ensures |ordered| == |members|
    ensures forall x :: x in ordered <==> x in members
    ensures ordered[Min(newPosition - 1, |members| - 1)] == target
    ensures forall x, y :: x in members && y in members && x != target && y != target && Position(c, x) < Position(c, y) ==>
              Before(ordered, x, y)
  {
    var key := x => Some(Position(c, x));
    var sorted := SortBy(members, key);
    SameElements(members, sorted);
    DistinctPermutation(members, sorted);
    var filtered := Remove(sorted, target);
    var k := Min(newPosition - 1, |filtered|);
    var ordered := Insert(filtered, target, k);
    forall x, y | x in members && y in members && x != target && y != target && Position(c, x) < Position(c, y)
      ensures Before(ordered, x, y)
    {
      SortedBefore(sorted, key, x, y);
      RemoveKeepsBefore(sorted, target, x, y);
      RemoveBeforeBack(ordered, target, x, y);
    }
    ordered
  }

  /** A criterion's position, 0 when it is missing (`position || 0`). */
  function Position(c: Collection<Criterion>, x: string): int {
    if x in c.byId then c.byId[x].position else 0
  }

  /** In a list sorted by key, a smaller key comes first. */
  lemma {:induction false} SortedBefore(s: seq<string>, key: string -> Option<int>, x: string, y: string)
    requires SortedBy(s, key) && x in s && y in s && !KeyLe(key(y), key(x))
    ensures Before(s, x, y)
  {
    var i :| 0 <= i < |s| && s[i] == x;
    var j :| 0 <= j < |s| && s[j] == y;
    assert i != j;
  }

  /** Taking an element out keeps the order of the others. */
  lemma {:induction false} RemoveKeepsBefore(s: seq<string>, t: string, x: string, y: string)
    requires Before(s, x, y) && x != t && y != t
    ensures Before(Remove(s, t), x, y)
    decreases |s|
  {
    assert s == [s[0]] + s[1..];
    BeforeUncons(s[0], s[1..], x, y);
    var rest := Remove(s[1..], t);
    RemoveCons(s, t);
    if s[0] == x && y in s[1..] {
      BeforeHead(x, rest, y);
    } else {
      RemoveKeepsBefore(s[1..], t, x, y);
      if s[0] != t {
        BeforeCons(s[0], rest, x, y);
      }
    }
  }

  /** The order of two elements after one is taken out is their order before. */
  lemma {:induction false} RemoveBeforeBack(s: seq<string>, t: string, x: string, y: string)
    requires Before(Remove(s, t), x, y)
    ensures Before(s, x, y)
    decreases |s|
  {
    var r := Remove(s, t);
    var i, j :| 0 <= i < j < |r| && r[i] == x && r[j] == y;
    assert r[i] in r;
    var rest := Remove(s[1..], t);
    RemoveCons(s, t);
    assert s == [s[0]] + s[1..];
    if s[0] == t {
      RemoveBeforeBack(s[1..], t, x, y);
      BeforeCons(s[0], s[1..], x, y);
    } else {
      BeforeUncons(s[0], rest, x, y);
      if s[0] == x && y in rest {
        BeforeHead(s[0], s[1..], y);
      } else {
        RemoveBeforeBack(s[1..], t, x, y);
        BeforeCons(s[0], s[1..], x, y);
      }
    }
  }

  /** `Remove` looks at the head, then at the rest. */
  lemma {:induction false} RemoveCons(s: seq<string>, t: string)
    requires |s| > 0
    ensures Remove(s, t) == if s[0] == t then Remove(s[1..], t) else [s[0]] + Remove(s[1..], t)
  {
  }

  /** Taking out a list's own elements one at a time distributes over concatenation. */
  lemma {:induction false} RemoveAppend(a: seq<string>, b: seq<string>, x: string)
    ensures Remove(a + b, x) == Remove(a, x) + Remove(b, x)
    decreases |a|
  {
    if |a| > 0 {
      var ab := a + b;
      assert ab[0] == a[0] && ab[1..] == a[1..] + b;
      RemoveAppend(a[1..], b, x);
      if a[0] == x {
        assert Remove(ab, x) == Remove(ab[1..], x);
      } else {
        assert Remove(ab, x) == [a[0]] + Remove(ab[1..], x);
        assert Remove(a, x) == [a[0]] + Remove(a[1..], x);
      }
    } else {
      assert a + b == b;
    }
  }

  lemma {:induction false} SameElements(a: seq<string>, b: seq<string>)
    requires multiset(a) == multiset(b)
    ensures forall x :: x in a <==> x in b
  {
    assert forall x :: x in a <==> x in multiset(a);
    assert forall x :: x in b <==> x in multiset(b);
  }

  /** `filtered.splice(k, 0, x)`. */
  function Insert(s: seq<string>, x: string, k: nat): (r: seq<string>)
    requires k <= |s| && Distinct(s) && x !in s
    ensures Distinct(r) && |r| == |s| + 1
    ensures forall y :: y in r <==> y in s || y == x
    ensures r[k] == x
    ensures Remove(r, x) == s
  {
    var r := s[..k] + [x] + s[k..];
    InsertShape(s, x, k);
    RemoveInserted(s, x, k);
    forall y ensures y in r <==> y in s || y == x {
      if y in r {
        var i :| 0 <= i < |r| && r[i] == y;
      }
      if y in s {
        var i :| 0 <= i < |s| && s[i] == y;
        assert i < k ==> r[i] == y;
        assert i >= k ==> r[i + 1] == y;
      }
    }
    forall i, j | 0 <= i < j < |r| ensures r[i] != r[j] {
      var x', y' := r[i], r[j];
      assert x' in r && y' in r;
    }
    r
  }

  /** Taking the inserted element out again gives back the list. */
  lemma {:induction false} RemoveInserted(s: seq<string>, x: string, k: nat)
    requires k <= |s| && x !in s
    ensures Remove(s[..k] + [x] + s[k..], x) == s
  {
    var front, back := s[..k], s[k..];
    assert s == front + back;
    assert x !in front && x !in back;
    RemoveAppend(front + [x], back, x);
    RemoveAppend(front, [x], x);
    assert Remove([x], x) == [];
    assert Remove(front + [x], x) == front;
  }

  /** Where the elements of `s[..k] + [x] + s[k..]` come from. */
  lemma {:induction false} InsertShape(s: seq<string>, x: string, k: nat)
    requires k <= |s|
    ensures |s[..k] + [x] + s[k..]| == |s| + 1
    ensures (s[..k] + [x] + s[k..])[k] == x
    ensures forall i :: 0 <= i < k ==> (s[..k] + [x] + s[k..])[i] == s[i]
    ensures forall i :: k < i <= |s| ==> (s[..k] + [x] + s[k..])[i] == s[i - 1]
  {
  }

  /** Renumbering a group along a list of its ids gives its members the
      positions 1..n, one each, and touches nothing else. */
  lemma {:induction false} RenumberedGroup(c: Collection<Criterion>, members: seq<string>, ordered: seq<string>)
    requires Keyed(c)
    requires forall x :: x in members ==> x in c.byId
    requires Distinct(ordered) && |ordered| == |members|
    requires forall x :: x in ordered <==> x in members
    ensures var byId := Renumber(c.byId, ordered, 1);
            && byId.Keys == c.byId.Keys
            && Keyed(Collection(byId, c.allIds))
            && (forall x :: x in c.byId && x !in members ==> byId[x] == c.byId[x])
            && (forall x :: x in members ==>
                  && byId[x] == c.byId[x].(position := byId[x].position)
                  && 1 <= byId[x].position <= |members|)
            && (forall x, y :: x in members && y in members && x != y ==> byId[x].position != byId[y].position)
  {
    RenumberedFields(c.byId, ordered);
    RenumberedDistinct(c.byId, ordered);
    RenumberedKeyed(c.byId, ordered);
  }

  /** Renumbering along `ordered` changes only positions, to 1..n. */
  lemma {:induction false} RenumberedFields(m: map<string, Criterion>, ordered: seq<string>)
    requires forall x :: x in ordered ==> x in m
    requires Distinct(ordered)
    ensures forall x :: x in ordered ==>
              && Renumber(m, ordered, 1)[x] == m[x].(position := Renumber(m, ordered, 1)[x].position)
              && 1 <= Renumber(m, ordered, 1)[x].position <= |ordered|
  {
    forall x | x in ordered
      ensures Renumber(m, ordered, 1)[x] == m[x].(position := Renumber(m, ordered, 1)[x].position)
      ensures 1 <= Renumber(m, ordered, 1)[x].position <= |ordered|
    {
      var i := RenumberedMember(m, ordered, x);
    }
  }

  /** Renumbering along `ordered` gives different ids different positions. */
  lemma {:induction false} RenumberedDistinct(m: map<string, Criterion>, ordered: seq<string>)
    requires forall x :: x in ordered ==> x in m
    requires Distinct(ordered)
    ensures forall x, y :: x in ordered && y in ordered && x != y ==>
              Renumber(m, ordered, 1)[x].position != Renumber(m, ordered, 1)[y].position
  {
    forall x, y | x in ordered && y in ordered && x != y
      ensures Renumber(m, ordered, 1)[x].position != Renumber(m, ordered, 1)[y].position
    {
      var i := RenumberedMember(m, ordered, x);
      var j := RenumberedMember(m, ordered, y);
    }
  }

  /** Renumbering keeps every entry under its own id. */
  lemma {:induction false} RenumberedKeyed(m: map<string, Criterion>, ordered: seq<string>)
    requires forall x :: x in ordered ==> x in m
    requires Distinct(ordered)
    requires forall id :: id in m ==> m[id].id == id
    ensures forall id :: id in Renumber(m, ordered, 1) ==> Renumber(m, ordered, 1)[id].id == id
  {
    var byId := Renumber(m, ordered, 1);
    forall id | id in byId ensures byId[id].id == id {
      if id in ordered {
        var i := RenumberedMember(m, ordered, id);
      }
    }
  }

  /** A renumbered id gets the position of its place in the list. */
  lemma {:induction false} RenumberedMember(m: map<string, Criterion>, ordered: seq<string>, x: string) returns (i: nat)
    requires forall y :: y in ordered ==> y in m
    requires Distinct(ordered) && x in ordered
    ensures i < |ordered| && ordered[i] == x
    ensures x in Renumber(m, ordered, 1) && Renumber(m, ordered, 1)[x] == m[x].(position := 1 + i)
  {
    i :| 0 <= i < |ordered| && ordered[i] == x;
  }

  /** Renumbering gives an earlier id the smaller position. */
  lemma {:induction false} RenumberFollowsOrder(m: map<string, Criterion>, ordered: seq<string>, x: string, y: string)
    requires forall z :: z in ordered ==> z in m
    requires Distinct(ordered) && Before(ordered, x, y)
    ensures x in Renumber(m, ordered, 1) && y in Renumber(m, ordered, 1)
    ensures Renumber(m, ordered, 1)[x].position < Renumber(m, ordered, 1)[y].position
  {
    var i, j :| 0 <= i < j < |ordered| && ordered[i] == x && ordered[j] == y;
    var r := Renumber(m, ordered, 1);
    assert r[ordered[i]] == m[ordered[i]].(position := 1 + i);
    assert r[ordered[j]] == m[ordered[j]].(position := 1 + j);
  }

  function PositionTooSmall(kind: string): string {
    "Nova posició " + kind + " ha de ser ≥ 1"
  }

  /** `reorderCE` / `reorderCA`: the group's members sorted by position, the
      target taken out and put back at `newPosition` (or last), and the group
      renumbered 1..n. `kind` is `CE` or `CA` and only shapes the messages. */
  function Reorder(c: Collection<Criterion>, kind: string, group: string, target: string, newPosition: int)
    : (r: Result<Collection<Criterion>, string>)
    requires Keyed(c)
    ensures newPosition < 1 ==> r == Err(PositionTooSmall(kind))
    ensures newPosition >= 1 ==> (r.Ok? <==> target in GroupIds(c.allIds, c.byId, group))
    ensures r.Ok? ==>
              var members := GroupIds(c.allIds, c.byId, group);
              && r.value.allIds == c.allIds
              && r.value.byId.Keys == c.byId.Keys
              && Keyed(r.value)
              && (forall x :: x in c.byId && x !in members ==> r.value.byId[x] == c.byId[x])
              && (forall x :: x in members ==>
                    && r.value.byId[x] == c.byId[x].(position := r.value.byId[x].position)
                    && 1 <= r.value.byId[x].position <= |members|)
              && (forall x, y :: x in members && y in members && x != y ==>
                    r.value.byId[x].position != r.value.byId[y].position)
              && target in r.value.byId
              && r.value.byId[target].position == Min(newPosition, |members|)
    ensures r.Ok? ==>
              var members := GroupIds(c.allIds, c.byId, group);
              forall x, y :: x in members && y in members && x != target && y != target && c.byId[x].position < c.byId[y].position ==>
                r.value.byId[x].position < r.value.byId[y].position
  {
    if newPosition < 1 then Err(PositionTooSmall(kind))
    else
      var members := GroupIds(c.allIds, c.byId, group);
      if target !in members then Err(kind + " " + target + " no trobat per reordenar")
      else
        var ordered := Ordered(c, members, target, newPosition);
        RenumberedGroup(c, members, ordered);
        ReorderedPositions(c, members, target, newPosition);
        Ok(Collection(Renumber(c.byId, ordered, 1), c.allIds))
  }

  /** After the reorder the target sits at `newPosition` (or last), and the
      other members keep their relative order. */
  lemma {:induction false} ReorderedPositions(c: Collection<Criterion>, members: seq<string>, target: string, newPosition: int)
    requires Keyed(c) && Distinct(members) && target in members && newPosition >= 1
    requires forall x :: x in members ==> x in c.byId
    ensures var byId := Renumber(c.byId, Ordered(c, members, target, newPosition), 1);
            && target in byId
            && byId[target].position == Min(newPosition, |members|)
            && forall x, y :: x in members && y in members && x != target && y != target && c.byId[x].position < c.byId[y].position ==>
                 byId[x].position < byId[y].position
  {
    var ordered := Ordered(c, members, target, newPosition);
    var byId := Renumber(c.byId, ordered, 1);
    RenumberedGroup(c, members, ordered);
    assert byId[target] == byId[ordered[Min(newPosition - 1, |members| - 1)]];
    forall x, y | x in members && y in members && x != target && y != target && c.byId[x].position < c.byId[y].position
      ensures byId[x].position < byId[y].position
    {
      assert Position(c, x) < Position(c, y);
      RenumberFollowsOrder(c.byId, ordered, x, y);
    }
  }

  /** `reorderCE(state, assignaturaId, ceId, newPosition)`: the CEs of one
      assignatura; its contract is that of `Reorder`. */
  function ReorderCE(ces: Collection<Criterion>, assignaturaId: string, ceId: string, newPosition: int)
    : (r: Result<Collection<Criterion>, string>)
    requires Keyed(ces)
  {
    Reorder(ces, "CE", assignaturaId, ceId, newPosition)
  }

  /** `reorderCA(state, ceId, caId, newPosition)`: the CAs of one CE; the same
      algorithm as `reorderCE`, so its contract is that of `Reorder`. */
  function ReorderCA(cas: Collection<Criterion>, ceId: string, caId: string, newPosition: int)
    : (r: Result<Collection<Criterion>, string>)
    requires Keyed(cas)
  {
    Reorder(cas, "CA", ceId, caId, newPosition)
  }
}

=== FILE: crypto.dfy ===
/** Error conditions raised by the storage layer. Coded ones carry the
    source's `code` string; the rest stand for plain `Error`s and exceptions
    thrown by the host (a `TypeError` on a missing field, a failed `atob`,
    a `DOMException` from WebCrypto, a `SyntaxError` from `JSON.parse`). */
module Codes {
  datatype Code =
    | CorruptedFile              // CORRUPTED_FILE
    | FileFormatVersionMismatch  // FILE_FORMAT_VERSION_MISMATCH
    | WrongPassword              // CONTRASENYA_INCORRECTA
    | IntegrityFail              // INTEGRITY_FAIL
    | OlderVersion               // OLDER_VERSION
    | FsReadFail                 // FS_READ_FAIL
    | FsNotConnected             // FS_NOT_CONNECTED
    | PasswordRequired           // 'Password required'
    | FileRequired               // 'File required'
    | PasswordCallbackMissing    // 'Password callback missing'
    | Malformed                  // a field that is missing or not valid Base64
    | KeyUnwrapFailed            // AES-KW unwrapping rejected the wrapped key
    | UnparsablePlaintext        // the decrypted bytes are not JSON
    | UnparsableFile             // the file's text is not JSON
    | FileMissing                // the main file could not be opened
    | WriteFailed                // a write to the external file failed
    | KeyNotExtractable          // `exportKey` on a non-extractable key: InvalidAccessError
}

/** The WebCrypto primitives the envelope scheme uses, as parameters. A
    `Suite` bundles PBKDF2 (section 5.2 of RFC 8018) returning the exported raw
    key-encrypting key, SHA-256, AES key wrap (RFC 3394), AES-GCM (NIST SP
    800-38D), and the JSON serialisation of the plaintext record
    `{schema_version: 1, state}`. Nothing is assumed about them except, where
    a lemma says so, the round-trip laws of `RoundTrips`. */
module Crypto {
  import opened Wrappers
  import opened Bytes
  import opened Json
  import opened Codes
  import JsonCode

  const FileFormatVersion: int := 2
  const DefaultIterations: nat := 150000
  const KdfAlgo: string := "PBKDF2"
  const HashAlgo: string := "SHA-256"
  const PayloadAlgo: string := "AES-GCM"

  datatype Suite = Suite(
    derive: (string, Buffer, nat) -> Buffer,
    hash: Buffer -> Buffer,
    wrap: (Buffer, Buffer) -> Buffer,
    unwrap: (Buffer, Buffer) -> Option<Buffer>,
    encrypt: (Buffer, Buffer, Buffer) -> Buffer,
    decrypt: (Buffer, Buffer, Buffer) -> Option<Buffer>,
    serialize: Json -> Buffer,
    parse: Buffer -> Option<Json>)

  /** A `CryptoKey`: its raw bytes and the `extractable` flag it was made with. */
  datatype CryptoKey = CryptoKey(raw: Buffer, extractable: bool)

  /** The `extractable` argument `deriveKeyFromPassword` passes to `deriveKey`
      for the key-encrypting key (src/storage.js:296). */
  const KekExtractableAsWritten: bool := false

  /** `deriveKeyFromPassword(password, salt, iterations)` with the given
      `extractable` flag. */
  function DeriveKek(s: Suite, password: string, salt: Buffer, iterations: nat, extractable: bool): (k: CryptoKey)
    ensures k.raw == s.derive(password, salt, iterations) && k.extractable == extractable
  {
    CryptoKey(s.derive(password, salt, iterations), extractable)
  }

  /** `exportRawKey(key)`: `crypto.subtle.exportKey('raw', key)` rejects a key
      whose `extractable` flag is false with an InvalidAccessError (the
      `exportKey` method of the W3C Web Cryptography API) and otherwise yields
      the raw bytes. */
  function ExportRaw(k: CryptoKey): (r: Result<Buffer, Code>)
    ensures r.Ok? <==> k.extractable
    ensures r.Ok? ==> r.value == k.raw
    ensures r.Err? ==> r.error == KeyNotExtractable
  {
    if k.extractable then Ok(k.raw) else Err(KeyNotExtractable)
  }

  /** Unwrapping undoes wrapping under the same key, decryption undoes
      encryption under the same key and IV, and parsing undoes serialising. */
  ghost predicate RoundTrips(s: Suite) {
    && (forall dek, kek :: s.unwrap(s.wrap(dek, kek), kek) == Some(dek))
    && (forall key, iv, p :: s.decrypt(key, iv, s.encrypt(key, iv, p)) == Some(p))
    && (forall st :: s.parse(s.serialize(st)) == Some(st))
  }

  /** The key fingerprint tells passwords apart: digests are never empty and
      two different passwords never derive keys with the same digest. This is
      a collision-freedom assumption, used only by the wrong-password law. */
  ghost predicate FingerprintsSeparate(s: Suite) {
    && (forall b :: |s.hash(b)| > 0)
    && (forall p, q, salt, n :: p != q ==> s.hash(s.derive(p, salt, n)) != s.hash(s.derive(q, salt, n)))
  }

  /** Both sets of laws can hold at once, so the lemmas that assume them
      are about some suite. The witness keeps the wrapped key and the
      ciphertext equal to their inputs, fingerprints a key by a tag byte in
      front of it, derives the key from the code of the password, and
      serialises with the reference code of `JsonCode`. */
  lemma {:induction false} LawfulSuiteExists()
    ensures exists s: Suite :: RoundTrips(s) && FingerprintsSeparate(s)
  {
    var s := Suite(
      (p: string, salt: Buffer, n: nat) => JsonCode.Text(p),
      (b: Buffer) => [0 as byte] + b,
      (dek: Buffer, kek: Buffer) => dek,
      (w: Buffer, kek: Buffer) => Some(w),
      (key: Buffer, iv: Buffer, p: Buffer) => p,
      (key: Buffer, iv: Buffer, c: Buffer) => Some(c),
      (st: Json) => JsonCode.Encode(st),
      (b: Buffer) => JsonCode.Parse(b));
    forall st: Json
      ensures s.parse(s.serialize(st)) == Some(st)
    {
      JsonCode.ParseEncode(st);
    }
    forall p: string, q: string, salt: Buffer, n: nat | p != q
      ensures s.hash(s.derive(p, salt, n)) != s.hash(s.derive(q, salt, n))
    {
      if JsonCode.Text(p) == JsonCode.Text(q) {
        JsonCode.TextInjective(p, q);
      }
      assert JsonCode.Text(p) != JsonCode.Text(q);
      assert ([0 as byte] + JsonCode.Text(p))[1..] == JsonCode.Text(p);
      assert ([0 as byte] + JsonCode.Text(q))[1..] == JsonCode.Text(q);
    }
    assert RoundTrips(s) && FingerprintsSeparate(s);
  }
}

=== FILE: envelope.dfy ===
/** The encrypted container written to the external file and its three
    operations: `encryptStateToContainer`, `decryptContainer` and
    `rewrapContainer` (src/storage.js:330-472). Binary header fields hold
    Base64 text exactly as in the JSON file. */
module Envelope {
  import opened Wrappers
  import opened Bytes
  import opened Json
  import opened Codes
  import opened Crypto
  import Base64

  datatype Kdf = Kdf(algo: string, hash: string, iterations: nat, saltKek: string)
  datatype PayloadInfo = PayloadInfo(algo: string, iv: string)
  /** `prevVersionCounter` is `None` where the file holds `null`. */
  datatype Meta = Meta(deviceId: string, versionCounter: int, lastModified: string, prevVersionCounter: Option<int>)
  datatype Integrity = Integrity(plaintextSha256: string)
  datatype Header = Header(
    kdf: Kdf,
    kekFingerprint: string,
    dekWrapped: string,
    payload: PayloadInfo,
    meta: Meta,
    integrity: Integrity)
  datatype Container = Container(fileFormatVersion: int, header: Option<Header>, ciphertext: string)

  /** What `JSON.parse` of a file yields: a falsy value (`null`, `false`,
      `0`, `""`), another non-object value, or an object read as a container
      (a missing number field reads as 0, a missing string field as ""). */
  datatype Document = Falsy | Scalar | Object(container: Container)

  /** The random material an encryption draws: KEK salt, fresh DEK, IV. */
  datatype Fresh = Fresh(salt: Buffer, dek: Buffer, iv: Buffer)

  /** A successfully opened container. */
  datatype Opened = Opened(plaintext: Json, header: Header, dek: Buffer, rawKek: Buffer)

  /** The plaintext document that is encrypted: `{schema_version: 1, state}`. */
  function PlaintextOf(state: Json): (p: Json)
    ensures p.JObj? && "state" in p.fields && p.fields["state"] == state
  {
    JObj(map["schema_version" := JNum(Dyadic(1, 0)), "state" := state])
  }

  /** `plaintext.state`; a plaintext without that member yields `JNull`. */
  function StateOf(plaintext: Json): Json {
    if plaintext.JObj? && "state" in plaintext.fields then plaintext.fields["state"] else JNull
  }

  /** `fromBase64`: text that is not Base64 makes `atob` throw. */
  function FromBase64(s: string): (r: Result<Buffer, Code>)
    ensures r.Ok? <==> Base64.Decode(s).Some?
    ensures r.Ok? ==> Base64.Encode(r.value) == s || Base64.Decode(s) == Some(r.value)
    ensures r.Err? ==> r.error == Malformed
  {
    match Base64.Decode(s)
    case Some(b) => Ok(b)
    case None => Err(Malformed)
  }

  /** `kdf.iterations || ENCRYPTION.ITERATIONS`. */
  function Iterations(k: Kdf): (n: nat)
    ensures n > 0
    ensures k.iterations > 0 ==> n == k.iterations
  {
    if k.iterations != 0 then k.iterations else DefaultIterations
  }

  /** The KEK fingerprint check: an absent (empty) fingerprint accepts any key. */
  predicate FingerprintAccepts(h: Header, fingerprint: Buffer) {
    h.kekFingerprint == "" || h.kekFingerprint == Base64.Encode(fingerprint)
  }

  /** A document that passes the structural checks of `decryptContainer`: an
      object of format 2 with a header. */
  predicate Structured(doc: Document) {
    doc.Object? && doc.container.fileFormatVersion == FileFormatVersion && doc.container.header.Some?
  }

  /** `decryptContainer` (src/storage.js:383-436) for a key-encrypting key
      derived with the given `extractable` flag: structural checks first, then
      the KEK export and fingerprint, and only then unwrapping and decryption. */
  function DecryptWith(c: Suite, doc: Document, password: string, extractable: bool): Result<Opened, Code> {
    if !doc.Object? then Err(CorruptedFile)
    else if doc.container.fileFormatVersion != FileFormatVersion then Err(FileFormatVersionMismatch)
    else if doc.container.header.None? then Err(CorruptedFile)
    else
      var h := doc.container.header.value;
      var salt :- FromBase64(h.kdf.saltKek);
      var kek :- ExportRaw(DeriveKek(c, password, salt, Iterations(h.kdf), extractable));
      if !FingerprintAccepts(h, c.hash(kek)) then Err(WrongPassword)
      else
        var wrapped :- FromBase64(h.dekWrapped);
        match c.unwrap(wrapped, kek)
        case None => Err(WrongPassword)
        case Some(dek) =>
          var plaintext :- OpenPayload(c, h.payload, h.integrity, doc.container.ciphertext, dek);
          Ok(Opened(plaintext, h, dek, kek))
  }

  /** `decryptContainer` as the source writes it: the KEK is derived
      non-extractable, so `exportRawKey` rejects on every container that
      passes the structural checks and has a readable salt; nothing opens. */
  function DecryptAsWritten(c: Suite, doc: Document, password: string): (r: Result<Opened, Code>)
    ensures !r.Ok?
    ensures Structured(doc) && HeaderKek(c, doc.container.header.value, password).Some? ==> r == Err(KeyNotExtractable)
  {
    DecryptWith(c, doc, password, KekExtractableAsWritten)
  }

  /** `decryptContainer` with the KEK derived extractable, as the rest of this
      model uses it. Every failure has its code, in the order the source checks:
      CORRUPTED_FILE, FILE_FORMAT_VERSION_MISMATCH, CORRUPTED_FILE, an unreadable
      salt, CONTRASENYA_INCORRECTA for a rejected fingerprint and for a wrapped
      key that does not unwrap, then the payload's own errors. */
  function Decrypt(c: Suite, doc: Document, password: string): (r: Result<Opened, Code>)
    ensures !doc.Object? ==> r == Err(CorruptedFile)
    ensures doc.Object? && doc.container.fileFormatVersion != FileFormatVersion ==> r == Err(FileFormatVersionMismatch)
    ensures doc.Object? && doc.container.fileFormatVersion == FileFormatVersion && doc.container.header.None? ==>
              r == Err(CorruptedFile)
    ensures Structured(doc) && HeaderKek(c, doc.container.header.value, password).None? ==> r == Err(Malformed)
    ensures Structured(doc) && HeaderKek(c, doc.container.header.value, password).Some? ==>
              var h := doc.container.header.value;
              var kek := HeaderKek(c, h, password).value;
              && (!FingerprintAccepts(h, c.hash(kek)) ==> r == Err(WrongPassword))
              && (FingerprintAccepts(h, c.hash(kek)) && Base64.Decode(h.dekWrapped).None? ==> r == Err(Malformed))
              && (FingerprintAccepts(h, c.hash(kek)) && Base64.Decode(h.dekWrapped).Some? ==>
                    match c.unwrap(Base64.Decode(h.dekWrapped).value, kek)
                    case None => r == Err(WrongPassword)
                    case Some(dek) =>
                      var payload := OpenPayload(c, h.payload, h.integrity, doc.container.ciphertext, dek);
                      && (payload.Err? ==> r == Err(payload.error))
                      && (payload.Ok? ==> r == Ok(Opened(payload.value, h, dek, kek))))
    ensures r.Ok? ==>
              && Structured(doc)
              && doc.container.header == Some(r.value.header)
              && Base64.Decode(r.value.header.kdf.saltKek).Some?
              && r.value.rawKek == c.derive(password, Base64.Decode(r.value.header.kdf.saltKek).value,
                                            Iterations(r.value.header.kdf))
              && FingerprintAccepts(r.value.header, c.hash(r.value.rawKek))
  {
    DecryptWith(c, doc, password, true)
  }

  /** The plaintext digest check: an absent (empty) digest accepts anything. */
  predicate IntegrityAccepts(integrity: Integrity, digest: Buffer) {
    integrity.plaintextSha256 == "" || integrity.plaintextSha256 == Base64.Encode(digest)
  }

  /** The second half of `decryptContainer`, once the DEK is known: decode,
      decrypt (a failure is INTEGRITY_FAIL), parse, and only then compare the
      plaintext digest (a mismatch is INTEGRITY_FAIL). */
  function OpenPayload(c: Suite, payload: PayloadInfo, integrity: Integrity, ciphertext: string, dek: Buffer)
    : (r: Result<Json, Code>)
    ensures Base64.Decode(ciphertext).None? || Base64.Decode(payload.iv).None? ==> r == Err(Malformed)
    ensures Base64.Decode(ciphertext).Some? && Base64.Decode(payload.iv).Some? ==>
              match c.decrypt(dek, Base64.Decode(payload.iv).value, Base64.Decode(ciphertext).value)
              case None => r == Err(IntegrityFail)
              case Some(plain) =>
                && (c.parse(plain).None? ==> r == Err(UnparsablePlaintext))
                && (c.parse(plain).Some? && !IntegrityAccepts(integrity, c.hash(plain)) ==> r == Err(IntegrityFail))
                && (c.parse(plain).Some? && IntegrityAccepts(integrity, c.hash(plain)) ==> r == Ok(c.parse(plain).value))
  {
    var bytes :- FromBase64(ciphertext);
    var iv :- FromBase64(payload.iv);
    match c.decrypt(dek, iv, bytes)
    case None => Err(IntegrityFail)
    case Some(plain) =>
      match c.parse(plain)
      case None => Err(UnparsablePlaintext)
      case Some(plaintext) =>
        if !IntegrityAccepts(integrity, c.hash(plain)) then Err(IntegrityFail)
        else Ok(plaintext)
  }

  /** The KEK that `password` derives for a header. */
  function HeaderKek(c: Suite, h: Header, password: string): Option<Buffer> {
    match Base64.Decode(h.kdf.saltKek)
    case None => None
    case Some(salt) => Some(c.derive(password, salt, Iterations(h.kdf)))
  }

  /** A fingerprint mismatch is reported as a wrong password before any key is
      unwrapped or any byte decrypted: the outcome is the same whatever the
      unwrapping and decryption primitives, the wrapped key and the ciphertext are. */
  lemma {:induction false} WrongPasswordBeforeUnwrap(c: Suite, c': Suite, h: Header, h': Header, ct: string, ct': string, password: string)
    requires c'.derive == c.derive && c'.hash == c.hash
    requires h'.kdf == h.kdf && h'.kekFingerprint == h.kekFingerprint
    requires HeaderKek(c, h, password).Some?
    requires !FingerprintAccepts(h, c.hash(HeaderKek(c, h, password).value))
    ensures Decrypt(c, Object(Container(FileFormatVersion, Some(h), ct)), password) == Err(WrongPassword)
    ensures Decrypt(c', Object(Container(FileFormatVersion, Some(h'), ct')), password) == Err(WrongPassword)
  {
  }

  /** The previous header's salt, when it has one. */
  function ReusedSalt(previous: Option<Header>, rand: Fresh): Result<Buffer, Code> {
    if previous.Some? && previous.value.kdf.saltKek != "" then FromBase64(previous.value.kdf.saltKek)
    else Ok(rand.salt)
  }

  /** The previous header's iteration count, when it has one. */
  function ReusedIterations(previous: Option<Header>): nat {
    if previous.Some? && previous.value.kdf.iterations != 0 then previous.value.kdf.iterations
    else DefaultIterations
  }

  /** The previous header's DEK unwrapped under `kek`, or a fresh one. */
  function ReusedDek(c: Suite, previous: Option<Header>, kek: Buffer, rand: Fresh): Result<Buffer, Code> {
    if previous.Some? && previous.value.dekWrapped != "" then
      var wrapped :- FromBase64(previous.value.dekWrapped);
      match c.unwrap(wrapped, kek)
      case None => Err(KeyUnwrapFailed)
      case Some(dek) => Ok(dek)
    else Ok(rand.dek)
  }

  /** The container for `state` under the given key material. */
  function Seal(c: Suite, state: Json, password: string, meta: Meta, salt: Buffer, iterations: nat, dek: Buffer, iv: Buffer)
    : (r: Container)
    ensures r.fileFormatVersion == FileFormatVersion && r.header.Some?
    ensures r.header.value.meta == meta && r.header.value.kdf.iterations == iterations
    ensures r.header.value.kdf.algo == KdfAlgo && r.header.value.kdf.hash == HashAlgo
    ensures r.header.value.payload.algo == PayloadAlgo
    ensures Base64.Decode(r.header.value.kdf.saltKek) == Some(salt)
    ensures Base64.Decode(r.header.value.payload.iv) == Some(iv)
  {
    var kek := c.derive(password, salt, iterations);
    var plain := c.serialize(PlaintextOf(state));
    Base64.DecodeEncode(salt);
    Base64.DecodeEncode(iv);
    Container(
      FileFormatVersion,
      Some(Header(
        Kdf(KdfAlgo, HashAlgo, iterations, Base64.Encode(salt)),
        Base64.Encode(c.hash(kek)),
        Base64.Encode(c.wrap(dek, kek)),
        PayloadInfo(PayloadAlgo, Base64.Encode(iv)),
        meta,
        Integrity(Base64.Encode(c.hash(plain))))),
      Base64.Encode(c.encrypt(dek, iv, plain)))
  }

  /** `encryptStateToContainer` (src/storage.js:330-381) for a key-encrypting
      key derived with the given `extractable` flag: carries forward the
      previous header's salt, iteration count and DEK, draws a fresh IV. */
  function EncryptWith(c: Suite, state: Json, password: string, meta: Meta, previous: Option<Header>, rand: Fresh, extractable: bool)
    : Result<Container, Code>
  {
    var salt :- ReusedSalt(previous, rand);
    var iterations := ReusedIterations(previous);
    var kek :- ExportRaw(DeriveKek(c, password, salt, iterations, extractable));
    var dek :- ReusedDek(c, previous, kek, rand);
    Ok(Seal(c, state, password, meta, salt, iterations, dek, rand.iv))
  }

  /** `encryptStateToContainer` as the source writes it: `exportRawKey` rejects
      the non-extractable KEK, so no container is ever produced. */
  function EncryptAsWritten(c: Suite, state: Json, password: string, meta: Meta, previous: Option<Header>, rand: Fresh)
    : (r: Result<Container, Code>)
    ensures !r.Ok?
    ensures ReusedSalt(previous, rand).Ok? ==> r == Err(KeyNotExtractable)
  {
    EncryptWith(c, state, password, meta, previous, rand, KekExtractableAsWritten)
  }

  /** `encryptStateToContainer` with the KEK derived extractable, as the rest
      of this model uses it. */
  function Encrypt(c: Suite, state: Json, password: string, meta: Meta, previous: Option<Header>, rand: Fresh)
    : (r: Result<Container, Code>)
    ensures r.Ok? ==>
              && ReusedSalt(previous, rand).Ok?
              && r.value.fileFormatVersion == FileFormatVersion
              && r.value.header.Some?
              && r.value.header.value.meta == meta
              && r.value.header.value.kdf.iterations == ReusedIterations(previous)
              && Base64.Decode(r.value.header.value.kdf.saltKek) == Some(ReusedSalt(previous, rand).value)
              && Base64.Decode(r.value.header.value.payload.iv) == Some(rand.iv)
    ensures ReusedSalt(previous, rand).Err? ==> r == Err(Malformed)
    ensures r.Ok? <==>
              && ReusedSalt(previous, rand).Ok?
              && ReusedDek(c, previous, c.derive(password, ReusedSalt(previous, rand).value, ReusedIterations(previous)), rand).Ok?
  {
    EncryptWith(c, state, password, meta, previous, rand, true)
  }

  /** A sealed container opens again under the same password and yields the
      state, the header, the DEK and the KEK it was sealed with. */
  lemma {:induction false} SealOpens(c: Suite, state: Json, password: string, meta: Meta, salt: Buffer, iterations: nat, dek: Buffer, iv: Buffer)
    requires RoundTrips(c)
    requires iterations > 0
    ensures var sealed := Seal(c, state, password, meta, salt, iterations, dek, iv);
            Decrypt(c, Object(sealed), password)
              == Ok(Opened(PlaintextOf(state), sealed.header.value, dek, c.derive(password, salt, iterations)))
  {
    var sealed := Seal(c, state, password, meta, salt, iterations, dek, iv);
    var kek := c.derive(password, salt, iterations);
    var plain := c.serialize(PlaintextOf(state));
    Base64.DecodeEncode(c.wrap(dek, kek));
    Base64.DecodeEncode(c.encrypt(dek, iv, plain));
    assert c.unwrap(c.wrap(dek, kek), kek) == Some(dek);
    assert c.decrypt(dek, iv, c.encrypt(dek, iv, plain)) == Some(plain);
    assert c.parse(plain) == Some(PlaintextOf(state));
  }

  /** Integrity law: a sealed container whose plaintext digest has been
      replaced by any other non-empty text is refused with INTEGRITY_FAIL
      under the right password, although the payload itself decrypts. */
  lemma {:induction false} TamperedDigestRejected(c: Suite, state: Json, password: string, meta: Meta, salt: Buffer, iterations: nat, dek: Buffer, iv: Buffer, forged: string)
    requires RoundTrips(c)
    requires iterations > 0
    requires forged != "" && forged != Base64.Encode(c.hash(c.serialize(PlaintextOf(state))))
    ensures var sealed := Seal(c, state, password, meta, salt, iterations, dek, iv);
            var h := sealed.header.value;
            Decrypt(c, Object(sealed.(header := Some(h.(integrity := Integrity(forged))))), password) == Err(IntegrityFail)
  {
    var kek := c.derive(password, salt, iterations);
    var plain := c.serialize(PlaintextOf(state));
    Base64.DecodeEncode(c.wrap(dek, kek));
    Base64.DecodeEncode(c.encrypt(dek, iv, plain));
    assert c.unwrap(c.wrap(dek, kek), kek) == Some(dek);
    assert c.decrypt(dek, iv, c.encrypt(dek, iv, plain)) == Some(plain);
    assert c.parse(plain) == Some(PlaintextOf(state));
  }

  /** The container a sealed state is written to, which the extractable
      derivation opens again, is refused by `decryptContainer` as written:
      the KEK it derives cannot be exported. */
  lemma {:induction false} SealedDoesNotOpenAsWritten(c: Suite, state: Json, password: string, meta: Meta, salt: Buffer, iterations: nat, dek: Buffer, iv: Buffer)
    requires RoundTrips(c)
    requires iterations > 0
    ensures var sealed := Seal(c, state, password, meta, salt, iterations, dek, iv);
            && Decrypt(c, Object(sealed), password).Ok?
            && DecryptAsWritten(c, Object(sealed), password) == Err(KeyNotExtractable)
  {
    var sealed := Seal(c, state, password, meta, salt, iterations, dek, iv);
    SealOpens(c, state, password, meta, salt, iterations, dek, iv);
    assert HeaderKek(c, sealed.header.value, password).Some?;
  }

  /** Round-trip law: whatever `encryptStateToContainer` produces,
      `decryptContainer` with the same password gives back the same state. */
  lemma {:induction false} EncryptDecryptRoundTrip(c: Suite, state: Json, password: string, meta: Meta, previous: Option<Header>, rand: Fresh)
    requires RoundTrips(c)
    requires Encrypt(c, state, password, meta, previous, rand).Ok?
    ensures Decrypt(c, Object(Encrypt(c, state, password, meta, previous, rand).value), password).Ok?
    ensures Decrypt(c, Object(Encrypt(c, state, password, meta, previous, rand).value), password).value.plaintext == PlaintextOf(state)
    ensures StateOf(Decrypt(c, Object(Encrypt(c, state, password, meta, previous, rand).value), password).value.plaintext) == state
  {
    var salt := ReusedSalt(previous, rand).value;
    var iterations := ReusedIterations(previous);
    var dek := ReusedDek(c, previous, c.derive(password, salt, iterations), rand).value;
    SealOpens(c, state, password, meta, salt, iterations, dek, rand.iv);
  }

  /** When the previous header carries a wrapped DEK, the new container
      wraps that same DEK: the data key survives every save. */
  lemma {:induction false} EncryptKeepsDek(c: Suite, state: Json, password: string, meta: Meta, previous: Option<Header>, rand: Fresh)
    requires RoundTrips(c)
    requires previous.Some? && previous.value.dekWrapped != ""
    requires Encrypt(c, state, password, meta, previous, rand).Ok?
    ensures var unsealed := Decrypt(c, Object(Encrypt(c, state, password, meta, previous, rand).value), password);
            && unsealed.Ok?
            && Some(unsealed.value.dek) == c.unwrap(Base64.Decode(previous.value.dekWrapped).value, unsealed.value.rawKek)
  {
    var salt := ReusedSalt(previous, rand).value;
    var iterations := ReusedIterations(previous);
    var kek := c.derive(password, salt, iterations);
    var dek := ReusedDek(c, previous, kek, rand).value;
    SealOpens(c, state, password, meta, salt, iterations, dek, rand.iv);
  }

  /** Wrong-password law: when distinct passwords give distinct fingerprints,
      a container sealed under one password is refused under any other with
      CONTRASENYA_INCORRECTA, never opened. */
  lemma {:induction false} WrongPasswordLaw(c: Suite, state: Json, password: string, other: string, meta: Meta, previous: Option<Header>, rand: Fresh)
    requires FingerprintsSeparate(c)
    requires password != other
    requires Encrypt(c, state, password, meta, previous, rand).Ok?
    ensures Decrypt(c, Object(Encrypt(c, state, password, meta, previous, rand).value), other) == Err(WrongPassword)
  {
    var salt := ReusedSalt(previous, rand).value;
    var iterations := ReusedIterations(previous);
    var h := Encrypt(c, state, password, meta, previous, rand).value.header.value;
    var mine := c.hash(c.derive(password, salt, iterations));
    var theirs := c.hash(c.derive(other, salt, iterations));
    assert h.kekFingerprint == Base64.Encode(mine);
    assert |mine| > 0;
    if Base64.Encode(mine) == Base64.Encode(theirs) {
      Base64.EncodeInjective(mine, theirs);
    }
    Base64.DecodeEncode(salt);
  }

  /** Options of `rewrapContainer`: an explicit salt and iteration count (0 = default). */
  datatype RewrapOptions = RewrapOptions(salt: Option<Buffer>, iterations: nat)

  /** The header `rewrapContainer` installs: new KDF parameters, new
      fingerprint and the DEK wrapped under the new KEK; all else kept. */
  function RewrappedHeader(c: Suite, h: Header, dek: Buffer, newPassword: string, salt: Buffer, iterations: nat): Header {
    var kek := c.derive(newPassword, salt, iterations);
    h.(kdf := Kdf(KdfAlgo, HashAlgo, iterations, Base64.Encode(salt)),
       kekFingerprint := Base64.Encode(c.hash(kek)),
       dekWrapped := Base64.Encode(c.wrap(dek, kek)))
  }

  /** `rewrapContainer` (src/storage.js:438-472) for key-encrypting keys
      derived with the given `extractable` flag. */
  function RewrapWith(c: Suite, doc: Document, oldPassword: string, newPassword: string, options: RewrapOptions, freshSalt: Buffer, extractable: bool)
    : Result<Container, Code>
  {
    if !doc.Object? || doc.container.header.None? then Err(Malformed)
    else
      var h := doc.container.header.value;
      var saltOld :- FromBase64(h.kdf.saltKek);
      var kekOld :- ExportRaw(DeriveKek(c, oldPassword, saltOld, Iterations(h.kdf), extractable));
      if !FingerprintAccepts(h, c.hash(kekOld)) then Err(WrongPassword)
      else
        var wrappedOld :- FromBase64(h.dekWrapped);
        match c.unwrap(wrappedOld, kekOld)
        case None => Err(KeyUnwrapFailed)
        case Some(dek) =>
          var saltNew := options.salt.GetOr(freshSalt);
          var iterationsNew := if options.iterations != 0 then options.iterations else DefaultIterations;
          Ok(doc.container.(header := Some(RewrappedHeader(c, h, dek, newPassword, saltNew, iterationsNew))))
  }

  /** `rewrapContainer` as the source writes it: `exportRawKey` rejects the
      non-extractable old KEK, so the password never changes. */
  function RewrapAsWritten(c: Suite, doc: Document, oldPassword: string, newPassword: string, options: RewrapOptions, freshSalt: Buffer)
    : (r: Result<Container, Code>)
    ensures !r.Ok?
    ensures doc.Object? && doc.container.header.Some? && HeaderKek(c, doc.container.header.value, oldPassword).Some? ==>
              r == Err(KeyNotExtractable)
  {
    RewrapWith(c, doc, oldPassword, newPassword, options, freshSalt, KekExtractableAsWritten)
  }

  /** `rewrapContainer` (src/storage.js:438-472) with the KEKs derived
      extractable, as the rest of this model uses it: checks the old password's
      fingerprint, unwraps the DEK with the old KEK and wraps it under a KEK
      derived from the new password. Only `kdf`, `kek_fingerprint` and
      `dek_wrapped` change; the rest of the container is kept as it is. */
  function Rewrap(c: Suite, doc: Document, oldPassword: string, newPassword: string, options: RewrapOptions, freshSalt: Buffer)
    : (r: Result<Container, Code>)
    ensures !doc.Object? || doc.container.header.None? ==> r == Err(Malformed)
    ensures r.Ok? ==>
              && doc.Object? && doc.container.header.Some?
              && var before, h := doc.container, doc.container.header.value;
              && r.value.fileFormatVersion == before.fileFormatVersion
              && r.value.ciphertext == before.ciphertext
              && r.value.header.Some?
              && r.value.header.value.payload == h.payload
              && r.value.header.value.meta == h.meta
              && r.value.header.value.integrity == h.integrity
              && HeaderKek(c, h, oldPassword).Some?
              && FingerprintAccepts(h, c.hash(HeaderKek(c, h, oldPassword).value))
    ensures doc.Object? && doc.container.header.Some? && HeaderKek(c, doc.container.header.value, oldPassword).Some?
            && !FingerprintAccepts(doc.container.header.value, c.hash(HeaderKek(c, doc.container.header.value, oldPassword).value))
            ==> r == Err(WrongPassword)
  {
    RewrapWith(c, doc, oldPassword, newPassword, options, freshSalt, true)
  }

  /** Changing the password does not change what the container holds: if it
      opened under the old password, the rewrapped one opens under the new
      password to the same state with the same DEK. */
  lemma {:induction false} RewrapPreservesContents(c: Suite, doc: Document, oldPassword: string, newPassword: string, options: RewrapOptions, freshSalt: Buffer)
    requires RoundTrips(c)
    requires Decrypt(c, doc, oldPassword).Ok?
    ensures Rewrap(c, doc, oldPassword, newPassword, options, freshSalt).Ok?
    ensures var unsealed := Decrypt(c, Object(Rewrap(c, doc, oldPassword, newPassword, options, freshSalt).value), newPassword);
            && unsealed.Ok?
            && unsealed.value.plaintext == Decrypt(c, doc, oldPassword).value.plaintext
            && unsealed.value.dek == Decrypt(c, doc, oldPassword).value.dek
  {
    var h := doc.container.header.value;
    var dek := Decrypt(c, doc, oldPassword).value.dek;
    var saltNew := options.salt.GetOr(freshSalt);
    var iterationsNew := if options.iterations != 0 then options.iterations else DefaultIterations;
    assert Rewrap(c, doc, oldPassword, newPassword, options, freshSalt)
        == Ok(doc.container.(header := Some(RewrappedHeader(c, h, dek, newPassword, saltNew, iterationsNew))));
    RewrappedHeaderOpens(c, doc, oldPassword, newPassword, saltNew, iterationsNew);
  }

  /** The header rewrapped under a new password opens the container's
      payload with the same data key the old password unwrapped. */
  lemma {:induction false} RewrappedHeaderOpens(c: Suite, doc: Document, oldPassword: string, newPassword: string, salt: Buffer, iterations: nat)
    requires RoundTrips(c)
    requires Decrypt(c, doc, oldPassword).Ok? && iterations > 0
    ensures var before := Decrypt(c, doc, oldPassword).value;
            var h' := RewrappedHeader(c, doc.container.header.value, before.dek, newPassword, salt, iterations);
            var unsealed := Decrypt(c, Object(doc.container.(header := Some(h'))), newPassword);
            && unsealed.Ok?
            && unsealed.value.plaintext == before.plaintext
            && unsealed.value.dek == before.dek
  {
    var dek := Decrypt(c, doc, oldPassword).value.dek;
    var kekNew := c.derive(newPassword, salt, iterations);
    Base64.DecodeEncode(salt);
    Base64.DecodeEncode(c.wrap(dek, kekNew));
    assert c.unwrap(c.wrap(dek, kekNew), kekNew) == Some(dek);
  }
}

=== FILE: filelock.dfy ===
/** The best-effort lock file `<name>.lock` that guards the external file
    (`FileLock`, src/storage.js:633-721, and `_acquireLockWithRetry`,
    src/storage.js:939-948). Times are milliseconds since the epoch. */
module FileLock {
  import opened Wrappers

  const LockTtl: int := 120000
  const LockGrace: int := 10000
  const LockMaxRetry: int := 15000

  /** The parsed lock file. `expiresAt` is `None` when `expires_at` is
      missing or not a date (it reads as NaN); `heartbeat` is `None` when
      `owner_heartbeat` is missing (it reads as 0). */
  datatype Descriptor = Descriptor(deviceId: string, heartbeat: Option<int>, expiresAt: Option<int>)

  /** What `_read` returns: `None` for an empty or unreadable lock file. */
  type View = Option<Descriptor>

  /** Whether an existing lock still blocks others at time `now`: not past its
      expiry plus grace, and its heartbeat less than a TTL old. */
  predicate Live(d: Descriptor, now: int) {
    && d.expiresAt.Some?
    && now < d.expiresAt.value + LockGrace
    && now - d.heartbeat.GetOr(0) < LockTtl
  }

  /** The descriptor `acquire` and `renew` write. */
  function Claim(deviceId: string, now: int, ttl: int): (d: Descriptor)
    ensures d.deviceId == deviceId && d.heartbeat == Some(now) && d.expiresAt == Some(now + ttl)
  {
    Descriptor(deviceId, Some(now), Some(now + ttl))
  }

  /** The outcome of `acquire`: whether the lock was obtained and the lock
      file afterwards. */
  datatype Attempt = Attempt(acquired: bool, after: View)

  /** `acquire(ttl)` on a lock file whose content is `existing`. `writeOk`
      says whether writing the lock file succeeds; a failed write is
      reported as not acquired and leaves the file as it was. */
  function Acquire(existing: View, deviceId: string, now: int, ttl: int, writeOk: bool): (r: Attempt)
    ensures r.acquired <==> writeOk && !(existing.Some? && Live(existing.value, now))
    ensures r.acquired ==> r.after == Some(Claim(deviceId, now, ttl))
    ensures !r.acquired ==> r.after == existing
  {
    if existing.Some? && Live(existing.value, now) then Attempt(false, existing)
    else if !writeOk then Attempt(false, existing)
    else Attempt(true, Some(Claim(deviceId, now, ttl)))
  }

  /** `renew`: rewrites the descriptor with a fresh heartbeat and expiry. */
  function Renew(deviceId: string, now: int, ttl: int): (after: View)
    ensures after.Some? && after.value.heartbeat == Some(now)
    ensures ttl > 0 ==> Live(after.value, now)
  {
    Some(Claim(deviceId, now, ttl))
  }

  /** `release` on a lock file whose content is `existing`: the file is
      truncated, which reads back as no lock. `writeOk` says whether the
      truncation succeeds; a failure is caught and leaves the file as it
      was. */
  function Release(existing: View, writeOk: bool): (after: View)
    ensures writeOk ==> after.None?
    ensures !writeOk ==> after == existing
  {
    if writeOk then None else existing
  }

  /** Mutual exclusion: once a device holds the lock with the default TTL,
      any other attempt is refused until a TTL has passed since the claim,
      and succeeds (when the write succeeds) from then on. */
  lemma {:induction false} LockExcludesForTtl(holder: string, other: string, t: int, t': int, writeOk: bool)
    requires t <= t'
    ensures var held := Acquire(None, holder, t, LockTtl, true).after;
            Acquire(held, other, t', LockTtl, writeOk).acquired <==> writeOk && t' - t >= LockTtl
  {
  }

  /** After a release, the next attempt succeeds whenever its write does. */
  lemma {:induction false} ReleaseFrees(existing: View, deviceId: string, now: int, ttl: int)
    ensures Acquire(Release(existing, true), deviceId, now, ttl, true).acquired
  {
  }

  /** A release whose truncation fails leaves the holder's claim, which
      keeps every other device out until a TTL has passed since the claim. */
  lemma {:induction false} FailedReleaseHolds(holder: string, other: string, t: int, t': int, writeOk: bool)
    requires t <= t'
    ensures var held := Acquire(None, holder, t, LockTtl, true).after;
            Acquire(Release(held, false), other, t', LockTtl, writeOk).acquired <==> writeOk && t' - t >= LockTtl
  {
    LockExcludesForTtl(holder, other, t, t', writeOk);
  }

  /** The number of attempts `_acquireLockWithRetry` makes: the clock readings
      `checks` are taken before each attempt, and the loop stops at the first
      one that is `LockMaxRetry` or more after `start`. */
  function Window(start: int, checks: seq<int>): (k: nat)
    ensures k <= |checks|
    ensures forall i :: 0 <= i < k ==> checks[i] - start < LockMaxRetry
    ensures k < |checks| ==> checks[k] - start >= LockMaxRetry
  {
    if |checks| == 0 || checks[0] - start >= LockMaxRetry then 0
    else 1 + Window(start, checks[1..])
  }

  /** The reference outcome of the retry loop against a lock file that other
      devices show as `views[i]` at attempt `i`: the first attempt inside the
      window that succeeds, if any. */
  function FirstSuccess(views: seq<View>, deviceId: string, checks: seq<int>, k: nat, writeOk: bool): (r: Option<nat>)
    requires k <= |checks| == |views|
    ensures r.Some? ==> r.value < k && Acquire(views[r.value], deviceId, checks[r.value], LockTtl, writeOk).acquired
    ensures r.Some? ==> forall j :: 0 <= j < r.value ==> !Acquire(views[j], deviceId, checks[j], LockTtl, writeOk).acquired
    ensures r.None? <==> forall j :: 0 <= j < k ==> !Acquire(views[j], deviceId, checks[j], LockTtl, writeOk).acquired
    decreases k
  {
    if k == 0 then None
    else
      match FirstSuccess(views, deviceId, checks, k - 1, writeOk)
      case Some(i) => Some(i)
      case None =>
        if Acquire(views[k - 1], deviceId, checks[k - 1], LockTtl, writeOk).acquired then Some(k - 1) else None
  }

  /** `_acquireLockWithRetry`: tries `acquire` while the clock is inside the
      retry window; `hasLock` is false when no lock object exists, in which
      case it succeeds at once. Returns whether the lock was obtained and at
      which attempt. */
  method AcquireWithRetry(hasLock: bool, views: seq<View>, deviceId: string, start: int, checks: seq<int>, writeOk: bool)
    returns (acquired: bool, attempt: nat)
    requires |views| == |checks|
    ensures !hasLock ==> acquired && attempt == 0
    ensures hasLock ==> (acquired <==> exists i :: 0 <= i < Window(start, checks)
                                        && Acquire(views[i], deviceId, checks[i], LockTtl, writeOk).acquired)
    ensures hasLock && acquired ==> FirstSuccess(views, deviceId, checks, Window(start, checks), writeOk) == Some(attempt)
  {
    if !hasLock {
      return true, 0;
    }
    var k := Window(start, checks);
    var i := 0;
    while i < |checks| && checks[i] - start < LockMaxRetry
      invariant 0 <= i <= k
      invariant forall j :: 0 <= j < i ==> !Acquire(views[j], deviceId, checks[j], LockTtl, writeOk).acquired
    {
      var a := Acquire(views[i], deviceId, checks[i], LockTtl, writeOk);
      if a.acquired {
        assert FirstSuccess(views, deviceId, checks, i + 1, writeOk) == Some(i);
        FirstSuccessStable(views, deviceId, checks, i + 1, k, writeOk);
        return true, i;
      }
      i := i + 1;
    }
    assert i == k;
    return false, 0;
  }

  /** A success found among the first `k` attempts is still the first one
      among any longer prefix. */
  lemma {:induction false} FirstSuccessStable(views: seq<View>, deviceId: string, checks: seq<int>, k: nat, k': nat, writeOk: bool)
    requires k <= k' <= |checks| == |views|
    requires FirstSuccess(views, deviceId, checks, k, writeOk).Some?
    ensures FirstSuccess(views, deviceId, checks, k', writeOk) == FirstSuccess(views, deviceId, checks, k, writeOk)
    decreases k' - k
  {
    if k' > k {
      FirstSuccessStable(views, deviceId, checks, k, k' - 1, writeOk);
    }
  }
}

=== FILE: filesystem.dfy ===
/** The external-file mirror (`FileSystemAdapter`, src/storage.js:727-1045):
    the encrypted main file, its `.prev` copy, the `.backup-` snapshots and
    the lock file, all in the folder that holds the main file. */
module FileSystem {
  import opened Wrappers
  import opened Bytes
  import opened Json
  import opened Codes
  import opened Crypto
  import opened Envelope
  import opened Primary
  import FileLock
  import Text

  const PreviousSuffix: string := ".prev"
  const BackupPrefix: string := ".backup-"
  const LockSuffix: string := ".lock"
  const BackupIntervalVersion: int := 50
  const BackupIntervalMs: int := 86400000

  /** What a file holds: nothing (size 0), text that is not JSON, a JSON
      document, or a lock descriptor. */
  datatype Body = Empty | Garbage | Parsed(doc: Document) | LockBody(lock: FileLock.Descriptor)

  datatype Entry = Entry(name: string, body: Body)

  /** The folder of the main file as `parent.entries()` lists it.
      `hasParent` is false when the handle offers no `getParent`: then no
      `.prev`, backup or lock file is ever touched. */
  datatype Folder = Folder(hasParent: bool, entries: seq<Entry>)

  /** The mirror as the composite adapter sees it: whether it is connected
      (a handle with read-write permission) and the folder it writes to. */
  datatype Mirror = Mirror(connected: bool, folder: Folder)

  /** The clock: `Date.now()` and `new Date().toISOString()` at the same instant. */
  datatype Clock = Clock(ms: int, iso: string)

  /** The `askPassword` option: absent, or the text the user answers (empty
      when the prompt is dismissed). */
  datatype Prompt = NoCallback | Answer(text: string)

  /** The first entry called `name`. */
  function Lookup(entries: seq<Entry>, name: string): (r: Option<Body>)
    ensures r.Some? <==> exists i :: 0 <= i < |entries| && entries[i].name == name
  {
    if |entries| == 0 then None
    else if entries[0].name == name then Some(entries[0].body)
    else Lookup(entries[1..], name)
  }

  /** Writing `name`: the first entry of that name is replaced, or a new one is appended. */
  function Put(entries: seq<Entry>, name: string, body: Body): (r: seq<Entry>)
    ensures |r| == |entries| || |r| == |entries| + 1
  {
    if |entries| == 0 then [Entry(name, body)]
    else if entries[0].name == name then [Entry(name, body)] + entries[1..]
    else [entries[0]] + Put(entries[1..], name, body)
  }

  /** A write is read back, and no other file changes. */
  lemma {:induction false} PutLookup(entries: seq<Entry>, name: string, body: Body, other: string)
    ensures Lookup(Put(entries, name, body), name) == Some(body)
    ensures other != name ==> Lookup(Put(entries, name, body), other) == Lookup(entries, other)
  {
    if |entries| > 0 && entries[0].name != name {
      PutLookup(entries[1..], name, body, other);
      assert Put(entries, name, body)[1..] == Put(entries[1..], name, body);
    }
  }

  /** `JSON.parse(text)` of a file: empty text and garbage do not parse; a
      lock descriptor is an object without container fields. */
  function ParseBody(b: Body): Option<Document> {
    match b
    case Empty => None
    case Garbage => None
    case Parsed(doc) => Some(doc)
    case LockBody(_) => Some(Object(Container(0, None, "")))
  }

  /** `_readContainer`: a missing main file makes `getFile` throw, an empty
      one reads as `null`, one that is not JSON is CORRUPTED_FILE. */
  function ReadContainer(f: Folder, name: string): (r: Result<Option<Document>, Code>)
    ensures Lookup(f.entries, name).None? ==> r == Err(FileMissing)
    ensures Lookup(f.entries, name) == Some(Empty) ==> r == Ok(None)
    ensures Lookup(f.entries, name) == Some(Garbage) ==> r == Err(CorruptedFile)
    ensures forall d :: Lookup(f.entries, name) == Some(Parsed(d)) ==> r == Ok(Some(d))
  {
    match Lookup(f.entries, name)
    case None => Err(FileMissing)
    case Some(Empty) => Ok(None)
    case Some(Garbage) => Err(CorruptedFile)
    case Some(b) => Ok(ParseBody(b))
  }

  /** `!value` for a parsed document. */
  predicate Present(d: Option<Document>) {
    d.Some? && !d.value.Falsy?
  }

  /** The first entry whose name contains `.backup-`, if any. */
  function FirstBackup(entries: seq<Entry>): (r: Option<Entry>)
    ensures r.Some? ==> r.value in entries && Text.Contains(r.value.name, BackupPrefix)
    ensures r.None? ==> forall e :: e in entries ==> !Text.Contains(e.name, BackupPrefix)
    ensures r.Some? ==>
      exists i :: (&& 0 <= i < |entries| && entries[i] == r.value
                   && forall j :: 0 <= j < i ==> !Text.Contains(entries[j].name, BackupPrefix))
  {
    if |entries| == 0 then None
    else if Text.Contains(entries[0].name, BackupPrefix) then Some(entries[0])
    else
      var r := FirstBackup(entries[1..]);
      if r.Some? then
        var i :| 0 <= i < |entries| - 1 && entries[1..][i] == r.value
          && forall j :: 0 <= j < i ==> !Text.Contains(entries[1..][j].name, BackupPrefix);
        assert entries[i + 1] == r.value;
        assert forall j :: 0 <= j < i + 1 ==> !Text.Contains(entries[j].name, BackupPrefix) by {
          forall j | 0 <= j < i + 1 ensures !Text.Contains(entries[j].name, BackupPrefix) {
            if j > 0 { assert entries[j] == entries[1..][j - 1]; }
          }
        }
        r
      else r
  }

  /** `_resilientLoad`: the main file when it reads as a truthy value; else
      the `.prev` copy when it parses (whatever it holds); else the first
      backup, when it parses; else nothing. */
  function ResilientLoad(f: Folder, name: string): (r: Option<Document>)
    ensures ReadContainer(f, name).Ok? && Present(ReadContainer(f, name).value) ==> r == ReadContainer(f, name).value
    ensures !(ReadContainer(f, name).Ok? && Present(ReadContainer(f, name).value)) && !f.hasParent ==> r.None?
    ensures !(ReadContainer(f, name).Ok? && Present(ReadContainer(f, name).value)) && f.hasParent
            && Lookup(f.entries, name + PreviousSuffix).Some?
            && ParseBody(Lookup(f.entries, name + PreviousSuffix).value).Some?
            ==> r == ParseBody(Lookup(f.entries, name + PreviousSuffix).value)
    ensures !(ReadContainer(f, name).Ok? && Present(ReadContainer(f, name).value)) && f.hasParent
            && !(Lookup(f.entries, name + PreviousSuffix).Some?
                 && ParseBody(Lookup(f.entries, name + PreviousSuffix).value).Some?)
            ==> (FirstBackup(f.entries).None? ==> r.None?)
                && (FirstBackup(f.entries).Some? ==> r == ParseBody(FirstBackup(f.entries).value.body))
  {
    var main := ReadContainer(f, name);
    if main.Ok? && Present(main.value) then main.value
    else if !f.hasParent then None
    else
      var prev := Lookup(f.entries, name + PreviousSuffix);
      if prev.Some? && ParseBody(prev.value).Some? then ParseBody(prev.value)
      else
        match FirstBackup(f.entries)
        case None => None
        case Some(e) => ParseBody(e.body)
  }

  /** Which writes to the folder succeed during one operation: the main
      file, its `.prev` copy and a backup. A write that fails leaves its
      file as it was. */
  datatype WriteIo = WriteIo(mainOk: bool, prevOk: bool, backupOk: bool)

  /** `_writeContainer(container, {keepPrev})`: the main file, and with
      `keepPrev` its `.prev` copy when the folder is reachable. A failed
      main write reaches the caller; a failed `.prev` write is swallowed by
      `_persistPrevious`, which is best effort. */
  function WriteContainer(f: Folder, name: string, c: Container, keepPrev: bool, writes: WriteIo): (r: Result<Folder, Code>)
    ensures r.Err? <==> !writes.mainOk
    ensures r.Err? ==> r.error == WriteFailed
    ensures r.Ok? ==> r.value.hasParent == f.hasParent
    ensures r.Ok? ==> Lookup(r.value.entries, name) == Some(Parsed(Object(c)))
    ensures r.Ok? && keepPrev && f.hasParent && writes.prevOk ==>
              Lookup(r.value.entries, name + PreviousSuffix) == Some(Parsed(Object(c)))
    ensures r.Ok? && !(keepPrev && f.hasParent && writes.prevOk) ==>
              Lookup(r.value.entries, name + PreviousSuffix) == Lookup(f.entries, name + PreviousSuffix)
  {
    if !writes.mainOk then Err(WriteFailed)
    else
      var main := Put(f.entries, name, Parsed(Object(c)));
      assert |name + PreviousSuffix| > |name|;
      PutLookup(f.entries, name, Parsed(Object(c)), name + PreviousSuffix);
      if keepPrev && f.hasParent && writes.prevOk then
        PutLookup(main, name + PreviousSuffix, Parsed(Object(c)), name);
        Ok(Folder(f.hasParent, Put(main, name + PreviousSuffix, Parsed(Object(c)))))
      else Ok(Folder(f.hasParent, main))
  }

  /** The backup cadence: fifty versions or a day since the last backup. */
  predicate ShouldBackup(version: int, s: Settings, now: int) {
    || version - s.lastBackupVersion >= BackupIntervalVersion
    || now - s.lastBackupTs.GetOr(0) >= BackupIntervalMs
  }

  /** `new Date().toISOString().replace(/[-:]/g, '').slice(0, 15)`. */
  function BackupStamp(iso: string): (stamp: string)
    ensures |stamp| <= 15
  {
    var compact := Text.Without(iso, {'-', ':'});
    if |compact| <= 15 then compact else compact[..15]
  }

  /** On an ISO timestamp `YYYY-MM-DDTHH:MM:SS...` the stamp is
      `YYYYMMDDTHHMMSS`: the dashes and colons go, and the fraction and
      the zone are cut off. */
  lemma {:induction false} BackupStampOfIso(y: string, mo: string, d: string, h: string, mi: string, sec: string, tail: string)
    requires |y| == 4 && |mo| == 2 && |d| == 2 && |h| == 2 && |mi| == 2 && |sec| == 2
    requires Text.AllDigits(y) && Text.AllDigits(mo) && Text.AllDigits(d)
    requires Text.AllDigits(h) && Text.AllDigits(mi) && Text.AllDigits(sec)
    requires forall i :: 0 <= i < |tail| ==> tail[i] != '-' && tail[i] != ':'
    ensures BackupStamp(y + "-" + mo + "-" + d + "T" + h + ":" + mi + ":" + sec + tail) == y + mo + d + "T" + h + mi + sec
  {
    IsoCompacted(y, mo, d, h, mi, sec, tail);
    var stamp := y + mo + d + "T" + h + mi + sec;
    assert |stamp| == 15;
    assert (stamp + tail)[..15] == stamp;
  }

  /** Dropping the dashes and colons of an ISO timestamp joins its digit
      groups and keeps the `T` and the tail. */
  lemma {:induction false} IsoCompacted(y: string, mo: string, d: string, h: string, mi: string, sec: string, tail: string)
    requires Text.AllDigits(y) && Text.AllDigits(mo) && Text.AllDigits(d)
    requires Text.AllDigits(h) && Text.AllDigits(mi) && Text.AllDigits(sec)
    requires forall i :: 0 <= i < |tail| ==> tail[i] != '-' && tail[i] != ':'
    ensures Text.Without(y + "-" + mo + "-" + d + "T" + h + ":" + mi + ":" + sec + tail, {'-', ':'})
              == y + mo + d + "T" + h + mi + sec + tail
  {
    DatePart(y, mo, d);
    TimePart(y + "-" + mo + "-" + d, h, mi, sec, tail);
  }

  /** `YYYY-MM-DD` loses its dashes. */
  lemma {:induction false} DatePart(y: string, mo: string, d: string)
    requires Text.AllDigits(y) && Text.AllDigits(mo) && Text.AllDigits(d)
    ensures Text.Without(y + "-" + mo + "-" + d, {'-', ':'}) == y + mo + d
  {
    var drop := {'-', ':'};
    Text.WithoutNone(y, drop);
    AppendDropped(y, "-", drop);
    AppendKept(y + "-", mo, drop);
    AppendDropped(y + "-" + mo, "-", drop);
    AppendKept(y + "-" + mo + "-", d, drop);
  }

  /** `THH:MM:SS` and a tail without dashes or colons, after any prefix `p`,
      lose the colons only. */
  lemma {:induction false} TimePart(p: string, h: string, mi: string, sec: string, tail: string)
    requires Text.AllDigits(h) && Text.AllDigits(mi) && Text.AllDigits(sec)
    requires forall i :: 0 <= i < |tail| ==> tail[i] != '-' && tail[i] != ':'
    ensures Text.Without(p + "T" + h + ":" + mi + ":" + sec + tail, {'-', ':'})
              == Text.Without(p, {'-', ':'}) + "T" + h + mi + sec + tail
  {
    var drop := {'-', ':'};
    AppendKept(p, "T", drop);
    AppendKept(p + "T", h, drop);
    AppendDropped(p + "T" + h, ":", drop);
    AppendKept(p + "T" + h + ":", mi, drop);
    AppendDropped(p + "T" + h + ":" + mi, ":", drop);
    AppendKept(p + "T" + h + ":" + mi + ":", sec, drop);
    AppendKept(p + "T" + h + ":" + mi + ":" + sec, tail, drop);
  }

  /** Appending a piece with nothing to drop appends it to the result. */
  lemma {:induction false} AppendKept(p: string, piece: string, drop: set<char>)
    requires forall i :: 0 <= i < |piece| ==> piece[i] !in drop
    ensures Text.Without(p + piece, drop) == Text.Without(p, drop) + piece
  {
    Text.WithoutAppend(p, piece, drop);
    Text.WithoutNone(piece, drop);
  }

  /** Appending one dropped separator changes nothing. */
  lemma {:induction false} AppendDropped(p: string, sep: string, drop: set<char>)
    requires |sep| == 1 && sep[0] in drop
    ensures Text.Without(p + sep, drop) == Text.Without(p, drop)
  {
    Text.WithoutAppend(p, sep, drop);
    assert sep[1..] == [];
    assert Text.Without(sep, drop) == [];
  }

  function BackupName(name: string, iso: string): string {
    name + BackupPrefix + BackupStamp(iso) + ".enc"
  }

  /** `_maybeBackup(container)`: when the cadence is due and the folder is
      reachable, writes a timestamped copy and records version and time of
      the backup in the settings. A failed backup write is swallowed before
      the settings are updated, so the next save tries again. */
  function MaybeBackup(f: Folder, name: string, r: Record, c: Container, clock: Clock, writeOk: bool): (out: (Folder, Record))
    requires c.header.Some?
    ensures out.1.state == r.state && out.1.version == r.version
    ensures out.0.hasParent == f.hasParent
    ensures out.1.settings.fsHandle == r.settings.fsHandle && out.1.settings.fsEncrypted == r.settings.fsEncrypted
    ensures out.1.settings.deviceId == r.settings.deviceId
    ensures f.hasParent && ShouldBackup(c.header.value.meta.versionCounter, r.settings, clock.ms) && writeOk ==>
              && Lookup(out.0.entries, BackupName(name, clock.iso)) == Some(Parsed(Object(c)))
              && out.1.settings.lastBackupVersion == c.header.value.meta.versionCounter
              && out.1.settings.lastBackupTs == Some(clock.ms)
    ensures !(f.hasParent && ShouldBackup(c.header.value.meta.versionCounter, r.settings, clock.ms) && writeOk) ==> out == (f, r)
  {
    var version := c.header.value.meta.versionCounter;
    if !f.hasParent || !ShouldBackup(version, r.settings, clock.ms) || !writeOk then (f, r)
    else
      var backup := BackupName(name, clock.iso);
      PutLookup(f.entries, backup, Parsed(Object(c)), backup);
      (Folder(f.hasParent, Put(f.entries, backup, Parsed(Object(c)))),
       UpdateSettings(r, NoChange.(lastBackup := Some(Some(clock.iso)),
                                   lastBackupVersion := Some(version),
                                   lastBackupTs := Some(Some(clock.ms)))))
  }

  /** `_ensurePassword({optional})`: no password for an unencrypted mirror;
      for an encrypted one, the user's answer, or an error unless optional. */
  function EnsurePassword(s: Settings, ask: Prompt, optional: bool): (r: Result<Option<string>, Code>)
    ensures !s.fsEncrypted ==> r == Ok(None)
    ensures s.fsEncrypted && ask.Answer? && ask.text != "" ==> r == Ok(Some(ask.text))
    ensures r.Ok? && r.value.Some? ==> r.value.value != ""
    ensures r.Err? <==> s.fsEncrypted && !optional && (ask.NoCallback? || ask.text == "")
  {
    if !s.fsEncrypted then Ok(None)
    else if ask.NoCallback? then (if optional then Ok(None) else Err(PasswordCallbackMissing))
    else if ask.text == "" then (if optional then Ok(None) else Err(WrongPassword))
    else Ok(Some(ask.text))
  }

  /** The lock file as `FileLock._read` sees it. */
  function LockView(b: Option<Body>): (v: FileLock.View)
    ensures b.None? || b == Some(Empty) || b == Some(Garbage) ==> v.None?
    ensures forall d :: b == Some(LockBody(d)) ==> v == Some(d)
  {
    match b
    case Some(LockBody(d)) => Some(d)
    case Some(Parsed(Object(_))) => Some(FileLock.Descriptor("", None, None))
    case Some(Parsed(Scalar)) => Some(FileLock.Descriptor("", None, None))
    case _ => None
  }

  /** The lock file's I/O during one `saveToFile`: the clock readings of
      the retry loop, whether writing the claim succeeds, and whether the
      truncation in `release` succeeds. */
  datatype LockIo = LockIo(checks: seq<int>, claimWriteOk: bool, releaseWriteOk: bool)

  /** The attempt of `_acquireLockWithRetry` that obtains the lock, if any.
      The folder does not change while one adapter retries, so each attempt
      sees the same lock file. */
  function LockAttempt(f: Folder, name: string, deviceId: string, start: int, lock: LockIo): (k: Option<nat>)
    ensures k.Some? ==> k.value < |lock.checks|
  {
    var view := LockView(Lookup(f.entries, name + LockSuffix));
    var views := seq(|lock.checks|, _ => view);
    FileLock.FirstSuccess(views, deviceId, lock.checks, FileLock.Window(start, lock.checks), lock.claimWriteOk)
  }

  /** Whether `_acquireLockWithRetry` obtains the lock: some attempt inside
      the window finds no live lock and writes its claim. Without a reachable
      folder there is no lock file and locking always succeeds. */
  function LockAcquired(f: Folder, name: string, deviceId: string, start: int, lock: LockIo): (ok: bool)
    ensures !f.hasParent ==> ok
    ensures f.hasParent ==>
              (ok <==> && lock.claimWriteOk
                       && exists i :: 0 <= i < FileLock.Window(start, lock.checks)
                            && !(LockView(Lookup(f.entries, name + LockSuffix)).Some?
                                 && FileLock.Live(LockView(Lookup(f.entries, name + LockSuffix)).value, lock.checks[i])))
  {
    if !f.hasParent then true
    else LockAttempt(f, name, deviceId, start, lock).Some?
  }

  /** The claim the successful attempt wrote into the lock file. */
  function ClaimOf(f: Folder, name: string, deviceId: string, start: int, lock: LockIo): (d: FileLock.Descriptor)
    ensures d.deviceId == deviceId && d.expiresAt.Some? && d.heartbeat.Some?
    ensures d.expiresAt.value == d.heartbeat.value + FileLock.LockTtl
  {
    var t := match LockAttempt(f, name, deviceId, start, lock)
      case Some(i) => lock.checks[i]
      case None => start;
    FileLock.Claim(deviceId, t, FileLock.LockTtl)
  }

  /** The status `saveToFile` reports. */
  datatype Status = Saved | NotConnected | Locked | NeedsPassword | WriteFail

  datatype SaveOutcome = SaveOutcome(status: Status, folder: Folder, record: Record)

  /** Whether the mirror is connected: `connected` and a handle. */
  predicate Connected(r: Record, m: Mirror) {
    m.connected && r.settings.fsHandle.Some?
  }

  /** The header of a previously read container, if it has one
      (`existing?.header`). */
  function PreviousHeader(previous: Option<Document>): Option<Header> {
    if previous.Some? && previous.value.Object? then previous.value.container.header else None
  }

  /** The first part of `saveToFile`'s `try`: the password, the current main
      file and the container sealed with the previous header. */
  function Seal(r: Record, f: Folder, name: string, c: Suite, state: Json, meta: Meta, ask: Prompt, rand: Fresh)
    : (out: Result<Option<Container>, Code>)
    ensures !r.settings.fsEncrypted ==> out == Ok(None)
    ensures out.Ok? && out.value.Some? ==>
              && r.settings.fsEncrypted && ask.Answer? && ask.text != ""
              && ReadContainer(f, name).Ok?
              && Encrypt(c, state, ask.text, meta, PreviousHeader(ReadContainer(f, name).value), rand) == Ok(out.value.value)
    ensures r.settings.fsEncrypted && ask.Answer? && ask.text != "" && ReadContainer(f, name).Ok?
            && Encrypt(c, state, ask.text, meta, PreviousHeader(ReadContainer(f, name).value), rand).Ok?
            ==> out.Ok? && out.value.Some?
  {
    var password :- EnsurePassword(r.settings, ask, false);
    match password
    case None => Ok(None)
    case Some(p) =>
      var previous :- ReadContainer(f, name);
      var sealed :- Encrypt(c, state, p, meta, PreviousHeader(previous), rand);
      Ok(Some(sealed))
  }

  /** Everything `saveToFile` does inside its `try`, once the lock is held. */
  function WriteLocked(r: Record, f: Folder, name: string, c: Suite, state: Json, meta: Meta,
                       ask: Prompt, rand: Fresh, clock: Clock, writes: WriteIo): (out: SaveOutcome)
    ensures out.record.state == r.state && out.record.version == r.version
    ensures out.record.settings.fsHandle == r.settings.fsHandle && out.record.settings.fsEncrypted == r.settings.fsEncrypted
    ensures out.record.settings.deviceId == r.settings.deviceId
    ensures out.folder.hasParent == f.hasParent
    ensures !r.settings.fsEncrypted ==> out == SaveOutcome(NeedsPassword, f, r)
    ensures out.status != Saved ==> out.folder == f && out.record == r
    ensures Seal(r, f, name, c, state, meta, ask, rand).Err? ==> out == SaveOutcome(WriteFail, f, r)
    ensures out.status == Saved <==> Seal(r, f, name, c, state, meta, ask, rand).Ok?
                                     && Seal(r, f, name, c, state, meta, ask, rand).value.Some?
                                     && writes.mainOk
    ensures (Seal(r, f, name, c, state, meta, ask, rand).Ok? && Seal(r, f, name, c, state, meta, ask, rand).value.Some?
             && !writes.mainOk) ==> out == SaveOutcome(WriteFail, f, r)
    ensures out.status == Saved ==>
              Lookup(out.folder.entries, name) == Some(Parsed(Object(Seal(r, f, name, c, state, meta, ask, rand).value.value)))
  {
    match Seal(r, f, name, c, state, meta, ask, rand)
    case Err(_) => SaveOutcome(WriteFail, f, r)
    case Ok(None) => SaveOutcome(NeedsPassword, f, r)
    case Ok(Some(sealed)) =>
      match WriteContainer(f, name, sealed, true, writes)
      case Err(_) => SaveOutcome(WriteFail, f, r)
      case Ok(written) =>
        var backedUp := MaybeBackup(written, name, r, sealed, clock, writes.backupOk);
        BackupNameDiffers(name, clock.iso);
        PutLookup(written.entries, BackupName(name, clock.iso), Parsed(Object(sealed)), name);
        SaveOutcome(Saved, backedUp.0, backedUp.1)
  }

  lemma {:induction false} BackupNameDiffers(name: string, iso: string)
    ensures BackupName(name, iso) != name
  {
    assert |BackupName(name, iso)| > |name|;
  }

  /** `release()` in the `finally` block, on the lock file that holds this
      save's claim: truncated when the write succeeds, otherwise the claim
      stays (the error is caught). */
  function ReleaseLock(f: Folder, name: string, claim: FileLock.Descriptor, writeOk: bool): (f': Folder)
    ensures f'.hasParent == f.hasParent
    ensures f.hasParent ==> LockView(Lookup(f'.entries, name + LockSuffix)) == FileLock.Release(Some(claim), writeOk)
    ensures f.hasParent && writeOk ==> Lookup(f'.entries, name + LockSuffix) == Some(Empty)
    ensures Lookup(f'.entries, name) == Lookup(f.entries, name)
  {
    if !f.hasParent then f
    else
      var body := if writeOk then Empty else LockBody(claim);
      assert |name + LockSuffix| > |name|;
      PutLookup(f.entries, name + LockSuffix, body, name);
      PutLookup(f.entries, name + LockSuffix, body, name + LockSuffix);
      Folder(true, Put(f.entries, name + LockSuffix, body))
  }

  /** The device id used in the file meta and the lock descriptor. */
  function DeviceId(s: Settings, random: Buffer): string {
    if s.deviceId != "" then s.deviceId else DeviceIdOf(random)
  }

  /** `saveToFile(state, metadata)` (src/storage.js:802-847): refuses when
      not connected or when the lock stays taken, otherwise seals and writes
      the state and finally frees the lock. The record only changes in its
      backup bookkeeping. */
  function SaveToFile(r: Record, m: Mirror, c: Suite, state: Json, version: int, prevVersion: int, lastModified: string,
                      ask: Prompt, rand: Fresh, random: Buffer, clock: Clock, lock: LockIo, writes: WriteIo): (out: SaveOutcome)
    ensures !Connected(r, m) ==> out == SaveOutcome(NotConnected, m.folder, r)
    ensures Connected(r, m)
            && !LockAcquired(m.folder, r.settings.fsHandle.value.name, DeviceId(r.settings, random), clock.ms, lock)
            ==> out == SaveOutcome(Locked, m.folder, r)
    ensures out.record.state == r.state && out.record.version == r.version
    ensures out.record.settings.fsHandle == r.settings.fsHandle && out.record.settings.fsEncrypted == r.settings.fsEncrypted
    ensures out.folder.hasParent == m.folder.hasParent
    ensures Connected(r, m) && !r.settings.fsEncrypted ==> out.status == NeedsPassword || out.status == Locked
    ensures out.status == Saved ==>
              && Connected(r, m) && r.settings.fsEncrypted && ask.Answer? && ask.text != "" && writes.mainOk
              && var name := r.settings.fsHandle.value.name;
              && var meta := Meta(DeviceId(r.settings, random), version, lastModified, Some(prevVersion));
              && Seal(r, m.folder, name, c, state, meta, ask, rand).Ok?
              && Seal(r, m.folder, name, c, state, meta, ask, rand).value.Some?
              && Lookup(out.folder.entries, name)
                   == Some(Parsed(Object(Seal(r, m.folder, name, c, state, meta, ask, rand).value.value)))
              && (m.folder.hasParent && lock.releaseWriteOk ==> Lookup(out.folder.entries, name + LockSuffix) == Some(Empty))
    ensures Connected(r, m) && !writes.mainOk ==> out.status != Saved
    ensures Connected(r, m) ==>
              var name := r.settings.fsHandle.value.name;
              var meta := Meta(DeviceId(r.settings, random), version, lastModified, Some(prevVersion));
              (&& LockAcquired(m.folder, name, DeviceId(r.settings, random), clock.ms, lock)
               && !writes.mainOk
               && Seal(r, m.folder, name, c, state, meta, ask, rand).Ok?
               && Seal(r, m.folder, name, c, state, meta, ask, rand).value.Some?)
              ==> out.status == WriteFail && out.record == r
    ensures Connected(r, m) && m.folder.hasParent && out.status != Locked ==>
              var name := r.settings.fsHandle.value.name;
              var claim := ClaimOf(m.folder, name, DeviceId(r.settings, random), clock.ms, lock);
              LockView(Lookup(out.folder.entries, name + LockSuffix)) == FileLock.Release(Some(claim), lock.releaseWriteOk)
  {
    if !Connected(r, m) then SaveOutcome(NotConnected, m.folder, r)
    else
      var name := r.settings.fsHandle.value.name;
      var deviceId := DeviceId(r.settings, random);
      if !LockAcquired(m.folder, name, deviceId, clock.ms, lock) then SaveOutcome(Locked, m.folder, r)
      else
        var meta := Meta(deviceId, version, lastModified, Some(prevVersion));
        var out := WriteLocked(r, m.folder, name, c, state, meta, ask, rand, clock, writes);
        var claim := ClaimOf(m.folder, name, deviceId, clock.ms, lock);
        out.(folder := ReleaseLock(out.folder, name, claim, lock.releaseWriteOk))
  }

  /** A save that took the lock but could not truncate it leaves its claim
      behind: any other device is refused the lock for a TTL after the
      claim. */
  lemma {:induction false} FailedReleaseBlocks(r: Record, m: Mirror, c: Suite, state: Json, version: int, prevVersion: int,
                                               lastModified: string, ask: Prompt, rand: Fresh, random: Buffer, clock: Clock,
                                               lock: LockIo, writes: WriteIo, other: string, writeOk: bool)
    requires Connected(r, m) && m.folder.hasParent && !lock.releaseWriteOk
    requires SaveToFile(r, m, c, state, version, prevVersion, lastModified, ask, rand, random, clock, lock, writes).status != Locked
    ensures var out := SaveToFile(r, m, c, state, version, prevVersion, lastModified, ask, rand, random, clock, lock, writes);
            var name := r.settings.fsHandle.value.name;
            var claim := ClaimOf(m.folder, name, DeviceId(r.settings, random), clock.ms, lock);
            var view := LockView(Lookup(out.folder.entries, name + LockSuffix));
            forall t :: claim.heartbeat.value <= t < claim.heartbeat.value + FileLock.LockTtl ==>
                          !FileLock.Acquire(view, other, t, FileLock.LockTtl, writeOk).acquired
  {
  }

  /** What `loadFromFile` returns. */
  datatype Loaded = Loaded(state: Json, version: int, lastModified: string)

  /** The secret `loadFromFile` decrypts with: the password when the
      container has a wrapped key, otherwise the password only for an
      encrypted mirror. */
  function Secret(doc: Document, password: Option<string>, encrypted: bool): Option<string> {
    var pass := if doc.Object? && doc.container.header.Some? && doc.container.header.value.dekWrapped != ""
                then password else None;
    if pass.Some? && pass.value != "" then pass
    else if encrypted then password else None
  }

  /** `loadFromFile()` (src/storage.js:849-874): the recovered container
      decrypted with the user's password; any failure reads as nothing. */
  function LoadFromFile(r: Record, m: Mirror, c: Suite, ask: Prompt, clock: Clock): (out: Option<Loaded>)
    ensures !Connected(r, m) ==> out.None?
    ensures r.settings.fsEncrypted && !(ask.Answer? && ask.text != "") ==> out.None?
    ensures out.Some? ==>
              && Connected(r, m)
              && var doc := ResilientLoad(m.folder, r.settings.fsHandle.value.name);
              && Present(doc)
              && var password := if r.settings.fsEncrypted then ask.text else "null";
              && Decrypt(c, doc.value, password).Ok?
              && out.value.state == StateOf(Decrypt(c, doc.value, password).value.plaintext)
              && out.value.version == Decrypt(c, doc.value, password).value.header.meta.versionCounter
  {
    if !Connected(r, m) then None
    else
      match EnsurePassword(r.settings, ask, true)
      case Err(_) => None
      case Ok(password) =>
        var doc := ResilientLoad(m.folder, r.settings.fsHandle.value.name);
        if !Present(doc) then None
        else
          var secret := Secret(doc.value, password, r.settings.fsEncrypted);
          if r.settings.fsEncrypted && (secret.None? || secret.value == "") then None
          else
            match Decrypt(c, doc.value, secret.GetOr("null"))
            case Err(_) => None
            case Ok(u) =>
              Some(Loaded(StateOf(u.plaintext), u.header.meta.versionCounter,
                          if u.header.meta.lastModified != "" then u.header.meta.lastModified else clock.iso))
  }

  /** `changePassword(old, new)` (src/storage.js:901-918): rewraps the
      recovered container under the new password and writes it back with
      its `.prev` copy; the ciphertext is untouched. Every error, a failed
      main write included, is rethrown. */
  function ChangePassword(r: Record, m: Mirror, c: Suite, oldPassword: string, newPassword: string, freshSalt: Buffer,
                          writes: WriteIo)
    : (out: Result<Folder, Code>)
    ensures !Connected(r, m) ==> out == Ok(m.folder)
    ensures Connected(r, m) && !Present(ResilientLoad(m.folder, r.settings.fsHandle.value.name)) ==> out == Err(FsReadFail)
    ensures Connected(r, m) && out.Ok? ==>
              && var doc := ResilientLoad(m.folder, r.settings.fsHandle.value.name);
              && doc.Some?
              && var rewrapped := Rewrap(c, doc.value, oldPassword, newPassword, RewrapOptions(None, 0), freshSalt);
              && rewrapped.Ok?
              && writes.mainOk
              && Lookup(out.value.entries, r.settings.fsHandle.value.name) == Some(Parsed(Object(rewrapped.value)))
              && out.value.hasParent == m.folder.hasParent
    ensures Connected(r, m) && Present(ResilientLoad(m.folder, r.settings.fsHandle.value.name))
            && Rewrap(c, ResilientLoad(m.folder, r.settings.fsHandle.value.name).value, oldPassword, newPassword,
                      RewrapOptions(None, 0), freshSalt).Ok?
            ==> (out.Ok? <==> writes.mainOk) && (!writes.mainOk ==> out == Err(WriteFailed))
  {
    if !Connected(r, m) then Ok(m.folder)
    else
      var name := r.settings.fsHandle.value.name;
      var doc := ResilientLoad(m.folder, name);
      if !Present(doc) then Err(FsReadFail)
      else
        var rewrapped :- Rewrap(c, doc.value, oldPassword, newPassword, RewrapOptions(None, 0), freshSalt);
        WriteContainer(m.folder, name, rewrapped, true, writes)
  }

  /** The secret of `loadFromFile` is always the password the user gave:
      an unencrypted mirror never asks, and an encrypted one uses the answer. */
  lemma {:induction false} SecretIsPassword(s: Settings, ask: Prompt, doc: Document)
    requires EnsurePassword(s, ask, true).Ok?
    ensures Secret(doc, EnsurePassword(s, ask, true).value, s.fsEncrypted) == EnsurePassword(s, ask, true).value
  {
  }

  /** What `saveToFile` writes, `loadFromFile` reads back: the same state,
      version and modification time, under the same password, on this device
      or on any other whose settings point at the same file. */
  lemma {:induction false} SaveThenLoad(r: Record, m: Mirror, c: Suite, state: Json, version: int, prevVersion: int, lastModified: string,
                     password: string, rand: Fresh, random: Buffer, clock: Clock, lock: LockIo,
                     writes: WriteIo, reader: Record, later: Clock)
    requires RoundTrips(c)
    requires SaveToFile(r, m, c, state, version, prevVersion, lastModified, Answer(password), rand, random, clock, lock, writes).status == Saved
    requires reader.settings.fsHandle == r.settings.fsHandle && reader.settings.fsEncrypted
    ensures var out := SaveToFile(r, m, c, state, version, prevVersion, lastModified, Answer(password), rand, random, clock, lock, writes);
            LoadFromFile(reader, Mirror(true, out.folder), c, Answer(password), later)
              == Some(Loaded(state, version, if lastModified != "" then lastModified else later.iso))
  {
    var out := SaveToFile(r, m, c, state, version, prevVersion, lastModified, Answer(password), rand, random, clock, lock, writes);
    var name := r.settings.fsHandle.value.name;
    var meta := Meta(DeviceId(r.settings, random), version, lastModified, Some(prevVersion));
    var previous := PreviousHeader(ReadContainer(m.folder, name).value);
    var sealed := Seal(r, m.folder, name, c, state, meta, Answer(password), rand).value.value;
    assert Encrypt(c, state, password, meta, previous, rand) == Ok(sealed);
    EncryptDecryptRoundTrip(c, state, password, meta, previous, rand);
    MainLoads(out.folder, name, sealed);
    LoadDocument(reader, out.folder, c, password, later, sealed);
    var u := Decrypt(c, Object(sealed), password).value;
    assert u.header.meta == meta;
  }

  /** A main file holding a container loads that container. */
  lemma {:induction false} MainLoads(f: Folder, name: string, sealed: Container)
    requires Lookup(f.entries, name) == Some(Parsed(Object(sealed)))
    ensures ResilientLoad(f, name) == Some(Object(sealed))
  {
    assert ReadContainer(f, name) == Ok(Some(Object(sealed)));
  }

  /** An encrypted mirror whose recovered document decrypts under the
      password loads that document's contents. */
  lemma {:induction false} LoadDocument(reader: Record, folder: Folder, c: Suite, password: string, later: Clock, sealed: Container)
    requires reader.settings.fsHandle.Some? && reader.settings.fsEncrypted && password != ""
    requires ResilientLoad(folder, reader.settings.fsHandle.value.name) == Some(Object(sealed))
    requires Decrypt(c, Object(sealed), password).Ok?
    ensures var u := Decrypt(c, Object(sealed), password).value;
            LoadFromFile(reader, Mirror(true, folder), c, Answer(password), later)
              == Some(Loaded(StateOf(u.plaintext), u.header.meta.versionCounter,
                             if u.header.meta.lastModified != "" then u.header.meta.lastModified else later.iso))
  {
    assert EnsurePassword(reader.settings, Answer(password), true) == Ok(Some(password));
    assert Secret(Object(sealed), Some(password), true) == Some(password);
  }

  /** Changing the password keeps the data: whatever the mirror loaded under
      the old password, it loads under the new one after the change. The
      change fails only when the main file cannot be written. */
  lemma {:induction false} ChangePasswordKeepsData(r: Record, m: Mirror, c: Suite, oldPassword: string, newPassword: string,
                                freshSalt: Buffer, clock: Clock, writes: WriteIo)
    requires RoundTrips(c)
    requires r.settings.fsEncrypted && newPassword != ""
    requires LoadFromFile(r, m, c, Answer(oldPassword), clock).Some?
    ensures ChangePassword(r, m, c, oldPassword, newPassword, freshSalt, writes).Ok? <==> writes.mainOk
    ensures !writes.mainOk ==> ChangePassword(r, m, c, oldPassword, newPassword, freshSalt, writes) == Err(WriteFailed)
    ensures writes.mainOk ==>
              LoadFromFile(r, Mirror(true, ChangePassword(r, m, c, oldPassword, newPassword, freshSalt, writes).value), c,
                           Answer(newPassword), clock)
                == LoadFromFile(r, m, c, Answer(oldPassword), clock)
  {
    var name := r.settings.fsHandle.value.name;
    var doc := ResilientLoad(m.folder, name).value;
    var options := RewrapOptions(None, 0);
    RewrapPreservesContents(c, doc, oldPassword, newPassword, options, freshSalt);
    var rewrapped := Rewrap(c, doc, oldPassword, newPassword, options, freshSalt).value;
    if !writes.mainOk {
      return;
    }
    var after := ChangePassword(r, m, c, oldPassword, newPassword, freshSalt, writes).value;
    assert ResilientLoad(after, name) == Some(Object(rewrapped));
    LoadDocument(r, after, c, newPassword, clock, rewrapped);
    var before := Decrypt(c, doc, oldPassword).value;
    var now := Decrypt(c, Object(rewrapped), newPassword).value;
    assert now.header.meta == before.header.meta;
  }

  /** The first save of a new installation makes a backup: the initial
      settings carry no backup time, which counts as the epoch. */
  lemma {:induction false} FirstSaveBacksUp(deviceId: string, created: string, version: int, now: int)
    requires now >= BackupIntervalMs
    ensures ShouldBackup(version, InitialRecord(deviceId, created).settings, now)
  {
  }

  /** Right after a backup at version `v` and time `t`, the next one is due
      exactly when fifty more versions or a day have passed. A backup whose
      write failed leaves the cadence where it was. */
  lemma {:induction false} BackupCadence(f: Folder, name: string, r: Record, c: Container, clock: Clock, writeOk: bool,
                                         version: int, now: int)
    requires c.header.Some? && f.hasParent
    requires ShouldBackup(c.header.value.meta.versionCounter, r.settings, clock.ms)
    ensures var settings := MaybeBackup(f, name, r, c, clock, writeOk).1.settings;
            writeOk ==>
              (ShouldBackup(version, settings, now) <==>
                 version - c.header.value.meta.versionCounter >= BackupIntervalVersion || now - clock.ms >= BackupIntervalMs)
    ensures !writeOk ==> MaybeBackup(f, name, r, c, clock, writeOk).1 == r
  {
  }
}

=== FILE: json.dfy ===
/** The application payload the storage layer carries. The engine treats it as
    an opaque JSON value; the only structure it looks at is whether a value is a
    plain object (for the shallow merge of `save`) and JavaScript truthiness. */
module Json {

  datatype Json =
    | JNull
    | JBool(b: bool)
    | JNum(n: Double)
    | JStr(s: string)
    | JArr(items: seq<Json>)
    | JObj(fields: map<string, Json>)

  /** The number `mantissa * 2^exponent`. */
  datatype Dyadic = Dyadic(mantissa: int, exponent: int)

  function Magnitude(m: int): nat {
    if m < 0 then -m else m
  }

  /** The number of binary digits of `n`; 0 has none. */
  function BitLength(n: nat): nat {
    if n == 0 then 0 else 1 + BitLength(n / 2)
  }

  /** A finite IEEE 754 binary64 value in lowest terms. Zero is `(0, 0)`;
      any other value has an odd mantissa of at most 53 bits, an exponent no
      lower than that of the least subnormal, 2^-1074, and a magnitude below
      2^1024. `-0`, NaN and the infinities have no form here. */
  predicate IsDouble(d: Dyadic) {
    || d == Dyadic(0, 0)
    || (&& d.mantissa % 2 != 0
        && -1074 <= d.exponent
        && BitLength(Magnitude(d.mantissa)) <= 53
        && BitLength(Magnitude(d.mantissa)) + d.exponent <= 1024)
  }

  /** The numbers a JSON text can carry, each with exactly one form (see DoubleCanonical). */
  type Double = d: Dyadic | IsDouble(d) witness Dyadic(0, 0)

  function Pow2(k: nat): (r: nat)
    ensures r >= 1
  {
    if k == 0 then 1 else 2 * Pow2(k - 1)
  }

  /** `a` and `b` denote the same rational number. */
  predicate SameValue(a: Dyadic, b: Dyadic) {
    if a.exponent <= b.exponent then a.mantissa == b.mantissa * Pow2(b.exponent - a.exponent)
    else b.mantissa == a.mantissa * Pow2(a.exponent - b.exponent)
  }

  /** A number in lowest terms that equals another one shifted left by at
      least one place is zero, and so is the other one. */
  lemma {:induction false} ShiftedIsZero(a: Dyadic, b: Dyadic, k: nat)
    requires IsDouble(a) && k > 0 && a.mantissa == b.mantissa * Pow2(k)
    ensures a.mantissa == 0 && b.mantissa == 0
  {
    assert a.mantissa == 2 * (b.mantissa * Pow2(k - 1));
  }

  /** No number has two forms: equal values are equal Doubles, so a
      serializer that writes values (as `JSON.stringify` does) loses nothing. */
  lemma {:induction false} DoubleCanonical(a: Double, b: Double)
    ensures SameValue(a, b) <==> a == b
  {
    if SameValue(a, b) {
      if a.exponent < b.exponent {
        ShiftedIsZero(a, b, b.exponent - a.exponent);
      } else if b.exponent < a.exponent {
        ShiftedIsZero(b, a, a.exponent - b.exponent);
      }
    }
  }

  /** JavaScript truthiness of a JSON value. */
  predicate Truthy(j: Json) {
    match j
    case JNull => false
    case JBool(b) => b
    case JNum(n) => n.mantissa != 0
    case JStr(s) => s != ""
    case _ => true
  }

  /** `Object.prototype.toString.call(v) === '[object Object]'`: arrays and scalars are not plain objects. */
  predicate IsPlainObject(j: Json) {
    j.JObj?
  }

  const EmptyObject: Json := JObj(map[])

  /** `shallowMerge(base, patch)` (src/storage.js:183-187): the patch's keys
      override the base's; anything that is not a plain object replaces. */
  function ShallowMerge(base: Json, patch: Json): (r: Json)
    ensures !IsPlainObject(base) || !IsPlainObject(patch) ==> r == patch
    ensures IsPlainObject(base) && IsPlainObject(patch) ==>
      && r.JObj?
      && r.fields.Keys == base.fields.Keys + patch.fields.Keys
      && (forall k :: k in patch.fields ==> r.fields[k] == patch.fields[k])
      && (forall k :: k in base.fields && k !in patch.fields ==> r.fields[k] == base.fields[k])
  {
    if !IsPlainObject(base) then patch
    else if !IsPlainObject(patch) then patch
    else JObj(base.fields + patch.fields)
  }

  /** Merging the same patch twice changes nothing more. */
  lemma {:induction false} ShallowMergeIdempotent(base: Json, patch: Json)
    ensures ShallowMerge(ShallowMerge(base, patch), patch) == ShallowMerge(base, patch)
  {
    if IsPlainObject(base) && IsPlainObject(patch) {
      var once := ShallowMerge(base, patch);
      assert once.fields + patch.fields == once.fields;
    }
  }
}

=== FILE: jsoncode.dfy ===
/** A reference byte code for JSON values: self-delimiting, so that every
    value can be read back from the front of a buffer. It is not the
    serialisation the program uses (that is `JSON.stringify`, a parameter of
    `Crypto.Suite`); it exists to show that a suite can meet the round-trip
    law `parse(serialize(st)) == Some(st)` for every state. Numbers are
    written in unary, which keeps the reading side short to state. */
module JsonCode {
  import opened Wrappers
  import opened Bytes
  import opened Json

  // ----- Natural numbers, integers and text -----

  /** `n` ones and a zero. */
  function Unary(n: nat): (b: Buffer)
    ensures |b| == n + 1
  {
    if n == 0 then [0] else [1] + Unary(n - 1)
  }

  function ReadUnary(b: Buffer): (r: Option<(nat, Buffer)>)
    ensures r.Some? ==> |r.value.1| < |b|
    decreases |b|
  {
    if |b| == 0 then None
    else if b[0] == 0 then Some((0, b[1..]))
    else if b[0] == 1 then
      match ReadUnary(b[1..])
      case None => None
      case Some((n, rest)) => Some((n + 1, rest))
    else None
  }

  lemma {:induction false} UnaryRoundTrip(n: nat, rest: Buffer)
    ensures ReadUnary(Unary(n) + rest) == Some((n, rest))
  {
    var b := Unary(n) + rest;
    if n == 0 {
      assert b[0] == 0 && b[1..] == rest;
    } else {
      assert b[0] == 1 && b[1..] == Unary(n - 1) + rest;
      UnaryRoundTrip(n - 1, rest);
    }
  }

  /** A sign byte, then the magnitude (less one when negative). */
  function Signed(i: int): Buffer {
    if i >= 0 then [0] + Unary(i) else [1] + Unary(-i - 1)
  }

  function ReadSigned(b: Buffer): (r: Option<(int, Buffer)>)
    ensures r.Some? ==> |r.value.1| < |b|
  {
    if |b| == 0 || b[0] > 1 then None
    else
      match ReadUnary(b[1..])
      case None => None
      case Some((n, rest)) =>
        var i: int := if b[0] == 0 then n else -(n as int) - 1;
        Some((i, rest))
  }

  lemma {:induction false} SignedRoundTrip(i: int, rest: Buffer)
    ensures ReadSigned(Signed(i) + rest) == Some((i, rest))
  {
    if i >= 0 {
      assert Signed(i) + rest == [0] + (Unary(i) + rest);
      SignReadBack(0, i, rest);
    } else {
      assert Signed(i) + rest == [1] + (Unary(-i - 1) + rest);
      SignReadBack(1, -i - 1, rest);
    }
  }

  lemma SignReadBack(sign: byte, n: nat, rest: Buffer)
    requires sign <= 1
    ensures ReadSigned([sign] + (Unary(n) + rest)) == Some((if sign == 0 then n else -(n as int) - 1, rest))
  {
    assert ([sign] + (Unary(n) + rest))[1..] == Unary(n) + rest;
    UnaryRoundTrip(n, rest);
  }

  /** The code points of the text, each in unary. */
  function Chars(s: string): Buffer {
    if |s| == 0 then [] else Unary(s[0] as int) + Chars(s[1..])
  }

  predicate IsScalar(n: int) {
    0 <= n < 0xD800 || 0xE000 <= n < 0x11_0000
  }

  function ReadChars(n: nat, b: Buffer): (r: Option<(string, Buffer)>)
    ensures r.Some? ==> |r.value.1| <= |b|
  {
    if n == 0 then Some(([], b))
    else
      match ReadUnary(b)
      case None => None
      case Some((code, rest)) =>
        if !IsScalar(code) then None
        else
          match ReadChars(n - 1, rest)
          case None => None
          case Some((s, after)) => Some(([code as char] + s, after))
  }

  lemma {:induction false} CharsRoundTrip(s: string, rest: Buffer)
    ensures ReadChars(|s|, Chars(s) + rest) == Some((s, rest))
  {
    if |s| > 0 {
      var tail := Chars(s[1..]) + rest;
      assert Chars(s) + rest == Unary(s[0] as int) + tail;
      UnaryRoundTrip(s[0] as int, tail);
      assert IsScalar(s[0] as int);
      CharsRoundTrip(s[1..], rest);
      assert ReadChars(|s|, Chars(s) + rest) == Some(([(s[0] as int) as char] + s[1..], rest));
      assert [(s[0] as int) as char] + s[1..] == s;
    } else {
      assert Chars(s) + rest == rest;
    }
  }

  /** The length, then the characters. */
  function Text(s: string): (b: Buffer)
    ensures |b| > 0
  {
    Unary(|s|) + Chars(s)
  }

  function ReadText(b: Buffer): (r: Option<(string, Buffer)>)
    ensures r.Some? ==> |r.value.1| < |b|
  {
    match ReadUnary(b)
    case None => None
    case Some((n, rest)) => ReadChars(n, rest)
  }

  lemma {:induction false} TextRoundTrip(s: string, rest: Buffer)
    ensures ReadText(Text(s) + rest) == Some((s, rest))
  {
    assert Text(s) + rest == Unary(|s|) + (Chars(s) + rest);
    UnaryRoundTrip(|s|, Chars(s) + rest);
    CharsRoundTrip(s, rest);
  }

  /** Different texts have different codes. */
  lemma {:induction false} TextInjective(p: string, q: string)
    requires Text(p) == Text(q)
    ensures p == q
  {
    TextRoundTrip(p, []);
    TextRoundTrip(q, []);
    assert Text(p) + [] == Text(p) && Text(q) + [] == Text(q);
  }

  // ----- JSON values -----

  /** The keys of an object, in some order. */
  ghost function KeyList(keys: set<string>): (r: seq<string>)
    ensures forall k :: k in r <==> k in keys
  {
    if keys == {} then []
    else
      var k :| k in keys;
      [k] + KeyList(keys - {k})
  }

  /** A tag byte, then the payload; arrays and objects give their size first. */
  ghost function Encode(j: Json): Buffer
    decreases j, 1, 0
  {
    match j
    case JNull => [0]
    case JBool(x) => [1, if x then 1 else 0]
    case JNum(n) => [2] + Signed(n.mantissa) + Signed(n.exponent)
    case JStr(s) => [3] + Text(s)
    case JArr(items) => [4] + Unary(|items|) + EncodeItems(j, 0)
    case JObj(fields) =>
      var keys := KeyList(fields.Keys);
      [5] + Unary(|keys|) + EncodeFields(j, keys)
  }

  ghost function EncodeItems(j: Json, i: nat): Buffer
    requires j.JArr? && i <= |j.items|
    decreases j, 0, |j.items| - i
  {
    if i == |j.items| then [] else Encode(j.items[i]) + EncodeItems(j, i + 1)
  }

  ghost function EncodeFields(j: Json, keys: seq<string>): Buffer
    requires j.JObj? && forall k :: k in keys ==> k in j.fields
    decreases j, 0, |keys|
  {
    if |keys| == 0 then []
    else Text(keys[0]) + Encode(j.fields[keys[0]]) + EncodeFields(j, keys[1..])
  }

  function Decode(b: Buffer): (r: Option<(Json, Buffer)>)
    ensures r.Some? ==> |r.value.1| < |b|
    decreases |b|, 1
  {
    if |b| == 0 then None else DecodeBody(b[0], b[1..])
  }

  /** What follows the tag byte. */
  function DecodeBody(tag: byte, body: Buffer): (r: Option<(Json, Buffer)>)
    ensures r.Some? ==> |r.value.1| <= |body|
    decreases |body| + 1, 0
  {
    if tag == 0 then Some((JNull, body))
    else if tag == 1 then
      if |body| > 0 && body[0] <= 1 then Some((JBool(body[0] == 1), body[1..])) else None
    else if tag == 2 then
      match ReadSigned(body)
      case None => None
      case Some((m, rest)) =>
        match ReadSigned(rest)
        case None => None
        case Some((e, after)) =>
          if IsDouble(Dyadic(m, e)) then Some((JNum(Dyadic(m, e)), after)) else None
    else if tag == 3 then
      match ReadText(body)
      case None => None
      case Some((s, rest)) => Some((JStr(s), rest))
    else if tag == 4 then
      match ReadUnary(body)
      case None => None
      case Some((n, rest)) =>
        match DecodeItems(n, rest)
        case None => None
        case Some((items, after)) => Some((JArr(items), after))
    else if tag == 5 then
      match ReadUnary(body)
      case None => None
      case Some((n, rest)) =>
        match DecodeFields(n, rest)
        case None => None
        case Some((fields, after)) => Some((JObj(fields), after))
    else None
  }

  function DecodeItems(n: nat, b: Buffer): (r: Option<(seq<Json>, Buffer)>)
    ensures r.Some? ==> |r.value.1| <= |b|
    decreases |b|, 2
  {
    if n == 0 then Some(([], b))
    else
      match Decode(b)
      case None => None
      case Some((x, rest)) =>
        match DecodeItems(n - 1, rest)
        case None => None
        case Some((xs, after)) => Some(([x] + xs, after))
  }

  function DecodeFields(n: nat, b: Buffer): (r: Option<(map<string, Json>, Buffer)>)
    ensures r.Some? ==> |r.value.1| <= |b|
    decreases |b|, 2
  {
    if n == 0 then Some((map[], b))
    else
      match ReadText(b)
      case None => None
      case Some((k, rest)) =>
        match Decode(rest)
        case None => None
        case Some((v, more)) =>
          match DecodeFields(n - 1, more)
          case None => None
          case Some((m, after)) => Some((m[k := v], after))
  }

  /** The whole buffer is one value. */
  function Parse(b: Buffer): Option<Json> {
    match Decode(b)
    case None => None
    case Some((j, rest)) => if rest == [] then Some(j) else None
  }

  lemma DecodeCons(tag: byte, body: Buffer)
    ensures Decode([tag] + body) == DecodeBody(tag, body)
  {
    assert ([tag] + body)[1..] == body;
  }

  lemma {:induction false} EncodeRoundTrip(j: Json, rest: Buffer)
    ensures Decode(Encode(j) + rest) == Some((j, rest))
    decreases j, 2, 0
  {
    match j
    case JNull =>
      DecodeCons(0, rest);
    case JBool(x) =>
      BoolRoundTrip(x, rest);
    case JNum(n) =>
      NumberRoundTrip(n, rest);
    case JStr(s) =>
      StringRoundTrip(s, rest);
    case JArr(_) =>
      ArrayRoundTrip(j, rest);
    case JObj(_) =>
      ObjectRoundTrip(j, rest);
  }

  lemma BoolRoundTrip(x: bool, rest: Buffer)
    ensures Decode(Encode(JBool(x)) + rest) == Some((JBool(x), rest))
  {
    var t: byte := if x then 1 else 0;
    assert Encode(JBool(x)) + rest == [1] + ([t] + rest);
    DecodeCons(1, [t] + rest);
    assert ([t] + rest)[1..] == rest;
  }

  lemma NumberRoundTrip(n: Double, rest: Buffer)
    ensures Decode(Encode(JNum(n)) + rest) == Some((JNum(n), rest))
  {
    var m, e := n.mantissa, n.exponent;
    assert Encode(JNum(n)) + rest == [2] + (Signed(m) + (Signed(e) + rest));
    DecodeCons(2, Signed(m) + (Signed(e) + rest));
    SignedRoundTrip(m, Signed(e) + rest);
    SignedRoundTrip(e, rest);
  }

  lemma StringRoundTrip(s: string, rest: Buffer)
    ensures Decode(Encode(JStr(s)) + rest) == Some((JStr(s), rest))
  {
    assert Encode(JStr(s)) + rest == [3] + (Text(s) + rest);
    DecodeCons(3, Text(s) + rest);
    TextRoundTrip(s, rest);
  }

  lemma {:induction false} ArrayRoundTrip(j: Json, rest: Buffer)
    requires j.JArr?
    ensures Decode(Encode(j) + rest) == Some((j, rest))
    decreases j, 1, 0
  {
    var tail := EncodeItems(j, 0) + rest;
    assert Encode(j) + rest == [4] + (Unary(|j.items|) + tail);
    DecodeCons(4, Unary(|j.items|) + tail);
    UnaryRoundTrip(|j.items|, tail);
    ItemsRoundTrip(j, 0, rest);
    assert j.items[0..] == j.items;
  }

  lemma {:induction false} ObjectRoundTrip(j: Json, rest: Buffer)
    requires j.JObj?
    ensures Decode(Encode(j) + rest) == Some((j, rest))
    decreases j, 1, 0
  {
    var keys := KeyList(j.fields.Keys);
    var tail := EncodeFields(j, keys) + rest;
    ObjectLayout(j, keys, rest);
    DecodeCons(5, Unary(|keys|) + tail);
    UnaryRoundTrip(|keys|, tail);
    FieldsRoundTrip(j, keys, rest);
    RestrictToAllKeys(j.fields, keys);
    ObjectBody(Unary(|keys|) + tail, |keys|, tail, j.fields, rest);
  }

  lemma ObjectBody(body: Buffer, n: nat, rest: Buffer, fields: map<string, Json>, after: Buffer)
    requires ReadUnary(body) == Some((n, rest)) && DecodeFields(n, rest) == Some((fields, after))
    ensures DecodeBody(5, body) == Some((JObj(fields), after))
  {
  }

  lemma ObjectLayout(j: Json, keys: seq<string>, rest: Buffer)
    requires j.JObj? && keys == KeyList(j.fields.Keys)
    ensures Encode(j) + rest == [5] + (Unary(|keys|) + (EncodeFields(j, keys) + rest))
  {
  }

  /** Restricting a map to a list of all its keys gives the map back. */
  lemma RestrictToAllKeys(m: map<string, Json>, keys: seq<string>)
    requires forall k :: k in keys <==> k in m
    ensures (map k | k in keys :: m[k]) == m
  {
  }

  lemma {:induction false} ItemsRoundTrip(j: Json, i: nat, rest: Buffer)
    requires j.JArr? && i <= |j.items|
    ensures DecodeItems(|j.items| - i, EncodeItems(j, i) + rest) == Some((j.items[i..], rest))
    decreases j, 0, |j.items| - i
  {
    if i < |j.items| {
      var tail := EncodeItems(j, i + 1) + rest;
      assert EncodeItems(j, i) + rest == Encode(j.items[i]) + tail;
      EncodeRoundTrip(j.items[i], tail);
      ItemsRoundTrip(j, i + 1, rest);
      assert [j.items[i]] + j.items[i + 1..] == j.items[i..];
    } else {
      assert EncodeItems(j, i) + rest == rest;
    }
  }

  lemma {:induction false} FieldsRoundTrip(j: Json, keys: seq<string>, rest: Buffer)
    requires j.JObj? && forall k :: k in keys ==> k in j.fields
    ensures DecodeFields(|keys|, EncodeFields(j, keys) + rest) == Some((map k | k in keys :: j.fields[k], rest))
    decreases j, 0, |keys|
  {
    if |keys| > 0 {
      var k := keys[0];
      var tail := EncodeFields(j, keys[1..]) + rest;
      assert EncodeFields(j, keys) + rest == Text(k) + (Encode(j.fields[k]) + tail);
      TextRoundTrip(k, Encode(j.fields[k]) + tail);
      EncodeRoundTrip(j.fields[k], tail);
      FieldsRoundTrip(j, keys[1..], rest);
      assert (map x | x in keys[1..] :: j.fields[x])[k := j.fields[k]] == map x | x in keys :: j.fields[x];
    } else {
      assert EncodeFields(j, keys) + rest == rest;
    }
  }

  /** Parsing undoes encoding, for every JSON value. */
  lemma {:induction false} ParseEncode(j: Json)
    ensures Parse(Encode(j)) == Some(j)
  {
    EncodeRoundTrip(j, []);
    assert Encode(j) + [] == Encode(j);
  }
}

=== FILE: numbers.dfy ===
/** Catalan number text (src/i18n.js:92-195): `normalizeDecimals`,
    `formatNumberComma` from the `toFixed` digits on, and
    `parseNumberComma` up to the normalised text handed to `Number`. */
module Numbers {
  import opened Wrappers
  import opened Text

  /** U+202F, the group separator `formatNumberComma` inserts. */
  const NarrowNoBreakSpace: char := '\U{202F}'

  /** The `code` of the errors `fail` throws here. */
  datatype NumberError = ValorInvalid | DecimalsNoPermesos

  /** A `decimals` argument: left out (`undefined`), `null`, a value whose
      `Number(...)` is the integer `n`, or one whose `Number(...)` is not an
      integer. */
  datatype Decimals = Omitted | Null | Integer(n: int) | NotInteger

  /** `normalizeDecimals`: `Number(decimals ?? 0)` must be an integer 0..3, so
      both `undefined` and `null` mean 0. */
  function NormalizeDecimals(d: Decimals): (r: Result<nat, NumberError>)
    ensures r.Ok? <==> d.Omitted? || d.Null? || (d.Integer? && 0 <= d.n <= 3)
    ensures r.Ok? ==> r.value <= 3 && (d.Integer? ==> r.value == d.n) && (d.Omitted? || d.Null? ==> r.value == 0)
    ensures r.Err? ==> r.error == DecimalsNoPermesos
  {
    match d
    case Omitted => Ok(0)
    case Null => Ok(0)
    case Integer(n) => if 0 <= n <= 3 then Ok(n) else Err(DecimalsNoPermesos)
    case NotInteger => Err(DecimalsNoPermesos)
  }

  /** The parameter default of `formatNumberComma(value, decimals = 1)`: a
      left-out argument becomes 1, while `null` is passed on as it is. */
  function DecimalsArgument(d: Decimals): Decimals {
    if d.Omitted? then Integer(1) else d
  }

  // ----- formatNumberComma -----

  /** `digits.replace(/\B(?=(\d{3})+(?!\d))/g, '\u202f')`: a separator
      before every third digit counted from the right, never first. */
  function Group(ds: string): (r: string)
    requires AllDigits(ds)
    ensures |ds| > 0 ==> |r| == |ds| + (|ds| - 1) / 3
    ensures |ds| > 0 ==> r[0] == ds[0] && r[|r| - 1] == ds[|ds| - 1]
    decreases |ds|
  {
    if |ds| <= 3 then ds
    else Group(ds[..|ds| - 3]) + [NarrowNoBreakSpace] + ds[|ds| - 3..]
  }

  /** A separator and three more digits behind a grouped text keep the
      separators where a multiple of four characters remains. */
  lemma {:induction false} SeparatorPositions(head: string, tail: string)
    requires |tail| == 3 && AllDigits(tail)
    requires forall i :: 0 <= i < |head| ==> (head[i] == NarrowNoBreakSpace <==> (|head| - i) % 4 == 0)
    ensures var r := head + [NarrowNoBreakSpace] + tail;
            forall i :: 0 <= i < |r| ==> (r[i] == NarrowNoBreakSpace <==> (|r| - i) % 4 == 0)
  {
    var r := head + [NarrowNoBreakSpace] + tail;
    forall i | 0 <= i < |r| ensures r[i] == NarrowNoBreakSpace <==> (|r| - i) % 4 == 0 {
      if i < |head| {
        assert r[i] == head[i];
        ShiftByFour(|r| - i, |head| - i);
      } else if i > |head| {
        assert r[i] == tail[i - |head| - 1];
        NotMultipleOfFour(|r| - i);
      } else {
        assert |r| - i == 4;
      }
    }
  }

  /** The separators sit exactly where a multiple of four characters
      remains, so each group after the first has three digits. */
  lemma {:induction false} GroupPositions(ds: string)
    requires AllDigits(ds)
    ensures forall i :: 0 <= i < |Group(ds)| ==>
              (Group(ds)[i] == NarrowNoBreakSpace <==> (|Group(ds)| - i) % 4 == 0)
    decreases |ds|
  {
    var r := Group(ds);
    if |ds| > 3 {
      var head := Group(ds[..|ds| - 3]);
      var tail := ds[|ds| - 3..];
      GroupPositions(ds[..|ds| - 3]);
      assert r == head + [NarrowNoBreakSpace] + tail;
      assert AllDigits(tail);
      SeparatorPositions(head, tail);
    } else {
      forall i | 0 <= i < |r| ensures r[i] == NarrowNoBreakSpace <==> (|r| - i) % 4 == 0 {
        assert IsDigit(r[i]);
        NotMultipleOfFour(|r| - i);
      }
    }
  }

  lemma {:induction false} ShiftByFour(a: int, b: int)
    requires a == b + 4
    ensures a % 4 == b % 4
  {
  }

  lemma {:induction false} NotMultipleOfFour(n: int)
    requires 0 < n < 4
    ensures n % 4 != 0
  {
  }

  /** The grouped text holds only digits and separators. */
  lemma {:induction false} GroupAlphabet(ds: string)
    requires AllDigits(ds)
    ensures forall i :: 0 <= i < |Group(ds)| ==> IsDigit(Group(ds)[i]) || Group(ds)[i] == NarrowNoBreakSpace
    decreases |ds|
  {
    if |ds| > 3 {
      var head := Group(ds[..|ds| - 3]);
      var tail := ds[|ds| - 3..];
      GroupAlphabet(ds[..|ds| - 3]);
      var r := Group(ds);
      assert r == head + [NarrowNoBreakSpace] + tail;
      forall i | 0 <= i < |r| ensures IsDigit(r[i]) || r[i] == NarrowNoBreakSpace {
        if i < |head| {
          assert r[i] == head[i];
        } else if i > |head| {
          assert r[i] == tail[i - |head| - 1];
        }
      }
    }
  }

  lemma {:induction false} DigitIsNotSpace(c: char)
    requires IsDigit(c)
    ensures !IsSpace(c)
  {
  }

  /** Removing the white space undoes the grouping. */
  lemma {:induction false} GroupUngroups(ds: string)
    requires AllDigits(ds)
    ensures RemoveSpaces(Group(ds)) == ds
    decreases |ds|
  {
    if |ds| <= 3 {
      DigitsKeep(ds);
    } else {
      var front, tail := ds[..|ds| - 3], ds[|ds| - 3..];
      GroupUngroups(front);
      assert AllDigits(tail);
      UngroupStep(Group(front), front, tail);
      assert ds == front + tail;
    }
  }

  /** Removing the white space from a grouped text, a separator and three
      more digits gives the digits and those three. */
  lemma {:induction false} UngroupStep(head: string, front: string, tail: string)
    requires RemoveSpaces(head) == front && AllDigits(tail)
    ensures RemoveSpaces(head + [NarrowNoBreakSpace] + tail) == front + tail
  {
    RemoveSpacesAppend(head + [NarrowNoBreakSpace], tail);
    RemoveSpacesAppend(head, [NarrowNoBreakSpace]);
    assert RemoveSpaces([NarrowNoBreakSpace]) == [];
    DigitsKeep(tail);
  }

  lemma {:induction false} DigitsKeep(ds: string)
    requires AllDigits(ds)
    ensures RemoveSpaces(ds) == ds
  {
    forall i | 0 <= i < |ds| ensures !IsSpace(ds[i]) {
      DigitIsNotSpace(ds[i]);
    }
    RemoveSpacesNoSpace(ds);
  }

  /** `formatNumberComma(value, decimals)` given the digits of
      `Math.abs(value).toFixed(dec)`: the sign, the grouped integer digits
      and, unless `dec` is 0, a comma and the fraction digits. */
  function FormatNumberComma(negative: bool, decimals: Decimals, intDigits: string, fracDigits: string)
    : (r: Result<string, NumberError>)
    requires AllDigits(intDigits) && |intDigits| > 0 && AllDigits(fracDigits)
    ensures r.Err? <==> NormalizeDecimals(DecimalsArgument(decimals)).Err?
    ensures r.Err? ==> r.error == DecimalsNoPermesos
    ensures r.Ok? ==> |r.value| > 0 && (r.value[0] == '-' <==> negative)
    ensures r.Ok? ==> (',' in r.value <==> NormalizeDecimals(DecimalsArgument(decimals)).value > 0)
    ensures decimals.Omitted? ==> r.Ok? && ',' in r.value
    ensures decimals.Null? ==> r.Ok? && ',' !in r.value
  {
    match NormalizeDecimals(DecimalsArgument(decimals))
    case Err(e) => Err(e)
    case Ok(dec) =>
      var sign := if negative then "-" else "";
      var grouped := Group(intDigits);
      GroupAlphabet(intDigits);
      assert forall i :: 0 <= i < |grouped| ==> grouped[i] != '-' && grouped[i] != ',';
      assert ',' !in sign + grouped;
      if dec == 0 then Ok(sign + grouped)
      else
        var r := sign + grouped + "," + fracDigits;
        assert r[|sign + grouped|] == ',';
        Ok(r)
  }

  /** The text `formatNumberComma` builds once `dec` is known. */
  function Rendered(sign: string, intDigits: string, fracDigits: string, dec: nat): string
    requires AllDigits(intDigits)
  {
    if dec == 0 then sign + Group(intDigits) else (sign + Group(intDigits)) + ("," + fracDigits)
  }

  lemma {:induction false} FormatPieces(negative: bool, decimals: Decimals, intDigits: string, fracDigits: string)
    requires AllDigits(intDigits) && |intDigits| > 0 && AllDigits(fracDigits)
    requires NormalizeDecimals(DecimalsArgument(decimals)).Ok?
    ensures FormatNumberComma(negative, decimals, intDigits, fracDigits).value
              == Rendered(SignText(negative), intDigits, fracDigits, NormalizeDecimals(DecimalsArgument(decimals)).value)
  {
  }

  /** Without its white space, the signed grouped text is the signed digits. */
  lemma {:induction false} SignedGroupCleans(sign: string, intDigits: string)
    requires sign == "" || sign == "-"
    requires AllDigits(intDigits)
    ensures RemoveSpaces(sign + Group(intDigits)) == sign + intDigits
  {
    GroupUngroups(intDigits);
    RemoveSpacesAppend(sign, Group(intDigits));
    assert RemoveSpaces(sign) == sign;
  }

  /** The formatted text read back without its white space: the sign, the
      integer digits, and the comma and fraction digits unless `dec` is 0. */
  lemma {:induction false} RenderedCleans(sign: string, intDigits: string, fracDigits: string, dec: nat)
    requires sign == "" || sign == "-"
    requires AllDigits(intDigits) && AllDigits(fracDigits)
    ensures RemoveSpaces(Rendered(sign, intDigits, fracDigits, dec))
              == if dec == 0 then sign + intDigits else (sign + intDigits) + ("," + fracDigits)
  {
    SignedGroupCleans(sign, intDigits);
    if dec > 0 {
      CommaDigitsClean(fracDigits);
      RemoveSpacesAppend(sign + Group(intDigits), "," + fracDigits);
    }
  }

  lemma {:induction false} CommaDigitsClean(fracDigits: string)
    requires AllDigits(fracDigits)
    ensures RemoveSpaces("," + fracDigits) == "," + fracDigits
  {
    var tail := "," + fracDigits;
    forall i | 0 <= i < |tail| ensures !IsSpace(tail[i]) {
      if i > 0 {
        assert tail[i] == fracDigits[i - 1];
        DigitIsNotSpace(fracDigits[i - 1]);
      }
    }
    RemoveSpacesNoSpace(tail);
  }

  // ----- parseNumberComma -----

  predicate IsSeparator(c: char) {
    c == '.' || c == ','
  }

  const Separators: set<char> := {'.', ','}

  /** `/^\d+(?:[.,]\d+)*$/`: digit runs joined by single separators. */
  predicate DigitGroups(u: string) {
    && |u| > 0 && IsDigit(u[0]) && IsDigit(u[|u| - 1])
    && (forall i :: 0 <= i < |u| ==> IsDigit(u[i]) || IsSeparator(u[i]))
    && (forall i :: 0 <= i < |u| - 1 && IsSeparator(u[i]) ==> IsDigit(u[i + 1]))
  }

  /** `/^(?:\d+(?:[.,]\d+)*|[.,]\d+)$/`. */
  predicate WellFormed(u: string) {
    || DigitGroups(u)
    || (|u| >= 2 && IsSeparator(u[0]) && AllDigits(u[1..]))
  }

  /** The number of occurrences of `c`. */
  function Count(s: string, c: char): (n: nat)
    ensures n > 0 <==> c in s
    ensures n <= |s|
  {
    if |s| == 0 then 0
    else
      assert c in s <==> s[0] == c || c in s[1..];
      (if s[0] == c then 1 else 0) + Count(s[1..], c)
  }

  /** `s.lastIndexOf(c)`, when `c` occurs. */
  function LastIndex(s: string, c: char): (r: Option<nat>)
    ensures r.Some? <==> c in s
    ensures r.Some? ==> r.value < |s| && s[r.value] == c && forall i :: r.value < i < |s| ==> s[i] != c
  {
    if |s| == 0 then None
    else if s[|s| - 1] == c then Some(|s| - 1)
    else
      assert forall i :: 0 <= i < |s| - 1 ==> s[i] == s[..|s| - 1][i];
      assert c in s ==> c in s[..|s| - 1] by {
        if c in s {
          var i :| 0 <= i < |s| && s[i] == c;
          assert s[..|s| - 1][i] == c;
        }
      }
      LastIndex(s[..|s| - 1], c)
  }

  /** The decimal separator `parseNumberComma` settles on: with both kinds
      present, the one that occurs last; otherwise a kind that occurs
      exactly once; a single kind repeated is grouping only. */
  function DecimalSeparator(u: string): (r: Option<char>)
    ensures r.Some? ==> IsSeparator(r.value) && r.value in u
    ensures r.Some? ==> forall i :: LastIndex(u, r.value).value < i < |u| ==> !IsSeparator(u[i])
    ensures r.None? <==> (Count(u, ',') == 0 && Count(u, '.') != 1) || (Count(u, '.') == 0 && Count(u, ',') != 1)
  {
    var commas := Count(u, ',');
    var dots := Count(u, '.');
    if commas > 0 && dots > 0 then
      if LastIndex(u, ',').value > LastIndex(u, '.').value then Some(',') else Some('.')
    else if commas == 1 then Some(',')
    else if dots == 1 then Some('.')
    else None
  }

  /** The result of `parseNumberComma`: a finite number passed through, or
      the normalised text `[sign]digits[.digits]` that `Number` reads. */
  datatype Parsed = Passed(x: real) | Normalized(text: string)

  /** The argument: `null`/`undefined`, a finite number, or anything whose
      `String(...)` is the text (a non-finite number gives `NaN`,
      `Infinity` or `-Infinity`). */
  datatype Input = Absent | FiniteNumber(x: real) | Other(s: string)

  /** The text with the white space (including U+202F and U+00A0) removed. */
  function Cleaned(s: string): string {
    RemoveSpaces(Trim(s))
  }

  function SignLength(cleaned: string): (n: nat)
    ensures n <= |cleaned|
  {
    if |cleaned| > 0 && (cleaned[0] == '-' || cleaned[0] == '+') then 1 else 0
  }

  /** The cleaned text without its sign. */
  function Unsigned(s: string): string {
    Cleaned(s)[SignLength(Cleaned(s))..]
  }

  function Sign(s: string): string {
    Cleaned(s)[..SignLength(Cleaned(s))]
  }

  /** `digits || '0'`. */
  function OrZero(digits: string): (r: string)
    ensures |r| > 0
  {
    if digits == "" then "0" else digits
  }

  /** Dropping the separators from digits and separators leaves digits. */
  lemma {:induction false} WithoutSeparatorsDigits(s: string)
    requires forall i :: 0 <= i < |s| ==> IsDigit(s[i]) || IsSeparator(s[i])
    ensures AllDigits(Without(s, Separators))
    decreases |s|
  {
    if |s| > 0 {
      WithoutSeparatorsDigits(s[1..]);
      if s[0] !in Separators {
        assert Without(s, Separators) == [s[0]] + Without(s[1..], Separators);
      }
    }
  }

  /** Digits are left alone by `Without(_, Separators)`. */
  lemma {:induction false} WithoutSeparatorsKeepsDigits(s: string)
    requires AllDigits(s)
    ensures Without(s, Separators) == s
    decreases |s|
  {
    if |s| > 0 {
      WithoutSeparatorsKeepsDigits(s[1..]);
      assert s == [s[0]] + s[1..];
    }
  }

  /** The normalised text of a well-formed unsigned part: the separators
      dropped, and a `.` put where the decimal separator was. It has the
      shape `[sign]digits[.digits]` the final check of `parseNumberComma`
      demands, so that check never fails here. */
  function Normalize(sign: string, u: string): (t: string)
    requires WellFormed(u)
    ensures |t| > |sign| && t[..|sign|] == sign
    ensures DecimalSeparator(u).None? ==> AllDigits(t[|sign|..])
    ensures DecimalSeparator(u).Some? ==>
              exists k :: |sign| <= k < |t| && t[k] == '.' && AllDigits(t[|sign|..k]) && AllDigits(t[k + 1..])
    ensures DecimalSeparator(u).None? ==> t == sign + Without(u, Separators)
    ensures DecimalSeparator(u).Some? ==>
              var k := LastIndex(u, DecimalSeparator(u).value).value;
              t == sign + (OrZero(Without(u[..k], Separators)) + "." + u[k + 1..])
    ensures Without(t[|sign|..], Separators) == (if IsSeparator(u[0]) then "0" else "") + Without(u, Separators)
  {
    match DecimalSeparator(u)
    case Some(sep) =>
      var idx := LastIndex(u, sep).value;
      PointParts(u, idx);
      PointJoin(sign, OrZero(Without(u[..idx], Separators)), u[idx + 1..])
    case None =>
      SidesAreDigits(u, |u|);
      NoSeparatorLeadsWithDigit(u);
      assert Without(u, Separators) == [u[0]] + Without(u[1..], Separators);
      WithoutSeparatorsKeepsDigits(Without(u, Separators));
      var t := sign + Without(u, Separators);
      DropPrefix(sign, Without(u, Separators));
      t
  }

  /** Splitting at the last separator: digits before it (or `0`), digits
      after it, and together, once the point is dropped, the digits of the
      whole text behind the `0` a leading separator gets. */
  lemma {:induction false} PointParts(u: string, idx: nat)
    requires WellFormed(u) && idx < |u| && IsSeparator(u[idx])
    requires forall i :: idx < i < |u| ==> !IsSeparator(u[i])
    ensures AllDigits(OrZero(Without(u[..idx], Separators)))
    ensures AllDigits(u[idx + 1..])
    ensures Without(OrZero(Without(u[..idx], Separators)) + "." + u[idx + 1..], Separators)
              == (if IsSeparator(u[0]) then "0" else "") + Without(u, Separators)
  {
    SidesAreDigits(u, idx);
    FractionDigits(u, idx);
    var before := Without(u[..idx], Separators);
    var intPart := OrZero(before);
    var frac := u[idx + 1..];
    PointDropped(intPart, frac);
    SplitAtSeparator(u, idx);
    LeadingZero(u, idx);
    var zero := if IsSeparator(u[0]) then "0" else "";
    assert intPart + frac == zero + before + frac;
    assert zero + before + frac == zero + (before + frac);
  }

  lemma {:induction false} DropPrefix(a: string, b: string)
    ensures (a + b)[|a|..] == b
  {
  }

  /** Dropping the separators from `int.frac` leaves `intfrac`. */
  lemma {:induction false} PointDropped(intPart: string, frac: string)
    requires AllDigits(intPart) && AllDigits(frac)
    ensures Without(intPart + "." + frac, Separators) == intPart + frac
  {
    WithoutAppend(intPart + ".", frac, Separators);
    WithoutAppend(intPart, ".", Separators);
    assert Without(".", Separators) == "";
    WithoutSeparatorsKeepsDigits(intPart);
    WithoutSeparatorsKeepsDigits(frac);
  }

  /** The digits of a text are those before a separator and those after it. */
  lemma {:induction false} SplitAtSeparator(u: string, k: nat)
    requires k < |u| && IsSeparator(u[k])
    ensures Without(u, Separators) == Without(u[..k], Separators) + Without(u[k + 1..], Separators)
  {
    assert u == u[..k] + [u[k]] + u[k + 1..];
    WithoutAppend(u[..k] + [u[k]], u[k + 1..], Separators);
    WithoutAppend(u[..k], [u[k]], Separators);
    assert Without([u[k]], Separators) == "";
  }

  /** The integer digits before the last separator are empty exactly when the
      text starts with that separator; `|| '0'` then supplies the zero. */
  lemma {:induction false} LeadingZero(u: string, k: nat)
    requires WellFormed(u) && k < |u| && IsSeparator(u[k])
    ensures OrZero(Without(u[..k], Separators))
              == (if IsSeparator(u[0]) then "0" else "") + Without(u[..k], Separators)
  {
    if IsSeparator(u[0]) {
      assert !DigitGroups(u);
      assert forall i :: 1 <= i < |u| ==> IsDigit(u[i]);
      assert k == 0;
      assert u[..k] == "";
    } else {
      assert k > 0;
      assert u[..k] == [u[0]] + u[1..k];
      assert Without(u[..k], Separators) == [u[0]] + Without(u[1..k], Separators);
    }
  }

  /** After the last decimal separator a well-formed text has only digits,
      and dropping separators leaves them as they are. */
  lemma {:induction false} FractionDigits(u: string, idx: nat)
    requires WellFormed(u) && idx < |u|
    requires forall i :: idx < i < |u| ==> !IsSeparator(u[i])
    ensures AllDigits(u[idx + 1..])
    ensures Without(u[idx + 1..], Separators) == u[idx + 1..]
  {
    assert forall i :: 0 <= i < |u| ==> IsDigit(u[i]) || IsSeparator(u[i]);
    var tail := u[idx + 1..];
    assert forall i :: 0 <= i < |tail| ==> tail[i] == u[idx + 1 + i];
    WithoutSeparatorsKeepsDigits(tail);
  }

  /** A separator followed by digits only is a decimal separator, so a
      well-formed text with none starts with a digit. */
  lemma {:induction false} NoSeparatorLeadsWithDigit(u: string)
    requires WellFormed(u) && DecimalSeparator(u).None?
    ensures IsDigit(u[0])
  {
    LeadingSeparatorIsDecimal(u);
  }

  /** `[.,]\d+`: the one separator, followed by digits only, is decimal. */
  lemma {:induction false} LeadingSeparatorIsDecimal(u: string)
    ensures |u| >= 2 && IsSeparator(u[0]) && AllDigits(u[1..]) ==> DecimalSeparator(u).Some?
  {
    if |u| >= 2 && IsSeparator(u[0]) && AllDigits(u[1..]) {
      var rest := u[1..];
      assert Count(rest, ',') == 0 && Count(rest, '.') == 0 by {
        assert ',' !in rest && '.' !in rest by {
          assert forall i :: 0 <= i < |rest| ==> IsDigit(rest[i]);
        }
      }
      assert Count(u, u[0]) == 1 + Count(rest, u[0]);
    }
  }

  /** Either side of a position in a well-formed text is digits once the
      separators are dropped. */
  lemma {:induction false} SidesAreDigits(u: string, idx: nat)
    requires WellFormed(u) && idx <= |u|
    ensures AllDigits(Without(u[..idx], Separators))
    ensures idx < |u| ==> AllDigits(Without(u[idx + 1..], Separators))
    ensures idx == |u| ==> AllDigits(Without(u, Separators))
  {
    assert forall i :: 0 <= i < |u| ==> IsDigit(u[i]) || IsSeparator(u[i]);
    WithoutSeparatorsDigits(u[..idx]);
    if idx < |u| {
      WithoutSeparatorsDigits(u[idx + 1..]);
    } else {
      assert u[..idx] == u;
    }
  }

  /** `sign + intPart + '.' + frac`. */
  function PointJoin(sign: string, intPart: string, frac: string): (t: string)
    requires AllDigits(intPart) && |intPart| > 0 && AllDigits(frac)
    ensures |t| > |sign| && t[..|sign|] == sign
    ensures exists k :: |sign| <= k < |t| && t[k] == '.' && AllDigits(t[|sign|..k]) && AllDigits(t[k + 1..])
    ensures t[|sign|..] == intPart + "." + frac
    ensures t == sign + (intPart + "." + frac)
  {
    var t := sign + (intPart + "." + frac);
    var k := |sign| + |intPart|;
    assert t[k] == '.' && t[|sign|..k] == intPart && t[k + 1..] == frac;
    t
  }

  /** `parseNumberComma` on a text, up to the normalised text. */
  function ParseText(s: string): (r: Result<string, NumberError>)
    ensures AllSpace(s) ==> r == Err(ValorInvalid)
    ensures r.Ok? <==> !AllSpace(s) && WellFormed(Unsigned(s))
    ensures r.Err? ==> r.error == ValorInvalid
    ensures r.Ok? ==>
              && |r.value| > |Sign(s)| && r.value[..|Sign(s)|] == Sign(s)
              && Without(r.value[|Sign(s)|..], Separators)
                   == (if IsSeparator(Unsigned(s)[0]) then "0" else "") + Without(Unsigned(s), Separators)
  {
    TrimEmptyIffAllSpace(s);
    if Trim(s) == "" then Err(ValorInvalid)
    else if !WellFormed(Unsigned(s)) then Err(ValorInvalid)
    else Ok(Normalize(Sign(s), Unsigned(s)))
  }

  /** `parseNumberComma(input)`. */
  function ParseNumberComma(input: Input): (r: Result<Parsed, NumberError>)
    ensures input.Absent? ==> r == Err(ValorInvalid)
    ensures input.FiniteNumber? ==> r == Ok(Passed(input.x))
    ensures input.Other? && AllSpace(input.s) ==> r == Err(ValorInvalid)
    ensures input.Other? ==> (r.Ok? <==> ParseText(input.s).Ok?)
    ensures input.Other? && r.Ok? ==> r.value == Normalized(ParseText(input.s).value)
  {
    match input
    case Absent => Err(ValorInvalid)
    case FiniteNumber(x) => Ok(Passed(x))
    case Other(s) =>
      if s == "" then Err(ValorInvalid)
      else
        match ParseText(s)
        case Ok(t) => Ok(Normalized(t))
        case Err(e) => Err(e)
  }

  lemma {:induction false} CountAppend(a: string, b: string, c: char)
    ensures Count(a + b, c) == Count(a, c) + Count(b, c)
    decreases |a|
  {
    if |a| == 0 {
      assert a + b == b;
    } else {
      CountAppend(a[1..], b, c);
      assert (a + b)[1..] == a[1..] + b;
    }
  }

  /** A text that starts and ends with a non-space character is its own trim. */
  lemma {:induction false} TrimKeeps(s: string)
    requires |s| > 0 && !IsSpace(s[0]) && !IsSpace(s[|s| - 1])
    ensures Trim(s) == s
  {
    assert TrimStart(s) == s;
  }

  function SignText(negative: bool): string {
    if negative then "-" else ""
  }

  /** The unsigned part a formatted number cleans to. */
  function UnsignedText(intDigits: string, fracDigits: string): string {
    if |fracDigits| == 0 then intDigits else intDigits + ("," + fracDigits)
  }

  /** A leading `-` is the sign; a leading digit means there is none. */
  lemma {:induction false} SplitSign(sign: string, u: string)
    requires sign == "" || sign == "-"
    requires |u| > 0 && IsDigit(u[0])
    ensures SignLength(sign + u) == |sign|
    ensures (sign + u)[..|sign|] == sign && (sign + u)[|sign|..] == u
  {
    assert (sign + u)[0] == if sign == "" then u[0] else '-';
  }

  /** The rendered text begins and ends with a non-space character. */
  lemma {:induction false} RenderedEnds(sign: string, intDigits: string, fracDigits: string)
    requires sign == "" || sign == "-"
    requires AllDigits(intDigits) && |intDigits| > 0 && AllDigits(fracDigits)
    ensures var text := Rendered(sign, intDigits, fracDigits, |fracDigits|);
            |text| > 0 && !IsSpace(text[0]) && !IsSpace(text[|text| - 1])
  {
    var text := Rendered(sign, intDigits, fracDigits, |fracDigits|);
    var g := Group(intDigits);
    DigitIsNotSpace(intDigits[0]);
    assert text[0] == if sign == "-" then '-' else g[0];
    if |fracDigits| == 0 {
      DigitIsNotSpace(intDigits[|intDigits| - 1]);
      assert text[|text| - 1] == g[|g| - 1];
    } else {
      DigitIsNotSpace(fracDigits[|fracDigits| - 1]);
      assert text[|text| - 1] == fracDigits[|fracDigits| - 1];
    }
  }

  lemma {:induction false} CleanedRendered(sign: string, intDigits: string, fracDigits: string)
    requires sign == "" || sign == "-"
    requires AllDigits(intDigits) && |intDigits| > 0 && AllDigits(fracDigits)
    ensures Cleaned(Rendered(sign, intDigits, fracDigits, |fracDigits|)) == sign + UnsignedText(intDigits, fracDigits)
  {
    var text := Rendered(sign, intDigits, fracDigits, |fracDigits|);
    RenderedEnds(sign, intDigits, fracDigits);
    RenderedCleans(sign, intDigits, fracDigits, |fracDigits|);
    var c := if |fracDigits| == 0 then sign + intDigits else (sign + intDigits) + ("," + fracDigits);
    CleanedOf(text, c);
    ConcatAssoc(sign, intDigits, "," + fracDigits);
  }

  lemma {:induction false} ConcatAssoc(a: string, b: string, c: string)
    ensures (a + b) + c == a + (b + c)
  {
  }

  /** A text that trimming leaves alone cleans to its spaceless form. */
  lemma {:induction false} CleanedOf(text: string, c: string)
    requires |text| > 0 && !IsSpace(text[0]) && !IsSpace(text[|text| - 1])
    requires RemoveSpaces(text) == c
    ensures Cleaned(text) == c
  {
    TrimKeeps(text);
  }

  /** A text whose cleaned form is a sign and digits splits into them. */
  lemma {:induction false} SplitCleaned(s: string, sign: string, u: string)
    requires sign == "" || sign == "-"
    requires |u| > 0 && IsDigit(u[0])
    requires Cleaned(s) == sign + u
    ensures Sign(s) == sign && Unsigned(s) == u
  {
    SplitSign(sign, u);
  }

  /** The cleaned form of a rendered number splits into its sign and the
      unsigned digits (with the comma when `dec > 0`). */
  lemma {:induction false} RenderedSplits(sign: string, intDigits: string, fracDigits: string)
    requires sign == "" || sign == "-"
    requires AllDigits(intDigits) && |intDigits| > 0 && AllDigits(fracDigits)
    ensures !AllSpace(Rendered(sign, intDigits, fracDigits, |fracDigits|))
    ensures Sign(Rendered(sign, intDigits, fracDigits, |fracDigits|)) == sign
    ensures Unsigned(Rendered(sign, intDigits, fracDigits, |fracDigits|)) == UnsignedText(intDigits, fracDigits)
  {
    var text := Rendered(sign, intDigits, fracDigits, |fracDigits|);
    RenderedEnds(sign, intDigits, fracDigits);
    CleanedRendered(sign, intDigits, fracDigits);
    var u := UnsignedText(intDigits, fracDigits);
    assert u[0] == intDigits[0];
    SplitCleaned(text, sign, u);
  }

  /** How the unsigned part of a formatted number normalises: the digits
      alone, or the digits, a point and the fraction. */
  lemma {:induction false} NormalizeUnsigned(sign: string, intDigits: string, fracDigits: string)
    requires AllDigits(intDigits) && |intDigits| > 0 && AllDigits(fracDigits)
    ensures WellFormed(UnsignedText(intDigits, fracDigits))
    ensures Normalize(sign, UnsignedText(intDigits, fracDigits))
              == if |fracDigits| == 0 then sign + intDigits else sign + intDigits + "." + fracDigits
  {
    if |fracDigits| == 0 {
      NormalizeInteger(sign, intDigits);
    } else {
      NormalizeFraction(sign, intDigits, fracDigits);
    }
  }

  /** Digits, a comma and digits normalise to the digits, a point and the
      digits. */
  lemma {:induction false} NormalizeFraction(sign: string, intDigits: string, fracDigits: string)
    requires AllDigits(intDigits) && |intDigits| > 0 && AllDigits(fracDigits) && |fracDigits| > 0
    ensures WellFormed(intDigits + ("," + fracDigits))
    ensures Normalize(sign, intDigits + ("," + fracDigits)) == sign + intDigits + "." + fracDigits
  {
    var u := intDigits + ("," + fracDigits);
    CommaText(intDigits, fracDigits);
    CommaSides(intDigits, fracDigits);
    NormalizeAt(sign, u, |intDigits|);
    Regroup(sign, intDigits, fracDigits);
  }

  /** The sides of the comma in digits, a comma and digits. */
  lemma {:induction false} CommaSides(intDigits: string, fracDigits: string)
    requires AllDigits(intDigits) && |intDigits| > 0
    ensures OrZero(Without((intDigits + ("," + fracDigits))[..|intDigits|], Separators)) == intDigits
    ensures (intDigits + ("," + fracDigits))[|intDigits| + 1..] == fracDigits
  {
    var u := intDigits + ("," + fracDigits);
    assert u[..|intDigits|] == intDigits;
    WithoutSeparatorsKeepsDigits(intDigits);
  }

  lemma {:induction false} Regroup(a: string, b: string, c: string)
    ensures a + (b + "." + c) == a + b + "." + c
  {
  }

  /** Plain digits normalise to themselves. */
  lemma {:induction false} NormalizeInteger(sign: string, intDigits: string)
    requires AllDigits(intDigits) && |intDigits| > 0
    ensures WellFormed(intDigits)
    ensures Normalize(sign, intDigits) == sign + intDigits
  {
    WithoutSeparatorsKeepsDigits(intDigits);
    assert DigitGroups(intDigits);
    assert ',' !in intDigits && '.' !in intDigits;
    assert DecimalSeparator(intDigits).None?;
  }

  /** Digits, a comma and digits: well formed, with the comma as the
      decimal separator. */
  lemma {:induction false} CommaText(intDigits: string, fracDigits: string)
    requires AllDigits(intDigits) && |intDigits| > 0 && AllDigits(fracDigits) && |fracDigits| > 0
    ensures DigitGroups(intDigits + ("," + fracDigits))
    ensures DecimalSeparator(intDigits + ("," + fracDigits)) == Some(',')
    ensures LastIndex(intDigits + ("," + fracDigits), ',') == Some(|intDigits|)
  {
    var tail := "," + fracDigits;
    var u := intDigits + tail;
    assert forall i :: 0 <= i < |u| ==> (i == |intDigits| && u[i] == ',') || (i != |intDigits| && IsDigit(u[i]));
    CountAppend(intDigits, tail, ',');
    CountAppend(intDigits, tail, '.');
    assert ',' !in intDigits && '.' !in intDigits && '.' !in tail;
    assert Count(tail, ',') == 1 by {
      assert tail[1..] == fracDigits;
      assert ',' !in fracDigits;
    }
  }

  /** The normalised text once the decimal separator and its last position
      are known. */
  lemma {:induction false} NormalizeAt(sign: string, u: string, idx: nat)
    requires WellFormed(u) && DecimalSeparator(u).Some? && LastIndex(u, DecimalSeparator(u).value) == Some(idx)
    ensures Normalize(sign, u) == sign + (OrZero(Without(u[..idx], Separators)) + "." + u[idx + 1..])
  {
  }

  /** Reading back what `formatNumberComma` wrote gives the sign, the
      integer digits and, when `dec > 0`, a point and the fraction digits:
      the grouping spaces and the decimal comma are undone. */
  lemma {:induction false} ParseFormatRoundTrip(negative: bool, decimals: Decimals, intDigits: string, fracDigits: string)
    requires AllDigits(intDigits) && |intDigits| > 0 && AllDigits(fracDigits)
    requires NormalizeDecimals(DecimalsArgument(decimals)).Ok? && |fracDigits| == NormalizeDecimals(DecimalsArgument(decimals)).value
    ensures FormatNumberComma(negative, decimals, intDigits, fracDigits).Ok?
    ensures ParseNumberComma(Other(FormatNumberComma(negative, decimals, intDigits, fracDigits).value))
              == Ok(Normalized(if |fracDigits| == 0 then SignText(negative) + intDigits
                               else SignText(negative) + intDigits + "." + fracDigits))
  {
    var text := FormatNumberComma(negative, decimals, intDigits, fracDigits).value;
    FormatPieces(negative, decimals, intDigits, fracDigits);
    RenderedSplits(SignText(negative), intDigits, fracDigits);
    NormalizeUnsigned(SignText(negative), intDigits, fracDigits);
    ParseSplit(text, SignText(negative), UnsignedText(intDigits, fracDigits));
  }

  /** A text that is not blank and whose unsigned part is well formed
      parses to the normalised sign and unsigned part. */
  lemma {:induction false} ParseSplit(s: string, sign: string, u: string)
    requires !AllSpace(s) && Sign(s) == sign && Unsigned(s) == u && WellFormed(u)
    ensures ParseNumberComma(Other(s)) == Ok(Normalized(Normalize(sign, u)))
  {
    assert AllSpace("");
  }
}

=== FILE: primary.dfy ===
/** The IndexedDB adapter, the source of truth (`IndexedDBAdapter`,
    src/storage.js:478-627). The database holds one singleton record; the
    model works on that record as a value and leaves the transaction
    plumbing out. */
module Primary {
  import opened Wrappers
  import opened Bytes
  import opened Json
  import opened Codes
  import opened Crypto
  import opened Envelope
  import Hex

  /** A file handle of the File System Access API, known by its file name. */
  datatype Handle = Handle(name: string)

  /** The `settings` member of the record. `lastBackupTs` is `None` until the
      first backup: the initial record has no `last_backup_ts`. */
  datatype Settings = Settings(
    deviceId: string,
    fsHandle: Option<Handle>,
    fsEncrypted: bool,
    lastBackup: Option<string>,
    options: Json,
    lastBackupVersion: int,
    lastBackupTs: Option<int>)

  /** A partial settings object passed to `updateSettings`: a `Some` field is
      present in the patch. */
  datatype SettingsPatch = SettingsPatch(
    deviceId: Option<string>,
    fsHandle: Option<Option<Handle>>,
    fsEncrypted: Option<bool>,
    lastBackup: Option<Option<string>>,
    options: Option<Json>,
    lastBackupVersion: Option<int>,
    lastBackupTs: Option<Option<int>>)

  const NoChange: SettingsPatch := SettingsPatch(None, None, None, None, None, None, None)

  /** The singleton record. */
  datatype Record = Record(version: int, lastModified: string, state: Json, settings: Settings)

  /** `generateDeviceId`: 16 random bytes as lower-case hexadecimal. */
  function DeviceIdOf(random: Buffer): (id: string)
    ensures |id| == 2 * |random|
    ensures Hex.FromHex(id) == Some(random)
  {
    Hex.FromHexToHex(random);
    Hex.ToHex(random)
  }

  /** The record `_ensureCache` creates when the database is empty. */
  function InitialRecord(deviceId: string, now: string): (r: Record)
    ensures r.version == 0 && r.state == EmptyObject
    ensures r.settings.fsHandle.None? && r.settings.fsEncrypted
    ensures r.settings.lastBackupVersion == 0 && r.settings.lastBackupTs.None?
  {
    Record(0, now, EmptyObject, Settings(deviceId, None, true, None, EmptyObject, 0, None))
  }

  /** `_ensureCache`: the stored record, or a new initial one with a fresh
      device id. */
  function EnsureCache(stored: Option<Record>, random: Buffer, now: string): (r: Record)
    ensures stored.Some? ==> r == stored.value
    ensures stored.None? ==> r == InitialRecord(DeviceIdOf(random), now)
  {
    match stored
    case Some(record) => record
    case None => InitialRecord(DeviceIdOf(random), now)
  }

  /** `shallowMerge(settings, patch)` for the settings object. */
  function MergeSettings(s: Settings, p: SettingsPatch): (r: Settings)
    ensures p.fsHandle.Some? ==> r.fsHandle == p.fsHandle.value
    ensures p.fsHandle.None? ==> r.fsHandle == s.fsHandle
    ensures p.fsEncrypted.Some? ==> r.fsEncrypted == p.fsEncrypted.value
    ensures p.fsEncrypted.None? ==> r.fsEncrypted == s.fsEncrypted
    ensures p.lastBackupVersion.Some? ==> r.lastBackupVersion == p.lastBackupVersion.value
    ensures p.lastBackupVersion.None? ==> r.lastBackupVersion == s.lastBackupVersion
    ensures p.lastBackupTs.Some? ==> r.lastBackupTs == p.lastBackupTs.value
    ensures p.lastBackupTs.None? ==> r.lastBackupTs == s.lastBackupTs
    ensures p.deviceId.Some? ==> r.deviceId == p.deviceId.value
    ensures p.deviceId.None? ==> r.deviceId == s.deviceId
    ensures p.lastBackup.Some? ==> r.lastBackup == p.lastBackup.value
    ensures p.lastBackup.None? ==> r.lastBackup == s.lastBackup
    ensures p.options.Some? ==> r.options == p.options.value
    ensures p.options.None? ==> r.options == s.options
    ensures p == NoChange ==> r == s
  {
    Settings(
      p.deviceId.GetOr(s.deviceId),
      p.fsHandle.GetOr(s.fsHandle),
      p.fsEncrypted.GetOr(s.fsEncrypted),
      p.lastBackup.GetOr(s.lastBackup),
      p.options.GetOr(s.options),
      p.lastBackupVersion.GetOr(s.lastBackupVersion),
      p.lastBackupTs.GetOr(s.lastBackupTs))
  }

  /** `updateSettings(patch)`: only the settings change. */
  function UpdateSettings(r: Record, p: SettingsPatch): (r': Record)
    ensures r'.version == r.version && r'.state == r.state && r'.lastModified == r.lastModified
    ensures r'.settings == MergeSettings(r.settings, p)
  {
    r.(settings := MergeSettings(r.settings, p))
  }

  /** The state `save` stores: a plain-object patch is merged into the current
      state (`state || {}`), anything else replaces it. */
  function NextState(current: Json, patchOrState: Json): (next: Json)
    ensures !IsPlainObject(patchOrState) ==> next == patchOrState
    ensures IsPlainObject(patchOrState) ==> next.JObj?
    ensures IsPlainObject(patchOrState) && !IsPlainObject(current) ==> next == patchOrState
    ensures IsPlainObject(patchOrState) && IsPlainObject(current) ==>
              && next.fields.Keys == current.fields.Keys + patchOrState.fields.Keys
              && (forall k :: k in patchOrState.fields ==> next.fields[k] == patchOrState.fields[k])
              && (forall k :: k in current.fields && k !in patchOrState.fields ==> next.fields[k] == current.fields[k])
  {
    if IsPlainObject(patchOrState) then
      ShallowMerge(if Truthy(current) then current else EmptyObject, patchOrState)
    else patchOrState
  }

  /** `save(patchOrState)`: stores the next state, bumps the version by one
      and stamps the modification time; the settings are kept. Returns the
      new version with the record. */
  function Save(r: Record, patchOrState: Json, now: string): (r': Record)
    ensures r'.version == r.version + 1
    ensures r'.lastModified == now
    ensures r'.state == NextState(r.state, patchOrState)
    ensures r'.settings == r.settings
  {
    Record(r.version + 1, now, NextState(r.state, patchOrState), r.settings)
  }

  /** Saving a sequence of patches or states, one after another. */
  function SaveAll(r: Record, changes: seq<Json>, now: string): Record
    decreases |changes|
  {
    if |changes| == 0 then r
    else SaveAll(Save(r, changes[0], now), changes[1..], now)
  }

  /** Every save counts: after `n` saves the version has grown by exactly `n`,
      and the settings are untouched. */
  lemma {:induction false} SaveAllCounts(r: Record, changes: seq<Json>, now: string)
    ensures SaveAll(r, changes, now).version == r.version + |changes|
    ensures SaveAll(r, changes, now).settings == r.settings
    decreases |changes|
  {
    if |changes| > 0 {
      SaveAllCounts(Save(r, changes[0], now), changes[1..], now);
    }
  }

  /** Saving the same patch twice leaves the same state as saving it once. */
  lemma {:induction false} SavePatchIdempotent(r: Record, patch: Json, now: string, later: string)
    requires IsPlainObject(patch)
    ensures Save(Save(r, patch, now), patch, later).state == Save(r, patch, now).state
  {
    var once := Save(r, patch, now).state;
    assert once.JObj?;
    assert once.fields + patch.fields == once.fields;
  }

  /** `setState(state, version, lastModified)`: adopts the given state and
      version as they are; the settings are kept. */
  function SetState(r: Record, state: Json, version: int, lastModified: string): (r': Record)
    ensures r'.state == state && r'.version == version && r'.lastModified == lastModified
    ensures r'.settings == r.settings
  {
    Record(version, lastModified, state, r.settings)
  }

  /** The meta block `exportEncrypted` seals into the file. */
  function ExportMeta(r: Record, random: Buffer): (m: Meta)
    ensures m.versionCounter == r.version && m.lastModified == r.lastModified
    ensures m.prevVersionCounter == Some(r.version - 1)
    ensures r.settings.deviceId != "" ==> m.deviceId == r.settings.deviceId
  {
    Meta(if r.settings.deviceId != "" then r.settings.deviceId else DeviceIdOf(random),
         r.version, r.lastModified, Some(r.version - 1))
  }

  /** `exportEncrypted(password)`: the current state sealed under the password
      with no previous header, so with a fresh salt and DEK. */
  function ExportEncrypted(r: Record, c: Suite, password: string, rand: Fresh, random: Buffer): (e: Result<Container, Code>)
    ensures password == "" ==> e == Err(PasswordRequired)
    ensures password != "" ==> e.Ok?
    ensures e.Ok? ==> e.value.header.Some? && e.value.header.value.meta == ExportMeta(r, random)
    ensures e.Ok? ==> e.value.header.value.kdf.iterations == DefaultIterations
  {
    if password == "" then Err(PasswordRequired)
    else Encrypt(c, r.state, password, ExportMeta(r, random), None, rand)
  }

  /** An imported file, once read: `None` stands for no file given. */
  datatype FileText = Text(body: Option<Document>)

  /** `importEncrypted(file, password)`: parses and decrypts the file and
      adopts it only when it is strictly newer than the record. */
  function ImportEncrypted(r: Record, c: Suite, file: Option<FileText>, password: string, now: string)
    : (e: Result<Record, Code>)
    ensures file.None? ==> e == Err(FileRequired)
    ensures file.Some? && password == "" ==> e == Err(PasswordRequired)
    ensures file.Some? && password != "" && file.value.body.None? ==> e == Err(UnparsableFile)
    ensures file.Some? && password != "" && file.value.body.Some? ==>
              var unsealed := Decrypt(c, file.value.body.value, password);
              && (unsealed.Err? ==> e == Err(unsealed.error))
              && (unsealed.Ok? && unsealed.value.header.meta.versionCounter <= r.version ==> e == Err(OlderVersion))
              && (unsealed.Ok? && unsealed.value.header.meta.versionCounter > r.version ==>
                    && e.Ok?
                    && e.value.state == StateOf(unsealed.value.plaintext)
                    && e.value.version == (if unsealed.value.header.meta.versionCounter != 0
                                           then unsealed.value.header.meta.versionCounter else r.version)
                    && e.value.lastModified == (if unsealed.value.header.meta.lastModified != ""
                                                then unsealed.value.header.meta.lastModified else now)
                    && e.value.settings == r.settings)
    ensures e.Ok? && r.version >= 0 ==> e.value.version > r.version
  {
    if file.None? then Err(FileRequired)
    else if password == "" then Err(PasswordRequired)
    else if file.value.body.None? then Err(UnparsableFile)
    else
      var unsealed :- Decrypt(c, file.value.body.value, password);
      var meta := unsealed.header.meta;
      if meta.versionCounter <= r.version then Err(OlderVersion)
      else
        Ok(Record(if meta.versionCounter != 0 then meta.versionCounter else r.version,
                  if meta.lastModified != "" then meta.lastModified else now,
                  StateOf(unsealed.plaintext),
                  r.settings))
  }

  /** Export then import carries the state across devices: a record whose
      version is below the exporter's adopts the exported state, version and
      modification time, and keeps its own settings. */
  lemma {:induction false} ExportImportTransfers(src: Record, dst: Record, c: Suite, password: string, rand: Fresh, random: Buffer, now: string)
    requires RoundTrips(c)
    requires password != ""
    requires 0 <= dst.version < src.version
    ensures ImportEncrypted(dst, c, Some(Text(Some(Object(ExportEncrypted(src, c, password, rand, random).value)))), password, now)
              == Ok(Record(src.version, if src.lastModified != "" then src.lastModified else now, src.state, dst.settings))
  {
    var meta := ExportMeta(src, random);
    var sealed := Encrypt(c, src.state, password, meta, None, rand);
    EncryptDecryptRoundTrip(c, src.state, password, meta, None, rand);
    var unsealed := Decrypt(c, Object(sealed.value), password);
    assert unsealed.value.header == sealed.value.header.value;
  }

  /** Importing a file into the very record it was exported from is refused
      as an older version: its counter equals the record's version. */
  lemma {:induction false} ReimportIsOlder(r: Record, c: Suite, password: string, rand: Fresh, random: Buffer, now: string)
    requires RoundTrips(c)
    requires password != ""
    ensures ImportEncrypted(r, c, Some(Text(Some(Object(ExportEncrypted(r, c, password, rand, random).value)))), password, now)
              == Err(OlderVersion)
  {
    EncryptDecryptRoundTrip(c, r.state, password, ExportMeta(r, random), None, rand);
  }
}

=== FILE: schedule.dfy ===
/** Which days are lective for an assignatura and the sessions of a date
    range (src/state.js:173-179 and 1160-1250). */
module Schedule {
  import opened Wrappers
  import opened Sorting
  import opened Collections
  import opened Calendar
  import Text

  /** `compareISODate(a, b)`: a missing date sorts first, two missing dates
      are equal. */
  function CompareISODate(a: Option<Day>, b: Option<Day>): (r: int)
    ensures r == 0 <==> a == b
    ensures r <= 0 <==> KeyLe(a, b)
    ensures r >= 0 <==> KeyLe(b, a)
    ensures -1 <= r <= 1
  {
    if a.None? && b.None? then 0
    else if a.None? then -1
    else if b.None? then 1
    else if a.value == b.value then 0
    else if a.value < b.value then -1
    else 1
  }

  /** `getUTCDay` of a day number: 1970-01-01 was a Thursday (4), and
      Sunday is 0. */
  function Weekday(d: Day): (w: int)
    ensures 0 <= w <= 6
  {
    (d + 4) % 7
  }

  /** The versions in force on `date`: no start date, or one not after it. */
  function Candidates(vs: seq<HorariVersio>, date: Day): (r: seq<HorariVersio>)
    ensures forall v :: v in r <==> v in vs && (v.effectiveFrom.None? || v.effectiveFrom.value <= date)
  {
    if |vs| == 0 then []
    else
      assert forall v :: v in vs <==> v == vs[0] || v in vs[1..];
      (if vs[0].effectiveFrom.None? || vs[0].effectiveFrom.value <= date then [vs[0]] else [])
        + Candidates(vs[1..], date)
  }

  /** `candidates.find((v) => v.id === id)`. */
  function FindVersio(vs: seq<HorariVersio>, id: string): (r: Option<HorariVersio>)
    ensures r.Some? ==> r.value in vs && r.value.id == id
    ensures r.None? <==> forall v :: v in vs ==> v.id != id
  {
    if |vs| == 0 then None
    else if vs[0].id == id then Some(vs[0])
    else
      assert forall v :: v in vs <==> v == vs[0] || v in vs[1..];
      FindVersio(vs[1..], id)
  }

  /** The loop that keeps a candidate only when its start date is strictly
      later than the one kept so far: the first version with the latest
      start date. */
  function FirstLatest(vs: seq<HorariVersio>): (r: HorariVersio)
    requires |vs| > 0
    ensures r in vs
    ensures forall v :: v in vs ==> KeyLe(v.effectiveFrom, r.effectiveFrom)
    ensures exists i :: 0 <= i < |vs| && vs[i] == r && forall j :: 0 <= j < i ==> !KeyLe(r.effectiveFrom, vs[j].effectiveFrom)
  {
    if |vs| == 1 then vs[0]
    else
      var rest := FirstLatest(vs[1..]);
      assert forall v :: v in vs <==> v == vs[0] || v in vs[1..];
      if KeyLe(rest.effectiveFrom, vs[0].effectiveFrom) then vs[0]
      else
        var i :| 0 <= i < |vs[1..]| && vs[1..][i] == rest
                 && forall j :: 0 <= j < i ==> !KeyLe(rest.effectiveFrom, vs[1..][j].effectiveFrom);
        assert vs[i + 1] == rest;
        assert forall j :: 1 <= j < i + 1 ==> vs[j] == vs[1..][j - 1];
        rest
  }

  datatype ActiveSchedule = ActiveSchedule(diesSetmanals: seq<int>, versioId: Option<string>)

  /** `selected.id || null`. */
  function IdOrNull(id: string): (r: Option<string>)
    ensures r.Some? <==> id != ""
    ensures r.Some? ==> r.value == id
  {
    if id == "" then None else Some(id)
  }

  /** The version a calendar uses on `date`: the active version when it is in
      force, otherwise the first in force with the latest start date. */
  function SelectVersio(c: Calendari, date: Day): (r: Option<HorariVersio>)
    ensures r.Some? <==> |Candidates(c.horariVersions, date)| > 0
    ensures r.Some? ==> r.value in c.horariVersions
    ensures c.horariActivaId.Some? && c.horariActivaId.value != ""
            && FindVersio(Candidates(c.horariVersions, date), c.horariActivaId.value).Some? ==>
              r.Some? && r.value.id == c.horariActivaId.value
              && r == FindVersio(Candidates(c.horariVersions, date), c.horariActivaId.value)
    ensures !(c.horariActivaId.Some? && c.horariActivaId.value != ""
              && FindVersio(Candidates(c.horariVersions, date), c.horariActivaId.value).Some?)
            && |Candidates(c.horariVersions, date)| > 0 ==>
              r == Some(FirstLatest(Candidates(c.horariVersions, date)))
  {
    var cands := Candidates(c.horariVersions, date);
    var preferred := if c.horariActivaId.Some? && c.horariActivaId.value != ""
                     then FindVersio(cands, c.horariActivaId.value) else None;
    if preferred.Some? then
      assert preferred.value in cands;
      preferred
    else if |cands| == 0 then None
    else Some(FirstLatest(cands))
  }

  /** `getActiveSchedule` on a calendar: the selected version's days, or the
      calendar's own days when no version is in force, or nothing. */
  function ScheduleOn(c: Calendari, date: Day): (r: Option<ActiveSchedule>)
    ensures r.Some? ==> StrictlyIncreasing(r.value.diesSetmanals)
    ensures SelectVersio(c, date).Some? ==>
              && r.Some?
              && (forall d :: d in r.value.diesSetmanals <==> d in SelectVersio(c, date).value.diesSetmanals)
              && r.value.versioId == IdOrNull(SelectVersio(c, date).value.id)
    ensures SelectVersio(c, date).None? ==>
              (r.Some? <==> |c.diesSetmanals| > 0)
              && (r.Some? ==> r.value.versioId.None?
                              && forall d :: d in r.value.diesSetmanals <==> d in c.diesSetmanals)
  {
    match SelectVersio(c, date)
    case Some(v) => Some(ActiveSchedule(SortedUnique(v.diesSetmanals), IdOrNull(v.id)))
    case None =>
      if |c.diesSetmanals| > 0 then Some(ActiveSchedule(SortedUnique(c.diesSetmanals), None))
      else None
  }

  /** `getActiveSchedule(assignaturaId, date)`: nothing without a calendar
      or without a valid date. */
  function GetActiveSchedule(cals: Collection<Calendari>, assignaturaId: string, date: Option<Day>)
    : (r: Option<ActiveSchedule>)
    ensures GetCalendari(cals, assignaturaId).None? || date.None? ==> r.None?
    ensures GetCalendari(cals, assignaturaId).Some? && date.Some? ==>
              r == ScheduleOn(GetCalendari(cals, assignaturaId).value, date.value)
  {
    match GetCalendari(cals, assignaturaId)
    case None => None
    case Some(c) => if date.None? then None else ScheduleOn(c, date.value)
  }

  // ----- evaluateLectiu -----

  /** After `setCursRange`, a date before the new start or after the new end
      is not lective, with the matching reason. */
  lemma {:induction false} CourseRangeBounds(c: Calendari, inici: Option<Day>, fi: Option<Day>, date: Day)
    requires SetCursRange(c, inici, fi).Ok?
    ensures var v := EvaluateOn(SetCursRange(c, inici, fi).value, date);
            && (inici.Some? && date < inici.value ==> v == Verdict(false, Some(BeforeStart), None))
            && (fi.Some? && fi.value < date ==> v == Verdict(false, Some(AfterEnd), None))
  {
    var c' := SetCursRange(c, inici, fi).value;
    assert c'.cursInici == inici && c'.cursFi == fi;
    if fi.Some? && fi.value < date && inici.Some? {
      assert inici.value <= fi.value;
    }
  }

  /** After `activateHorariVersio(id)`, the version with that id decides
      every date it is in force on. */
  lemma {:induction false} ActivatedVersioSelected(c: Calendari, id: string, date: Day)
    requires id != "" && ActivateHorariVersio(c, id).Ok?
    requires forall v :: v in c.horariVersions && v.id == id ==> v.effectiveFrom.None? || v.effectiveFrom.value <= date
    ensures SelectVersio(ActivateHorariVersio(c, id).value, date).Some?
    ensures SelectVersio(ActivateHorariVersio(c, id).value, date).value.id == id
  {
    var c' := ActivateHorariVersio(c, id).value;
    var i :| 0 <= i < |c.horariVersions| && c.horariVersions[i].id == id;
    var v := c.horariVersions[i];
    assert v in Candidates(c'.horariVersions, date);
  }

  /** `{lectiu, motiu?, versioId?}`. */
  datatype Verdict = Verdict(lectiu: bool, motiu: Option<string>, versioId: Option<string>)

  const InvalidDate: string := "Data invàlida"
  const NoCalendar: string := "Sense calendari configurat"
  const BeforeStart: string := "Fora del període lectiu (abans d'inici)"
  const AfterEnd: string := "Fora del període lectiu (després de fi)"
  const DefaultFestiu: string := "Festiu"
  const DefaultExcepcio: string := "Excepció"
  const NoSchedule: string := "Sense horari actiu"
  const NoClass: string := "No hi ha classe aquest dia"

  /** `list.find((item) => item.dataISO === date)`: the first entry of that date. */
  function FirstNote(s: seq<DatedNote>, d: Day): (r: Option<string>)
    ensures r.Some? <==> exists i :: 0 <= i < |s| && s[i].dataISO == d
    ensures r.Some? ==> exists i :: 0 <= i < |s| && s[i] == DatedNote(d, r.value)
  {
    if |s| == 0 then None
    else if s[0].dataISO == d then Some(s[0].motiu)
    else
      var rest := FirstNote(s[1..], d);
      assert forall i :: 1 <= i < |s| ==> s[i] == s[1..][i - 1];
      rest
  }

  /** On a list with one entry per date, the first entry of a date is the
      one the merge by date produces. */
  lemma {:induction false} FirstNoteIsNoteAt(s: seq<DatedNote>, d: Day)
    requires StrictlyByDate(s)
    ensures FirstNote(s, d) == NoteAt(s, d)
  {
    NoteAtSorted(s, d);
    if FirstNote(s, d).Some? {
      var i :| 0 <= i < |s| && s[i] == DatedNote(d, FirstNote(s, d).value);
      assert s[i] in s;
    }
  }

  /** `motiu || fallback`. */
  function ReasonOr(motiu: string, fallback: string): string {
    if motiu != "" then motiu else fallback
  }

  /** `typeof versioId === 'string' && versioId.trim().length ? versioId : null`. */
  function Reportable(versioId: Option<string>): (r: Option<string>)
    ensures r.Some? <==> versioId.Some? && Text.Trim(versioId.value) != ""
    ensures r.Some? ==> r == versioId
  {
    if versioId.Some? && Text.Trim(versioId.value) != "" then versioId else None
  }

  /** Within the course: after `cursInici` and before `cursFi`, when set. */
  predicate InCourse(c: Calendari, date: Day) {
    (c.cursInici.None? || c.cursInici.value <= date) && (c.cursFi.None? || date <= c.cursFi.value)
  }

  /** Neither a festiu nor an excepcio falls on the date. */
  predicate Unmarked(c: Calendari, date: Day) {
    FirstNote(c.festius, date).None? && FirstNote(c.excepcions, date).None?
  }

  /** The checks `evaluateLectiu` runs once the calendar is found, in order:
      the course range, festius, excepcions, the active schedule, the
      weekday. The first check that fails gives the reason, so each
      reason below holds only when every earlier check has passed. */
  function EvaluateOn(c: Calendari, date: Day): (v: Verdict)
    ensures v.lectiu <==>
              && InCourse(c, date)
              && Unmarked(c, date)
              && ScheduleOn(c, date).Some?
              && Weekday(date) in ScheduleOn(c, date).value.diesSetmanals
    ensures v.lectiu ==> v.motiu.None?
    ensures !v.lectiu ==> v.motiu.Some? && v.motiu.value != ""
    ensures v.versioId.Some? ==> ScheduleOn(c, date).Some? && v.versioId == ScheduleOn(c, date).value.versioId
    ensures c.cursInici.Some? && date < c.cursInici.value ==> v == Verdict(false, Some(BeforeStart), None)
    ensures (c.cursInici.None? || c.cursInici.value <= date) && c.cursFi.Some? && c.cursFi.value < date ==>
              v == Verdict(false, Some(AfterEnd), None)
    ensures InCourse(c, date) && FirstNote(c.festius, date).Some? ==>
              v == Verdict(false, Some(ReasonOr(FirstNote(c.festius, date).value, DefaultFestiu)), None)
    ensures InCourse(c, date) && FirstNote(c.festius, date).None? && FirstNote(c.excepcions, date).Some? ==>
              v == Verdict(false, Some(ReasonOr(FirstNote(c.excepcions, date).value, DefaultExcepcio)), None)
    ensures InCourse(c, date) && Unmarked(c, date) && (ScheduleOn(c, date).None? || ScheduleOn(c, date).value.diesSetmanals == []) ==>
              v == Verdict(false, Some(NoSchedule), None)
    ensures InCourse(c, date) && Unmarked(c, date) && ScheduleOn(c, date).Some? && ScheduleOn(c, date).value.diesSetmanals != [] ==>
              var schedule := ScheduleOn(c, date).value;
              v == Verdict(Weekday(date) in schedule.diesSetmanals,
                           if Weekday(date) in schedule.diesSetmanals then None else Some(NoClass),
                           Reportable(schedule.versioId))
  {
    if c.cursInici.Some? && CompareISODate(Some(date), c.cursInici) == -1 then
      Verdict(false, Some(BeforeStart), None)
    else if c.cursFi.Some? && CompareISODate(Some(date), c.cursFi) == 1 then
      Verdict(false, Some(AfterEnd), None)
    else if FirstNote(c.festius, date).Some? then
      Verdict(false, Some(ReasonOr(FirstNote(c.festius, date).value, DefaultFestiu)), None)
    else if FirstNote(c.excepcions, date).Some? then
      Verdict(false, Some(ReasonOr(FirstNote(c.excepcions, date).value, DefaultExcepcio)), None)
    else
      var schedule := ScheduleOn(c, date);
      if schedule.None? || |schedule.value.diesSetmanals| == 0 then
        Verdict(false, Some(NoSchedule), None)
      else
        var versioId := Reportable(schedule.value.versioId);
        if Weekday(date) !in schedule.value.diesSetmanals then Verdict(false, Some(NoClass), versioId)
        else Verdict(true, None, versioId)
  }

  /** `evaluateLectiu(assignaturaId, date)`. */
  function EvaluateLectiu(cals: Collection<Calendari>, assignaturaId: string, date: Option<Day>): (v: Verdict)
    ensures date.None? ==> v == Verdict(false, Some(InvalidDate), None)
    ensures date.Some? && GetCalendari(cals, assignaturaId).None? ==> v == Verdict(false, Some(NoCalendar), None)
    ensures date.Some? && GetCalendari(cals, assignaturaId).Some? ==>
              v == EvaluateOn(GetCalendari(cals, assignaturaId).value, date.value)
  {
    if date.None? then Verdict(false, Some(InvalidDate), None)
    else match GetCalendari(cals, assignaturaId)
      case None => Verdict(false, Some(NoCalendar), None)
      case Some(c) => EvaluateOn(c, date.value)
  }

  /** `isLectiu`. */
  predicate IsLectiu(cals: Collection<Calendari>, assignaturaId: string, d: Day) {
    EvaluateLectiu(cals, assignaturaId, Some(d)).lectiu
  }

  /** A date `addFestius` has just marked is not lective, and, inside the
      course, the verdict gives the festiu's reason (or "Festiu"). */
  lemma {:induction false} AddedFestiuIsNotLectiu(c: Calendari, incoming: seq<DatedNote>, d: Day)
    requires NoteAt(incoming, d).Some?
    ensures var c' := AddFestius(c, incoming).value;
            var v := EvaluateOn(c', d);
            && !v.lectiu
            && ((c.cursInici.None? || c.cursInici.value <= d) && (c.cursFi.None? || d <= c.cursFi.value) ==>
                  v.motiu == Some(ReasonOr(NoteAt(incoming, d).value, DefaultFestiu)))
  {
    var c' := AddFestius(c, incoming).value;
    FirstNoteIsNoteAt(c'.festius, d);
  }

  // ----- listSessions -----

  datatype Session = Session(dateISO: Day, weekday: int)

  /** `listSessions(assignaturaId, {from, to})`: every lective day from
      `from` to `to`, in order, with its weekday. Invalid bounds or `from`
      after `to` give no sessions. */
  method ListSessions(cals: Collection<Calendari>, assignaturaId: string, fromDay: Option<Day>, toDay: Option<Day>)
    returns (sessions: seq<Session>)
    ensures fromDay.None? || toDay.None? ==> sessions == []
    ensures fromDay.Some? && toDay.Some? && fromDay.value > toDay.value ==> sessions == []
    ensures forall i, j :: 0 <= i < j < |sessions| ==> sessions[i].dateISO < sessions[j].dateISO
    ensures forall s :: s in sessions ==>
              && fromDay.Some? && toDay.Some? && fromDay.value <= s.dateISO <= toDay.value
              && IsLectiu(cals, assignaturaId, s.dateISO)
              && s.weekday == Weekday(s.dateISO)
    ensures fromDay.Some? && toDay.Some? ==>
              forall d :: fromDay.value <= d <= toDay.value && IsLectiu(cals, assignaturaId, d) ==>
                Session(d, Weekday(d)) in sessions
  {
    if fromDay.None? || toDay.None? {
      return [];
    }
    if CompareISODate(fromDay, toDay) == 1 {
      return [];
    }
    sessions := CollectDays(fromDay.value, toDay.value, d => IsLectiu(cals, assignaturaId, d));
  }

  /** The days from `first` to `last` that satisfy `keep`, in order, each
      with its weekday. */
  method CollectDays(first: Day, last: Day, keep: Day -> bool) returns (sessions: seq<Session>)
    ensures forall i, j :: 0 <= i < j < |sessions| ==> sessions[i].dateISO < sessions[j].dateISO
    ensures forall s :: s in sessions ==> first <= s.dateISO <= last && keep(s.dateISO) && s.weekday == Weekday(s.dateISO)
    ensures forall d :: first <= d <= last && keep(d) ==> Session(d, Weekday(d)) in sessions
  {
    sessions := [];
    var cursor := first;
    while cursor <= last
      invariant first <= cursor
      invariant cursor == first || cursor <= last + 1
      invariant cursor == first ==> sessions == []
      invariant forall i, j :: 0 <= i < j < |sessions| ==> sessions[i].dateISO < sessions[j].dateISO
      invariant forall s :: s in sessions ==> first <= s.dateISO < cursor && keep(s.dateISO) && s.weekday == Weekday(s.dateISO)
      invariant forall d :: first <= d < cursor && keep(d) ==> Session(d, Weekday(d)) in sessions
      decreases last - cursor
    {
      if keep(cursor) {
        var next := Session(cursor, Weekday(cursor));
        assert forall i :: 0 <= i < |sessions| ==> sessions[i].dateISO < cursor by {
          forall i | 0 <= i < |sessions| ensures sessions[i].dateISO < cursor {
            assert sessions[i] in sessions;
          }
        }
        sessions := sessions + [next];
      }
      cursor := cursor + 1;
    }
  }

  /** `listSessionsTrimestre`: the sessions between the bounds of the
      calendar's trimestre with that id, or none. */
  method ListSessionsTrimestre(cals: Collection<Calendari>, assignaturaId: string, trimestreId: string)
    returns (sessions: seq<Session>)
    ensures GetCalendari(cals, assignaturaId).None? ==> sessions == []
    ensures GetCalendari(cals, assignaturaId).Some?
            && IndexOfTrimestre(GetCalendari(cals, assignaturaId).value.trimestres, trimestreId).None?
            ==> sessions == []
    ensures forall i, j :: 0 <= i < j < |sessions| ==> sessions[i].dateISO < sessions[j].dateISO
    ensures GetCalendari(cals, assignaturaId).Some?
            && IndexOfTrimestre(GetCalendari(cals, assignaturaId).value.trimestres, trimestreId).Some?
            ==> var ts := GetCalendari(cals, assignaturaId).value.trimestres;
              var t := ts[IndexOfTrimestre(ts, trimestreId).value];
              forall d :: t.tInici <= d <= t.tFi && IsLectiu(cals, assignaturaId, d) ==> Session(d, Weekday(d)) in sessions
    ensures forall s :: s in sessions ==>
              && IsLectiu(cals, assignaturaId, s.dateISO)
              && exists t :: t in GetCalendari(cals, assignaturaId).value.trimestres
                               && t.id == trimestreId && t.tInici <= s.dateISO <= t.tFi
  {
    var c := GetCalendari(cals, assignaturaId);
    if c.None? {
      return [];
    }
    var k := IndexOfTrimestre(c.value.trimestres, trimestreId);
    if k.None? {
      return [];
    }
    var t := c.value.trimestres[k.value];
    assert t in c.value.trimestres;
    sessions := ListSessions(cals, assignaturaId, Some(t.tInici), Some(t.tFi));
  }
}

=== FILE: sorting.dfy ===
/** The two orderings the calendar code relies on: a stable sort by an
    optional date (`Array.prototype.sort` with `compareISODate`, which puts a
    missing date first) and the sorted set of a list of integers
    (`Array.from(new Set(xs)).sort((a, b) => a - b)`). */
module Sorting {
  import opened Wrappers

  /** `compareISODate(a, b) !== 1`: a missing key sorts before any present one. */
  predicate KeyLe(a: Option<int>, b: Option<int>) {
    a.None? || (b.Some? && a.value <= b.value)
  }

  predicate SortedBy<T>(s: seq<T>, key: T -> Option<int>) {
    forall i, j :: 0 <= i < j < |s| ==> KeyLe(key(s[i]), key(s[j]))
  }

  /** Inserts `x` after every element whose key is not greater than its own,
      which keeps equal keys in arrival order. */
  function InsertBy<T>(x: T, s: seq<T>, key: T -> Option<int>): (r: seq<T>)
    requires SortedBy(s, key)
    ensures SortedBy(r, key)
    ensures multiset(r) == multiset(s) + multiset{x}
    ensures |r| == |s| + 1
  {
    if |s| == 0 then [x]
    else if !KeyLe(key(s[0]), key(x)) then
      forall i | 0 <= i < |s| ensures KeyLe(key(x), key(s[i])) {
        KeyLeTrans(key(x), key(s[0]), key(s[i]));
      }
      SortedCons(x, s, key);
      assert multiset([x] + s) == multiset(s) + multiset{x};
      [x] + s
    else
      var rest := InsertBy(x, s[1..], key);
      forall i | 0 <= i < |rest| ensures KeyLe(key(s[0]), key(rest[i])) {
        InsertedFrom(rest, s[1..], x, i);
      }
      SortedCons(s[0], rest, key);
      ConsMultiset(s, rest, x);
      [s[0]] + rest
  }

  lemma {:induction false} KeyLeTrans(a: Option<int>, b: Option<int>, c: Option<int>)
    requires !KeyLe(b, a) && KeyLe(b, c)
    ensures KeyLe(a, c)
  {
  }

  /** A head no greater than every element keeps a sorted list sorted. */
  lemma {:induction false} SortedCons<T>(y: T, t: seq<T>, key: T -> Option<int>)
    requires SortedBy(t, key)
    requires forall i :: 0 <= i < |t| ==> KeyLe(key(y), key(t[i]))
    ensures SortedBy([y] + t, key)
  {
    var r := [y] + t;
    forall i, j | 0 <= i < j < |r| ensures KeyLe(key(r[i]), key(r[j])) {
      assert r[j] == t[j - 1];
      if i > 0 {
        assert r[i] == t[i - 1];
      }
    }
  }

  /** An element of a list with `x` added is `x` or came from the list. */
  lemma {:induction false} InsertedFrom<T>(rest: seq<T>, s: seq<T>, x: T, i: int)
    requires multiset(rest) == multiset(s) + multiset{x}
    requires 0 <= i < |rest|
    ensures rest[i] == x || exists j :: 0 <= j < |s| && s[j] == rest[i]
  {
    assert rest[i] in multiset(rest);
    if rest[i] != x {
      assert rest[i] in multiset(s);
      assert rest[i] in s;
    }
  }

  lemma {:induction false} ConsMultiset<T>(s: seq<T>, rest: seq<T>, x: T)
    requires |s| > 0 && multiset(rest) == multiset(s[1..]) + multiset{x}
    ensures multiset([s[0]] + rest) == multiset(s) + multiset{x}
  {
    assert s == [s[0]] + s[1..];
  }

  /** A stable sort by `key`. */
  function SortBy<T>(s: seq<T>, key: T -> Option<int>): (r: seq<T>)
    ensures SortedBy(r, key)
    ensures multiset(r) == multiset(s)
    ensures |r| == |s|
  {
    if |s| == 0 then []
    else
      assert s == s[..|s| - 1] + [s[|s| - 1]];
      InsertBy(s[|s| - 1], SortBy(s[..|s| - 1], key), key)
  }

  /** `x` occurs before `y` in `s`. */
  predicate Before<T(==)>(s: seq<T>, x: T, y: T) {
    exists i, j :: 0 <= i < j < |s| && s[i] == x && s[j] == y
  }

  lemma {:induction false} KeyLeChain(a: Option<int>, b: Option<int>, c: Option<int>)
    requires KeyLe(a, b) && KeyLe(b, c)
    ensures KeyLe(a, c)
  {
  }

  /** Inserting keeps the order of what was there. */
  lemma {:induction false} InsertByKeeps<T>(x: T, s: seq<T>, key: T -> Option<int>, a: T, b: T)
    requires SortedBy(s, key) && Before(s, a, b)
    ensures Before(InsertBy(x, s, key), a, b)
    decreases |s|
  {
    var i, j :| 0 <= i < j < |s| && s[i] == a && s[j] == b;
    InsertByStep(x, s, key);
    if !KeyLe(key(s[0]), key(x)) {
      BeforeCons(x, s, a, b);
    } else {
      SortedTail(s, key);
      var rest := InsertBy(x, s[1..], key);
      if i == 0 {
        assert s[1..][j - 1] == b;
        InsertedMember(x, s[1..], key, b);
        BeforeHead(s[0], rest, b);
      } else {
        assert s[1..][i - 1] == a && s[1..][j - 1] == b;
        InsertByKeeps(x, s[1..], key, a, b);
        BeforeCons(s[0], rest, a, b);
      }
    }
  }

  /** The inserted element lands after every element whose key is not greater. */
  lemma {:induction false} InsertByAfter<T>(x: T, s: seq<T>, key: T -> Option<int>, a: T)
    requires SortedBy(s, key) && a in s && KeyLe(key(a), key(x))
    ensures Before(InsertBy(x, s, key), a, x)
    decreases |s|
  {
    var i :| 0 <= i < |s| && s[i] == a;
    if i > 0 {
      assert KeyLe(key(s[0]), key(s[i]));
    }
    KeyLeChain(key(s[0]), key(a), key(x));
    InsertByStep(x, s, key);
    SortedTail(s, key);
    var rest := InsertBy(x, s[1..], key);
    if i == 0 {
      InsertedMember(x, s[1..], key, x);
      BeforeHead(s[0], rest, x);
    } else {
      assert s[1..][i - 1] == a;
      InsertByAfter(x, s[1..], key, a);
      BeforeCons(s[0], rest, a, x);
    }
  }

  /** One step of `InsertBy` on a non-empty list. */
  lemma {:induction false} InsertByStep<T>(x: T, s: seq<T>, key: T -> Option<int>)
    requires SortedBy(s, key) && |s| > 0
    ensures SortedBy(s[1..], key)
    ensures !KeyLe(key(s[0]), key(x)) ==> InsertBy(x, s, key) == [x] + s
    ensures KeyLe(key(s[0]), key(x)) ==> InsertBy(x, s, key) == [s[0]] + InsertBy(x, s[1..], key)
  {
    SortedTail(s, key);
  }

  lemma {:induction false} SortedTail<T>(s: seq<T>, key: T -> Option<int>)
    requires SortedBy(s, key) && |s| > 0
    ensures SortedBy(s[1..], key)
  {
    forall i, j | 0 <= i < j < |s| - 1 ensures KeyLe(key(s[1..][i]), key(s[1..][j])) {
      assert s[1..][i] == s[i + 1] && s[1..][j] == s[j + 1];
    }
  }

  /** After inserting `x`, the members are the old ones and `x`. */
  lemma {:induction false} InsertedMember<T>(x: T, s: seq<T>, key: T -> Option<int>, y: T)
    requires SortedBy(s, key)
    ensures y in InsertBy(x, s, key) <==> y in s || y == x
  {
    var r := InsertBy(x, s, key);
    assert y in r <==> y in multiset(r);
    assert y in s <==> y in multiset(s);
  }

  lemma {:induction false} BeforeCons<T>(h: T, t: seq<T>, a: T, b: T)
    requires Before(t, a, b)
    ensures Before([h] + t, a, b)
  {
    var i, j :| 0 <= i < j < |t| && t[i] == a && t[j] == b;
    assert ([h] + t)[i + 1] == a && ([h] + t)[j + 1] == b;
  }

  lemma {:induction false} BeforeHead<T>(h: T, t: seq<T>, b: T)
    requires b in t
    ensures Before([h] + t, h, b)
  {
    var j :| 0 <= j < |t| && t[j] == b;
    assert ([h] + t)[0] == h && ([h] + t)[j + 1] == b;
  }

  /** Two elements in order in `[h] + t`: `h` comes first and the other is in
      `t`, or both are in order in `t`. */
  lemma {:induction false} BeforeUncons<T>(h: T, t: seq<T>, a: T, b: T)
    requires Before([h] + t, a, b)
    ensures (h == a && b in t) || Before(t, a, b)
  {
    var s := [h] + t;
    var i, j :| 0 <= i < j < |s| && s[i] == a && s[j] == b;
    assert s[j] == t[j - 1];
    if i > 0 {
      assert s[i] == t[i - 1];
    }
  }

  /** `SortBy` is stable: elements with equal keys keep their order. */
  lemma {:induction false} SortByStable<T>(s: seq<T>, key: T -> Option<int>, a: T, b: T)
    requires key(a) == key(b) && Before(s, a, b)
    ensures Before(SortBy(s, key), a, b)
    decreases |s|
  {
    BeforeSnoc(s, a, b);
    var p := s[..|s| - 1];
    SortByStep(s, key);
    if Before(p, a, b) {
      SortByStable(p, key, a, b);
      InsertByKeeps(s[|s| - 1], SortBy(p, key), key, a, b);
    } else {
      SortedMember(p, key, a);
      InsertByAfter(s[|s| - 1], SortBy(p, key), key, a);
    }
  }

  /** Two elements in order in `s`: both in order before the last one, or
      the second is the last one. */
  lemma {:induction false} BeforeSnoc<T>(s: seq<T>, a: T, b: T)
    requires Before(s, a, b)
    ensures |s| > 0
    ensures Before(s[..|s| - 1], a, b) || (a in s[..|s| - 1] && b == s[|s| - 1])
  {
    var i, j :| 0 <= i < j < |s| && s[i] == a && s[j] == b;
    var p := s[..|s| - 1];
    if j < |s| - 1 {
      assert p[i] == a && p[j] == b;
    } else {
      assert p[i] == a;
    }
  }

  /** `SortBy` inserts the last element into the sorted rest. */
  lemma {:induction false} SortByStep<T>(s: seq<T>, key: T -> Option<int>)
    requires |s| > 0
    ensures SortBy(s, key) == InsertBy(s[|s| - 1], SortBy(s[..|s| - 1], key), key)
  {
  }

  /** Sorting keeps the members. */
  lemma {:induction false} SortedMember<T>(s: seq<T>, key: T -> Option<int>, y: T)
    ensures y in SortBy(s, key) <==> y in s
  {
    assert y in SortBy(s, key) <==> y in multiset(SortBy(s, key));
    assert y in s <==> y in multiset(s);
  }

  /** `Array.prototype.filter`: the elements `keep` accepts, in order. */
  function Filter<T(!new)>(s: seq<T>, keep: T -> bool): (r: seq<T>)
    ensures forall x :: x in r <==> x in s && keep(x)
    ensures |r| <= |s|
  {
    if |s| == 0 then []
    else
      assert forall x :: x in s <==> x == s[0] || x in s[1..];
      (if keep(s[0]) then [s[0]] else []) + Filter(s[1..], keep)
  }

  /** Filtering keeps the order of the kept elements, and adds no order of its own. */
  lemma {:induction false} FilterKeepsOrder<T(!new)>(s: seq<T>, keep: T -> bool, a: T, b: T)
    requires keep(a) && keep(b)
    ensures Before(Filter(s, keep), a, b) <==> Before(s, a, b)
  {
    if Before(s, a, b) {
      FilterKeeps(s, keep, a, b);
    }
    if Before(Filter(s, keep), a, b) {
      FilterOrderFrom(s, keep, a, b);
    }
  }

  lemma {:induction false} FilterKeeps<T(!new)>(s: seq<T>, keep: T -> bool, a: T, b: T)
    requires keep(a) && keep(b) && Before(s, a, b)
    ensures Before(Filter(s, keep), a, b)
    decreases |s|
  {
    var i, j :| 0 <= i < j < |s| && s[i] == a && s[j] == b;
    var r := Filter(s, keep);
    var rest := Filter(s[1..], keep);
    assert s[1..][j - 1] == b;
    if i == 0 {
      assert r == [a] + rest;
      assert b in rest;
      var j' :| 0 <= j' < |rest| && rest[j'] == b;
      assert r[0] == a && r[j' + 1] == b;
    } else {
      var head := if keep(s[0]) then [s[0]] else [];
      assert r == head + rest;
      assert s[1..][i - 1] == a;
      FilterKeeps(s[1..], keep, a, b);
      var i', j' :| 0 <= i' < j' < |rest| && rest[i'] == a && rest[j'] == b;
      assert r[i' + |head|] == a && r[j' + |head|] == b;
    }
  }

  lemma {:induction false} FilterOrderFrom<T(!new)>(s: seq<T>, keep: T -> bool, a: T, b: T)
    requires Before(Filter(s, keep), a, b)
    ensures Before(s, a, b)
    decreases |s|
  {
    var r := Filter(s, keep);
    var i, j :| 0 <= i < j < |r| && r[i] == a && r[j] == b;
    var rest := Filter(s[1..], keep);
    var head := if keep(s[0]) then [s[0]] else [];
    assert r == head + rest;
    if |head| == 1 && i == 0 {
      assert rest[j - 1] == b;
      assert b in s[1..];
      var j' :| 0 <= j' < |s[1..]| && s[1..][j'] == b;
      assert s[0] == a && s[j' + 1] == b;
    } else {
      assert rest[i - |head|] == a && rest[j - |head|] == b;
      FilterOrderFrom(s[1..], keep, a, b);
      var i', j' :| 0 <= i' < j' < |s[1..]| && s[1..][i'] == a && s[1..][j'] == b;
      assert s[i' + 1] == a && s[j' + 1] == b;
    }
  }

  predicate StrictlyIncreasing(s: seq<int>) {
    forall i, j :: 0 <= i < j < |s| ==> s[i] < s[j]
  }

  /** `x` added to a strictly increasing list, unless already there. */
  function InsertUnique(x: int, s: seq<int>): (r: seq<int>)
    requires StrictlyIncreasing(s)
    ensures StrictlyIncreasing(r)
    ensures forall y :: y in r <==> y == x || y in s
  {
    if |s| == 0 then [x]
    else if x < s[0] then
      IncreasingCons(x, s);
      [x] + s
    else if x == s[0] then s
    else
      var rest := InsertUnique(x, s[1..]);
      assert forall y :: y in s <==> y == s[0] || y in s[1..] by {
        assert s == [s[0]] + s[1..];
      }
      forall k | 0 <= k < |rest| ensures s[0] < rest[k] {
        var z := rest[k];
        assert z in rest;
      }
      IncreasingCons(s[0], rest);
      [s[0]] + rest
  }

  /** A head below every element keeps a list strictly increasing. */
  lemma {:induction false} IncreasingCons(y: int, t: seq<int>)
    requires StrictlyIncreasing(t)
    requires forall k :: 0 <= k < |t| ==> y < t[k]
    ensures StrictlyIncreasing([y] + t)
    ensures forall z :: z in [y] + t <==> z == y || z in t
  {
    var r := [y] + t;
    forall i, j | 0 <= i < j < |r| ensures r[i] < r[j] {
      assert r[j] == t[j - 1];
      if i > 0 {
        assert r[i] == t[i - 1];
      }
    }
  }

  /** The distinct values of `xs` in ascending order. */
  function SortedUnique(xs: seq<int>): (r: seq<int>)
    ensures StrictlyIncreasing(r)
    ensures forall y :: y in r <==> y in xs
  {
    if |xs| == 0 then []
    else
      var r := InsertUnique(xs[|xs| - 1], SortedUnique(xs[..|xs| - 1]));
      assert forall y :: y in xs <==> y in xs[..|xs| - 1] || y == xs[|xs| - 1] by {
        assert xs == xs[..|xs| - 1] + [xs[|xs| - 1]];
      }
      r
  }

  /** No value occurs twice. */
  predicate Distinct<T(==)>(s: seq<T>) {
    forall i, j :: 0 <= i < j < |s| ==> s[i] != s[j]
  }

  /** A list without repeats holds each value at most once. */
  lemma {:induction false} DistinctAtMostOnce<T>(a: seq<T>, x: T)
    requires Distinct(a)
    ensures multiset(a)[x] <= 1
  {
    if |a| > 0 {
      DistinctAtMostOnce(a[1..], x);
      assert a == [a[0]] + a[1..];
      if a[0] == x {
        assert x !in a[1..];
      }
    }
  }

  /** A rearrangement of a list without repeats has none, and the same members. */
  lemma {:induction false} DistinctPermutation<T>(a: seq<T>, b: seq<T>)
    requires multiset(a) == multiset(b) && Distinct(a)
    ensures Distinct(b)
    ensures forall x :: x in b <==> x in a
  {
    forall x ensures x in b <==> x in a {
      assert x in b <==> x in multiset(b);
      assert x in a <==> x in multiset(a);
    }
    forall i, j | 0 <= i < j < |b| ensures b[i] != b[j] {
      if b[i] == b[j] {
        var x := b[i];
        assert b == b[..j] + b[j..];
        assert x in b[..j];
        assert x in b[j..];
        assert multiset(b)[x] == multiset(b[..j])[x] + multiset(b[j..])[x];
        DistinctAtMostOnce(a, x);
      }
    }
  }
}

=== FILE: store.dfy ===
/** The normalised entity collections of the application state
    (`{byId, allIds}`, src/state.js:695-707). */
module Collections {

  datatype Collection<T> = Collection(byId: map<string, T>, allIds: seq<string>)

  /** `allIds` lists every key of `byId` exactly once. */
  ghost predicate Valid<T>(c: Collection<T>) {
    && (forall i, j :: 0 <= i < j < |c.allIds| ==> c.allIds[i] != c.allIds[j])
    && (forall id :: id in c.byId <==> id in c.allIds)
  }

  function Empty<T>(): (c: Collection<T>)
    ensures Valid(c)
  {
    Collection(map[], [])
  }

  /** `addToCollection`: stores the entity under its id and appends the id
      when it is new. */
  function Add<T>(c: Collection<T>, id: string, entity: T): (r: Collection<T>)
    ensures r.byId == c.byId[id := entity]
    ensures id in c.allIds ==> r.allIds == c.allIds
    ensures id !in c.allIds ==> r.allIds == c.allIds + [id]
    ensures Valid(c) ==> Valid(r)
  {
    Collection(c.byId[id := entity], if id in c.allIds then c.allIds else c.allIds + [id])
  }

  /** `allIds.map((id) => byId[id])`. */
  function Items<T>(c: Collection<T>): (items: seq<T>)
    requires Valid(c)
    ensures |items| == |c.allIds|
    ensures forall i :: 0 <= i < |items| ==> items[i] == c.byId[c.allIds[i]]
  {
    seq(|c.allIds|, i requires 0 <= i < |c.allIds| => c.byId[c.allIds[i]])
  }
}

/** The reactive store's change accounting (`createStore`,
    src/state.js:709-783): `version` and `historial` move only when a
    mutation really changes the state. The store is generic in the data it
    holds; `version` and `historial` are kept beside it. */
module Store {
  import opened Wrappers

  datatype Entry<D> = Entry(ts: int, user: string, action: string, before: D, after: D)

  datatype Store<D> = Store(data: D, version: int, historial: seq<Entry<D>>)

  /** What a mutator leaves behind: the data as it stands when the mutator
      returns or throws, and the message it threw, if any. */
  datatype Outcome<D> = Outcome(data: D, error: Option<string>)

  /** The store after an operation, and the error it rethrows, if any. */
  datatype Applied<D> = Applied(store: Store<D>, error: Option<string>)

  /** `meta?.action || 'patch'`. */
  function ActionName(action: Option<string>): (name: string)
    ensures name != ""
  {
    if action.Some? && action.value != "" then action.value else "patch"
  }

  /** One more history entry and version exactly when the data differs from
      the snapshot taken before. */
  predicate Recorded<D(==)>(s: Store<D>, before: D, r: Store<D>, action: Option<string>, now: int) {
    && r.data == s.data
    && (before == s.data ==> r == s)
    && (before != s.data ==>
          && r.version == s.version + 1
          && r.historial == s.historial + [Entry(now, "me", ActionName(action), before, s.data)])
  }

  /** `recordChange(meta, before)`: compares the snapshot with the current data. */
  function RecordChange<D(==)>(s: Store<D>, action: Option<string>, before: D, now: int): (r: Store<D>)
    ensures r.data == s.data
    ensures r.version - s.version == |r.historial| - |s.historial|
    ensures r.version == s.version + 1 <==> before != s.data
    ensures r.version == s.version <==> before == s.data
    ensures before != s.data ==> (r.historial[|r.historial| - 1].before == before
                                  && r.historial[|r.historial| - 1].after == s.data)
  {
    if before == s.data then s
    else Store(s.data, s.version + 1, s.historial + [Entry(now, "me", ActionName(action), before, s.data)])
  }

  /** `applyMutation(meta, mutator)` outside a transaction, as written: a
      mutator that throws part-way leaves its partial changes in the state,
      and `recordChange` is skipped. */
  function ApplyMutationAsWritten<D(==)>(s: Store<D>, action: Option<string>, mutate: D -> Outcome<D>, now: int)
    : (r: Applied<D>)
    ensures r.error == mutate(s.data).error
    ensures r.store.data == mutate(s.data).data
    ensures r.error.Some? ==> r.store.version == s.version && r.store.historial == s.historial
    ensures r.error.None? ==> Recorded(s.(data := mutate(s.data).data), s.data, r.store, action, now)
  {
    var o := mutate(s.data);
    if o.error.Some? then Applied(s.(data := o.data), o.error)
    else Applied(RecordChange(s.(data := o.data), action, s.data, now), None)
  }

  /** A mutator that changes the data and then throws. */
  function ChangeThenThrow(x: int): Outcome<int> {
    Outcome(x + 1, Some("throws after a change"))
  }

  /** The as-written `applyMutation` can change the state without bumping the
      version or logging a history entry. */
  lemma {:induction false} UnrecordedChange()
    ensures var s := Store(0, 0, []);
            var r := ApplyMutationAsWritten(s, None, ChangeThenThrow, 0);
            r.store.data != s.data && r.store.version == s.version && r.store.historial == s.historial
  {
  }

  /** `applyMutation(meta, mutator)` outside a transaction, with the change
      recorded in a `finally` as `transact` does: whatever the mutator leaves
      is accounted for, and its error is still rethrown. */
  function ApplyMutation<D(==)>(s: Store<D>, action: Option<string>, mutate: D -> Outcome<D>, now: int)
    : (r: Applied<D>)
    ensures r.error == mutate(s.data).error
    ensures r.store.data == mutate(s.data).data
    ensures Recorded(s.(data := mutate(s.data).data), s.data, r.store, action, now)
  {
    var o := mutate(s.data);
    Applied(RecordChange(s.(data := o.data), action, s.data, now), o.error)
  }

  /** The store invariant: the version moves by one and one entry is logged
      exactly when the data changes, and never otherwise. */
  lemma {:induction false} ApplyMutationAccounts<D>(s: Store<D>, action: Option<string>, mutate: D -> Outcome<D>, now: int)
    ensures var r := ApplyMutation(s, action, mutate, now).store;
            && (r.data != s.data <==> r.version == s.version + 1)
            && (r.data != s.data <==> |r.historial| == |s.historial| + 1)
            && (r.data == s.data <==> r == s)
  {
  }

  /** A step of a transaction's function: a mutation, or a nested
      `transact`, which is refused because a batch is open. */
  datatype Step<!D> = Mutate(mutate: D -> Outcome<D>) | NestedTransact

  const NestedRejected: string := "No es permeten transaccions imbricades"

  /** The steps of a batch run in order; inside a batch `applyMutation` only
      runs the mutator, and the first throw ends the batch. */
  function RunBatch<D>(data: D, steps: seq<Step<D>>): (o: Outcome<D>)
    ensures (exists k :: 0 <= k < |steps| && steps[k].NestedTransact?) ==> o.error.Some?
    ensures steps == [] ==> o == Outcome(data, None)
    decreases |steps|
  {
    if |steps| == 0 then Outcome(data, None)
    else
      match steps[0]
      case NestedTransact => Outcome(data, Some(NestedRejected))
      case Mutate(f) =>
        var o := f(data);
        if o.error.Some? then o
        else
          var rest := RunBatch(o.data, steps[1..]);
          assert forall k :: 1 <= k < |steps| ==> steps[k] == steps[1..][k - 1];
          rest
  }

  /** `transact(fn, meta)`: runs the batch and, in its `finally`, records at
      most one change for the whole batch, even when the batch throws. */
  function Transact<D(==)>(s: Store<D>, steps: seq<Step<D>>, action: Option<string>, now: int): (r: Applied<D>)
    ensures r.error == RunBatch(s.data, steps).error
    ensures r.store.data == RunBatch(s.data, steps).data
    ensures r.store.version <= s.version + 1
    ensures |r.store.historial| <= |s.historial| + 1
    ensures r.store.version == s.version + 1 <==> r.store.data != s.data
    ensures (exists k :: 0 <= k < |steps| && steps[k].NestedTransact?) ==> r.error.Some?
  {
    var o := RunBatch(s.data, steps);
    Applied(RecordChange(s.(data := o.data), action, s.data, now), o.error)
  }

  /** A transaction of mutations that each change nothing leaves the store
      as it was. */
  lemma {:induction false} NoOpBatch<D>(data: D, steps: seq<Step<D>>)
    requires forall k :: 0 <= k < |steps| ==> steps[k].Mutate? && steps[k].mutate(data) == Outcome(data, None)
    ensures RunBatch(data, steps) == Outcome(data, None)
    decreases |steps|
  {
    if |steps| > 0 {
      NoOpBatch(data, steps[1..]);
    }
  }
}

=== FILE: text.dfy ===
/** The pieces of JavaScript string handling the modelled code relies on:
    the `\s` character class (also what `trim` removes), ASCII digits, and the
    decimal rendering of integers. */
module Text {

  /** JavaScript's `\s`: WhiteSpace and LineTerminator code points. */
  predicate IsSpace(c: char) {
    || c == '\t' || c == '\n' || c == '\U{000B}' || c == '\U{000C}' || c == '\r' || c == ' '
    || c == '\U{00A0}' || c == '\U{1680}' || ('\U{2000}' <= c <= '\U{200A}')
    || c == '\U{2028}' || c == '\U{2029}' || c == '\U{202F}' || c == '\U{205F}'
    || c == '\U{3000}' || c == '\U{FEFF}'
  }

  /** `\d`: the ASCII digits only. */
  predicate IsDigit(c: char) {
    '0' <= c <= '9'
  }

  predicate AllDigits(s: string) {
    forall i :: 0 <= i < |s| ==> IsDigit(s[i])
  }

  predicate AllSpace(s: string) {
    forall i :: 0 <= i < |s| ==> IsSpace(s[i])
  }

  function TrimStart(s: string): (r: string)
    ensures |r| <= |s| && r == s[|s| - |r|..]
    ensures AllSpace(s[..|s| - |r|])
    ensures r == [] || !IsSpace(r[0])
  {
    if |s| > 0 && IsSpace(s[0]) then
      var r := TrimStart(s[1..]);
      assert s[..|s| - |r|] == [s[0]] + s[1..][..|s| - 1 - |r|];
      r
    else s
  }

  function TrimEnd(s: string): (r: string)
    ensures |r| <= |s| && r == s[..|r|]
    ensures AllSpace(s[|r|..])
    ensures r == [] || !IsSpace(r[|r| - 1])
  {
    if |s| > 0 && IsSpace(s[|s| - 1]) then
      var r := TrimEnd(s[..|s| - 1]);
      assert s[|r|..] == s[..|s| - 1][|r|..] + [s[|s| - 1]];
      r
    else s
  }

  /** `String.prototype.trim`: the text between the leading and the
      trailing white space. */
  function Trim(s: string): (r: string)
    ensures r == [] || (!IsSpace(r[0]) && !IsSpace(r[|r| - 1]))
    ensures exists pre, post :: s == pre + r + post && AllSpace(pre) && AllSpace(post)
  {
    var t := TrimStart(s);
    var r := TrimEnd(t);
    TrimBetween(s, t, r);
    r
  }

  /** What `TrimStart` skips and what `TrimEnd` cuts off around `r` are
      white space, and between them is `r`. */
  lemma {:induction false} TrimBetween(s: string, t: string, r: string)
    requires |t| <= |s| && t == s[|s| - |t|..] && AllSpace(s[..|s| - |t|])
    requires |r| <= |t| && r == t[..|r|] && AllSpace(t[|r|..])
    ensures exists pre, post :: s == pre + r + post && AllSpace(pre) && AllSpace(post)
  {
    var pre, post := s[..|s| - |t|], t[|r|..];
    assert t == r + post;
    assert s == pre + t;
    assert s == pre + r + post;
  }

  lemma {:induction false} TrimStartAllSpace(s: string)
    requires AllSpace(s)
    ensures TrimStart(s) == []
  {
  }

  /** Trimming leaves nothing exactly when the text is all white space. */
  lemma {:induction false} TrimEmptyIffAllSpace(s: string)
    ensures Trim(s) == [] <==> AllSpace(s)
  {
    if AllSpace(s) {
      TrimStartAllSpace(s);
    }
    if Trim(s) == [] {
      var t := TrimStart(s);
      assert t[0..] == t;
      assert s == s[..|s| - |t|] + t;
    }
  }

  /** `s.replace(/\s/gu, '')`: every white-space character removed. */
  function RemoveSpaces(s: string): (r: string)
    ensures forall i :: 0 <= i < |r| ==> !IsSpace(r[i])
    ensures |s| == 1 ==> r == if IsSpace(s[0]) then "" else s
    ensures |r| <= |s|
  {
    if |s| == 0 then ""
    else if IsSpace(s[0]) then RemoveSpaces(s[1..])
    else [s[0]] + RemoveSpaces(s[1..])
  }

  /** Exactly the characters that are not white space are kept. */
  lemma {:induction false} RemoveSpacesKeeps(s: string)
    ensures forall c :: c in RemoveSpaces(s) <==> c in s && !IsSpace(c)
    decreases |s|
  {
    if |s| > 0 {
      RemoveSpacesKeeps(s[1..]);
      assert forall c :: c in s <==> c == s[0] || c in s[1..];
    }
  }

  lemma {:induction false} RemoveSpacesAppend(a: string, b: string)
    ensures RemoveSpaces(a + b) == RemoveSpaces(a) + RemoveSpaces(b)
  {
    if |a| > 0 {
      assert (a + b)[1..] == a[1..] + b;
      RemoveSpacesAppend(a[1..], b);
    } else {
      assert a + b == b;
    }
  }

  lemma {:induction false} RemoveSpacesNoSpace(s: string)
    requires forall i :: 0 <= i < |s| ==> !IsSpace(s[i])
    ensures RemoveSpaces(s) == s
    decreases |s|
  {
    if |s| > 0 {
      RemoveSpacesNoSpace(s[1..]);
      assert s == [s[0]] + s[1..];
    }
  }

  function DigitChar(d: int): (c: char)
    requires 0 <= d < 10
    ensures IsDigit(c)
  {
    ('0' as int + d) as char
  }

  function DigitOf(c: char): (d: int)
    requires IsDigit(c)
    ensures 0 <= d < 10 && DigitChar(d) == c
  {
    c as int - '0' as int
  }

  /** `Number(s)` for a string of ASCII digits (leading zeros allowed). */
  function DigitsValue(s: string): (n: nat)
    requires AllDigits(s)
  {
    if |s| == 0 then 0 else DigitsValue(s[..|s| - 1]) * 10 + DigitOf(s[|s| - 1])
  }

  /** `String(n)` for a natural number: no leading zero, never empty. */
  function NatToString(n: nat): (s: string)
    ensures |s| > 0 && AllDigits(s)
    ensures |s| > 1 ==> s[0] != '0'
  {
    if n < 10 then [DigitChar(n)] else NatToString(n / 10) + [DigitChar(n % 10)]
  }

  /** `String(i)` for any integer. */
  function IntToString(i: int): string {
    if i < 0 then "-" + NatToString(-i) else NatToString(i)
  }

  /** Reading back the decimal rendering of `n` gives `n`. */
  lemma {:induction false} DigitsValueOfNatToString(n: nat)
    ensures DigitsValue(NatToString(n)) == n
  {
    if n >= 10 {
      var s := NatToString(n);
      assert s[..|s| - 1] == NatToString(n / 10);
      DigitsValueOfNatToString(n / 10);
    }
  }

  /** `s.includes(part)`. */
  predicate Contains(s: string, part: string) {
    || (|part| <= |s| && s[..|part|] == part)
    || (|s| > 0 && Contains(s[1..], part))
  }

  /** Dropping characters distributes over concatenation. */
  lemma {:induction false} WithoutAppend(a: string, b: string, drop: set<char>)
    ensures Without(a + b, drop) == Without(a, drop) + Without(b, drop)
    decreases |a|
  {
    if |a| == 0 {
      assert a + b == b;
    } else {
      assert (a + b)[1..] == a[1..] + b;
      WithoutAppend(a[1..], b, drop);
    }
  }

  /** Nothing to drop leaves the text as it is. */
  lemma {:induction false} WithoutNone(s: string, drop: set<char>)
    requires forall i :: 0 <= i < |s| ==> s[i] !in drop
    ensures Without(s, drop) == s
    decreases |s|
  {
    if |s| > 0 {
      WithoutNone(s[1..], drop);
      assert s == [s[0]] + s[1..];
    }
  }

  /** `s` with every occurrence of the characters in `drop` removed
      (`s.replace(/[-:]/g, '')` for `drop == "-:"`). */
  function Without(s: string, drop: set<char>): (r: string)
    ensures |r| <= |s|
    ensures forall i :: 0 <= i < |r| ==> r[i] !in drop
  {
    if |s| == 0 then ""
    else if s[0] in drop then Without(s[1..], drop)
    else [s[0]] + Without(s[1..], drop)
  }
}

=== FILE: views.dfy ===
/** The pure calendar helpers of the user interface (src/views.js:203-281):
    the calendar of an assignatura as the views see it, the weekday label
    list, and the check of a trimestre's date range against the others. */
module Views {
  import opened Wrappers
  import opened Sorting
  import opened Collections
  import opened Text
  import opened Calendar

  // ----- getCalendariForAssignatura -----

  /** A schedule version as the views show it: its days without repeats,
      in ascending order. */
  function NormalizeVersio(v: HorariVersio): (r: HorariVersio)
    ensures r.id == v.id && r.effectiveFrom == v.effectiveFrom
    ensures StrictlyIncreasing(r.diesSetmanals)
    ensures forall d :: d in r.diesSetmanals <==> d in v.diesSetmanals
  {
    v.(diesSetmanals := SortedUnique(v.diesSetmanals))
  }

  function NormalizeVersions(vs: seq<HorariVersio>): (r: seq<HorariVersio>)
    ensures |r| == |vs|
    ensures forall i :: 0 <= i < |vs| ==> r[i] == NormalizeVersio(vs[i])
  {
    seq(|vs|, i requires 0 <= i < |vs| => NormalizeVersio(vs[i]))
  }

  /** `getCalendariForAssignatura(state, assignaturaId)`: nothing for an
      empty id; the first calendar of the assignatura with its versions'
      days normalised; or, when there is none, an empty calendar carrying
      the assignatura (it has no id, written here as the empty id). The
      dates are already normalised day numbers. */
  function GetCalendariForAssignatura(cals: Collection<Calendari>, assignaturaId: string): (r: Option<Calendari>)
    requires Valid(cals)
    ensures r.None? <==> assignaturaId == ""
    ensures r.Some? ==> r.value.assignaturaId == assignaturaId
    ensures r.Some? && GetCalendari(cals, assignaturaId).None? ==> r.value == EmptyCalendari("", assignaturaId)
    ensures r.Some? && GetCalendari(cals, assignaturaId).Some? ==>
              var c := GetCalendari(cals, assignaturaId).value;
              && r.value == c.(horariVersions := r.value.horariVersions)
              && |r.value.horariVersions| == |c.horariVersions|
              && forall i :: 0 <= i < |c.horariVersions| ==>
                   && r.value.horariVersions[i].id == c.horariVersions[i].id
                   && r.value.horariVersions[i].effectiveFrom == c.horariVersions[i].effectiveFrom
                   && StrictlyIncreasing(r.value.horariVersions[i].diesSetmanals)
                   && forall d :: d in r.value.horariVersions[i].diesSetmanals <==> d in c.horariVersions[i].diesSetmanals
  {
    if assignaturaId == "" then None
    else
      match GetCalendari(cals, assignaturaId)
      case None => Some(EmptyCalendari("", assignaturaId))
      case Some(c) => Some(c.(horariVersions := NormalizeVersions(c.horariVersions)))
  }

  /** A list strictly increasing under `f` is determined by its elements. */
  lemma {:induction false} IncreasingUnique(a: seq<int>, b: seq<int>, f: int -> int)
    requires forall i, j :: 0 <= i < j < |a| ==> f(a[i]) < f(a[j])
    requires forall i, j :: 0 <= i < j < |b| ==> f(b[i]) < f(b[j])
    requires forall x :: x in a <==> x in b
    ensures a == b
    decreases |a|
  {
    if |a| > 0 {
      var x := a[0];
      assert x in a;
    }
    if |b| > 0 {
      var x := b[0];
      assert x in b;
    }
    if |a| > 0 && |b| > 0 {
      var k :| 0 <= k < |b| && b[k] == a[0];
      var m :| 0 <= m < |a| && a[m] == b[0];
      assert f(b[0]) <= f(a[0]) && f(a[0]) <= f(b[0]);
      assert a[0] == b[0];
      forall x ensures x in a[1..] ==> x in b[1..] {
        TailMember(a, b, f, x);
      }
      forall x ensures x in b[1..] ==> x in a[1..] {
        TailMember(b, a, f, x);
      }
      IncreasingUnique(a[1..], b[1..], f);
      assert a == [a[0]] + a[1..] && b == [b[0]] + b[1..];
    }
  }

  /** Past equal heads, an element of one tail is in the other. */
  lemma {:induction false} TailMember(a: seq<int>, b: seq<int>, f: int -> int, x: int)
    requires forall i, j :: 0 <= i < j < |a| ==> f(a[i]) < f(a[j])
    requires forall x :: x in a <==> x in b
    requires |a| > 0 && |b| > 0 && a[0] == b[0]
    ensures x in a[1..] ==> x in b[1..]
  {
    if x in a[1..] {
      var i :| 0 <= i < |a| - 1 && a[1..][i] == x;
      assert a[i + 1] == x && x in a;
      var k :| 0 <= k < |b| && b[k] == x;
      assert f(a[0]) < f(a[i + 1]);
      assert b[1..][k - 1] == x;
    }
  }

  /** Normalising a calendar the views already normalised changes nothing. */
  lemma {:induction false} NormalizeVersionsIdempotent(vs: seq<HorariVersio>)
    ensures NormalizeVersions(NormalizeVersions(vs)) == NormalizeVersions(vs)
  {
    var once := NormalizeVersions(vs);
    forall i | 0 <= i < |vs| ensures NormalizeVersio(once[i]) == once[i] {
      IncreasingUnique(SortedUnique(once[i].diesSetmanals), once[i].diesSetmanals, x => x);
    }
  }

  // ----- formatDiesSetmanals -----

  const NoDays: string := "Cap dia definit"

  /** The position of a day in the week as the views list it, Monday (1)
      first and Sunday (0) last; any other value comes before them all, as
      `indexOf` gives it -1. */
  function Rank(d: int): (n: int)
    ensures -1 <= n <= 6
    ensures 0 <= d <= 6 <==> n >= 0
  {
    if 1 <= d <= 6 then d - 1 else if d == 0 then 6 else -1
  }

  function RankKey(d: int): Option<int> {
    Some(Rank(d))
  }

  /** The week in the order the views list it. */
  const WeekdayOrder: seq<int> := [1, 2, 3, 4, 5, 6, 0]

  /** The Catalan short names of the days, Sunday (0) to Saturday (6). */
  const WeekdayLabels: seq<string> := ["Dg", "Dl", "Dt", "Dc", "Dj", "Dv", "Ds"]

  /** `WEEKDAY_LABEL[dia] || dia`: a day's short name; another value is shown
      as a number. */
  function Label(d: int): (r: string)
    ensures 0 <= d < 7 ==> r == WeekdayLabels[d]
    ensures !(0 <= d < 7) ==> r == IntToString(d)
    ensures |r| > 0
    ensures forall i :: 0 <= i < |r| ==> r[i] != ',' && r[i] != ' '
  {
    if d == 0 then "Dg"
    else if d == 1 then "Dl"
    else if d == 2 then "Dt"
    else if d == 3 then "Dc"
    else if d == 4 then "Dj"
    else if d == 5 then "Dv"
    else if d == 6 then "Ds"
    else
      var s := IntToString(d);
      assert forall i :: 0 <= i < |s| ==> s[i] == '-' || IsDigit(s[i]);
      s
  }

  /** `Array.from(new Set(xs))`: each value once, at its first occurrence. */
  function Dedup(xs: seq<int>): (r: seq<int>)
    ensures Distinct(r)
    ensures forall x :: x in r <==> x in xs
  {
    if |xs| == 0 then []
    else
      var p := Dedup(xs[..|xs| - 1]);
      assert forall x :: x in xs <==> x in xs[..|xs| - 1] || x == xs[|xs| - 1] by {
        assert xs == xs[..|xs| - 1] + [xs[|xs| - 1]];
      }
      if xs[|xs| - 1] in p then p else p + [xs[|xs| - 1]]
  }

  /** The days in the order they are listed: each once, stably sorted by
      their place in the week. */
  function OrderDies(dies: seq<int>): (r: seq<int>)
    ensures Distinct(r)
    ensures forall x :: x in r <==> x in dies
    ensures forall i, j :: 0 <= i < j < |r| ==> Rank(r[i]) <= Rank(r[j])
  {
    var u := Dedup(dies);
    var r := SortBy(u, RankKey);
    DistinctPermutation(u, r);
    assert forall i, j :: 0 <= i < j < |r| ==> KeyLe(RankKey(r[i]), RankKey(r[j]));
    r
  }

  /** `w` occurs in `t`. */
  ghost predicate Mentions(t: string, w: string) {
    exists p, q :: t == p + w + q
  }

  /** `ordered.map(label).join(', ')`. */
  function JoinLabels(ds: seq<int>): (r: string)
    ensures |ds| > 0 ==> |r| > 0
    ensures |ds| == 1 ==> r == Label(ds[0])
    ensures |ds| > 1 ==> exists i :: 0 <= i < |r| && r[i] == ','
    ensures forall k :: 0 <= k < |ds| ==> Mentions(r, Label(ds[k]))
  {
    if |ds| == 0 then ""
    else if |ds| == 1 then
      MentionsHead(Label(ds[0]), "");
      assert Label(ds[0]) + "" == Label(ds[0]);
      Label(ds[0])
    else
      var rest := JoinLabels(ds[1..]);
      JoinCons(ds, rest);
      Label(ds[0]) + ", " + rest
  }

  /** Putting the first label and a comma before the labels of the rest
      mentions every label. */
  lemma {:induction false} JoinCons(ds: seq<int>, rest: string)
    requires |ds| > 1
    requires forall k :: 0 <= k < |ds[1..]| ==> Mentions(rest, Label(ds[1..][k]))
    ensures |Label(ds[0])| < |Label(ds[0]) + ", " + rest|
    ensures (Label(ds[0]) + ", " + rest)[|Label(ds[0])|] == ','
    ensures forall k :: 0 <= k < |ds| ==> Mentions(Label(ds[0]) + ", " + rest, Label(ds[k]))
  {
    var r := Label(ds[0]) + ", " + rest;
    assert r == Label(ds[0]) + (", " + rest);
    MentionsHead(Label(ds[0]), ", " + rest);
    forall k | 1 <= k < |ds| ensures Mentions(r, Label(ds[k])) {
      assert ds[k] == ds[1..][k - 1];
      MentionsAfter(Label(ds[0]) + ", ", rest, Label(ds[k]));
    }
  }

  lemma {:induction false} MentionsHead(w: string, t: string)
    ensures Mentions(w + t, w)
  {
    assert w + t == [] + w + t;
  }

  lemma {:induction false} MentionsAfter(a: string, t: string, w: string)
    requires Mentions(t, w)
    ensures Mentions(a + t, w)
  {
    var p, q :| t == p + w + q;
    assert a + t == (a + p) + w + q;
  }

  /** `formatDiesSetmanals(dies)`: a placeholder for no day, otherwise the
      labels of the days, each once, in week order. */
  function FormatDiesSetmanals(dies: seq<int>): (r: string)
    ensures r == NoDays <==> |dies| == 0
    ensures forall d :: d in dies ==> Mentions(r, Label(d))
    ensures |dies| > 0 ==> r == JoinLabels(OrderDies(dies))
  {
    if |dies| == 0 then NoDays
    else
      var ordered := OrderDies(dies);
      assert dies[0] in ordered;
      forall d | d in dies ensures Mentions(JoinLabels(ordered), Label(d)) {
        var k :| 0 <= k < |ordered| && ordered[k] == d;
      }
      JoinIsNotNoDays(ordered);
      JoinLabels(ordered)
  }

  /** No list of labels reads as the placeholder: a single label has no
      space, and a longer list has a comma. */
  lemma {:induction false} JoinIsNotNoDays(ds: seq<int>)
    requires |ds| > 0
    ensures JoinLabels(ds) != NoDays
  {
    var r := JoinLabels(ds);
    if |ds| > 1 {
      var i :| 0 <= i < |r| && r[i] == ',';
      assert forall k :: 0 <= k < |NoDays| ==> NoDays[k] != ',';
    } else {
      assert NoDays[3] == ' ';
    }
  }

  /** The elements of `order` that occur in `dies`, in `order`'s order. */
  function Keep(order: seq<int>, dies: seq<int>): (r: seq<int>)
    ensures forall x :: x in r <==> x in order && x in dies
    ensures (forall i, j :: 0 <= i < j < |order| ==> Rank(order[i]) < Rank(order[j])) ==>
              forall i, j :: 0 <= i < j < |r| ==> Rank(r[i]) < Rank(r[j])
  {
    if |order| == 0 then []
    else
      var rest := Keep(order[1..], dies);
      assert forall x :: x in order[1..] ==> x in order;
      if order[0] in dies then
        var r := [order[0]] + rest;
        assert forall i :: 1 <= i < |r| ==> r[i] in order[1..];
        r
      else rest
  }

  /** Each day of the week that occurs in `dies`, once, Monday to Saturday
      and then Sunday. */
  function WeekdaysIn(dies: seq<int>): (r: seq<int>)
    ensures forall x :: x in r <==> 0 <= x <= 6 && x in dies
  {
    Keep(WeekdayOrder, dies)
  }

  /** On days of the week, the order of the list is the week's: the days
      that occur, Monday first and Sunday last. */
  lemma {:induction false} OrderDiesWeekdays(dies: seq<int>)
    requires forall i :: 0 <= i < |dies| ==> 0 <= dies[i] <= 6
    ensures OrderDies(dies) == WeekdaysIn(dies)
  {
    OrderDiesStrict(dies);
    WeekdayOrderRanks();
    IncreasingUnique(OrderDies(dies), WeekdaysIn(dies), Rank);
  }

  /** On days of the week, the listed order strictly increases in rank. */
  lemma {:induction false} OrderDiesStrict(dies: seq<int>)
    requires forall i :: 0 <= i < |dies| ==> 0 <= dies[i] <= 6
    ensures forall i, j :: 0 <= i < j < |OrderDies(dies)| ==> Rank(OrderDies(dies)[i]) < Rank(OrderDies(dies)[j])
  {
    var r := OrderDies(dies);
    forall i, j | 0 <= i < j < |r| ensures Rank(r[i]) < Rank(r[j]) {
      var x, y := r[i], r[j];
      assert x in r && y in r;
      assert x in dies && y in dies;
    }
  }

  lemma {:induction false} WeekdayOrderRanks()
    ensures forall i, j :: 0 <= i < j < |WeekdayOrder| ==> Rank(WeekdayOrder[i]) < Rank(WeekdayOrder[j])
  {
    assert forall i :: 0 <= i < |WeekdayOrder| ==> Rank(WeekdayOrder[i]) == i;
  }

  // ----- rangesOverlap and validateTrimestreRange -----

  predicate Within(d: Day, lo: Day, hi: Day) {
    lo <= d <= hi
  }

  /** `rangesOverlap(aInici, aFi, bInici, bFi)`: neither range ends before
      the other starts, and never when a bound is missing. On ranges whose
      start is not after their end this is sharing a day. */
  function RangesOverlap(aInici: Option<Day>, aFi: Option<Day>, bInici: Option<Day>, bFi: Option<Day>): (r: bool)
    ensures r <==> && aInici.Some? && aFi.Some? && bInici.Some? && bFi.Some?
                   && bInici.value <= aFi.value && aInici.value <= bFi.value
    ensures aInici.Some? && aFi.Some? && bInici.Some? && bFi.Some?
            && aInici.value <= aFi.value && bInici.value <= bFi.value ==>
              (r <==> exists d :: Within(d, aInici.value, aFi.value) && Within(d, bInici.value, bFi.value))
  {
    if aInici.None? || aFi.None? || bInici.None? || bFi.None? then false
    else
      var r := !(aFi.value < bInici.value || aInici.value > bFi.value);
      if r && aInici.value <= aFi.value && bInici.value <= bFi.value then
        var d := if aInici.value < bInici.value then bInici.value else aInici.value;
        assert Within(d, aInici.value, aFi.value) && Within(d, bInici.value, bFi.value);
        r
      else r
  }

  /** Overlap does not depend on which range comes first. */
  lemma {:induction false} RangesOverlapSymmetric(aInici: Option<Day>, aFi: Option<Day>, bInici: Option<Day>, bFi: Option<Day>)
    ensures RangesOverlap(aInici, aFi, bInici, bFi) == RangesOverlap(bInici, bFi, aInici, aFi)
  {
  }

  const DatesRequired: string := "Les dues dates són obligatòries."
  const EndBeforeStart: string := "La data de fi ha de ser posterior o igual a la data d'inici."

  /** How a trimestre is named in a message: its name, or its id when the
      name is missing or empty. */
  function DisplayName(t: Trimestre): (r: string)
    ensures r == t.id || (t.nom.Some? && r == t.nom.value && r != "")
  {
    if t.nom.Some? && t.nom.value != "" then t.nom.value else t.id
  }

  function OverlapMessage(t: Trimestre): (r: string)
    ensures r != ""
  {
    "El rang se solapa amb " + DisplayName(t) + "."
  }

  /** Whether `t` is another trimestre (not the one being edited) whose
      dates meet `[inici, fi]`. */
  predicate Clashes(t: Trimestre, currentId: Option<string>, inici: Day, fi: Day) {
    Some(t.id) != currentId && RangesOverlap(Some(inici), Some(fi), Some(t.tInici), Some(t.tFi))
  }

  /** The first trimestre that clashes with `[inici, fi]`. */
  function FirstClash(ts: seq<Trimestre>, currentId: Option<string>, inici: Day, fi: Day): (r: Option<nat>)
    ensures r.Some? ==> r.value < |ts| && Clashes(ts[r.value], currentId, inici, fi)
    ensures r.Some? ==> forall i :: 0 <= i < r.value ==> !Clashes(ts[i], currentId, inici, fi)
    ensures r.None? <==> forall i :: 0 <= i < |ts| ==> !Clashes(ts[i], currentId, inici, fi)
  {
    if |ts| == 0 then None
    else if Clashes(ts[0], currentId, inici, fi) then Some(0)
    else
      match FirstClash(ts[1..], currentId, inici, fi)
      case None =>
        assert forall i :: 1 <= i < |ts| ==> ts[i] == ts[1..][i - 1];
        None
      case Some(k) => Some(k + 1)
  }

  /** `validateTrimestreRange(trimestres, currentId, tInici, tFi)`: the empty
      message when both dates are given, in order, and the range meets no
      other trimestre; otherwise the first problem found. */
  function ValidateTrimestreRange(ts: seq<Trimestre>, currentId: Option<string>, tInici: Option<Day>, tFi: Option<Day>)
    : (r: string)
    ensures r == "" <==> && tInici.Some? && tFi.Some? && tInici.value <= tFi.value
                         && forall i :: 0 <= i < |ts| ==> !Clashes(ts[i], currentId, tInici.value, tFi.value)
    ensures tInici.None? || tFi.None? ==> r == DatesRequired
    ensures tInici.Some? && tFi.Some? && tFi.value < tInici.value ==> r == EndBeforeStart
    ensures tInici.Some? && tFi.Some? && tInici.value <= tFi.value && r != "" ==>
              exists i :: 0 <= i < |ts| && r == OverlapMessage(ts[i]) && Clashes(ts[i], currentId, tInici.value, tFi.value)
                          && forall j :: 0 <= j < i ==> !Clashes(ts[j], currentId, tInici.value, tFi.value)
  {
    if tInici.None? || tFi.None? then DatesRequired
    else if tFi.value < tInici.value then EndBeforeStart
    else
      match FirstClash(ts, currentId, tInici.value, tFi.value)
      case None => ""
      case Some(i) => OverlapMessage(ts[i])
  }

  /** The trimestre being edited never blocks its own new range. */
  lemma {:induction false} OwnRangeIgnored(ts: seq<Trimestre>, t: Trimestre, inici: Day, fi: Day)
    requires inici <= fi
    requires forall i :: 0 <= i < |ts| ==> ts[i].id == t.id || !RangesOverlap(Some(inici), Some(fi), Some(ts[i].tInici), Some(ts[i].tFi))
    ensures ValidateTrimestreRange(ts, Some(t.id), Some(inici), Some(fi)) == ""
  {
  }
}

=== FILE: wrappers.dfy ===
/** Failure-carrying values shared by every module of the model. */
module Wrappers {

  /** An optional value: the model's reading of JavaScript's `null`/`undefined`. */
  datatype Option<+T> = None | Some(value: T) {
    predicate IsFailure() { None? }

    function PropagateFailure<U>(): Option<U>
      requires None?
    {
      None
    }

    function Extract(): T
      requires Some?
    {
      value
    }

    function GetOr(default: T): T {
      match this
      case Some(v) => v
      case None => default
    }
  }

  /** The outcome of an operation that may throw: `Ok` or the thrown error. */
  datatype Result<+R, +E> = Ok(value: R) | Err(error: E) {
    predicate IsFailure() { Err? }

    function PropagateFailure<U>(): Result<U, E>
      requires Err?
    {
      Err(error)
    }

    function Extract(): R
      requires Ok?
    {
      value
    }
  }
}
